=== FILE: README.md ===
# JVMDoctor core, modelled in Dafny

JVMDoctor launches Java applications as managed processes and watches them. Its agent serves metrics and takes diagnostics. This project models the logic at the centre of that system and proves what it promises:

- **The process supervisor.** `Processes.ProcessManager` (processes.dfy) is a class over four maps keyed by process id: live processes, histories (never removed), log buffers and subscriber lists. It also holds the id counter.
  - `StartProcess` checks capacity, then draws an id. It then runs the heap-size guard on `-Xmx`/`-Xms` flags and builds the command line (launch.dfy). The controller's cast of `args` is unchecked, so the list may be null or hold nulls and non-strings; the guard's loop throws on those after the id is drawn, and the model keeps that order.
  - The drain thread's step is `OnOutputLine`. It appends the line, keeps the last 500 lines (log_tail.dfy) and fans the line out to subscribers.
  - The other operations are `StopProcess`, the substring and regex log queries, and subscriber registration.
  - Its invariant `Valid` says the following:
    - every buffer holds exactly the last 500 lines of its process's output;
    - live ids are a subset of history ids;
    - every history is filed under its own id, which lies below the counter;
    - a live process's history is not stopped;
    - subscriber lists hold only issued handles, each once;
    - log buffers and subscriber lists are kept for exactly the live ids.
- **The process history record.** `History.ProcessHistory` (history.dfy) has a mutable stop time; its other fields never change.
- **Task bookkeeping.** `Tasks.TaskManager` (tasks.dfy) has an id counter and a map of futures. It sits over an abstract thread pool whose admission rule is that of a `ThreadPoolExecutor` with 1 core worker, 2 at most, a queue of 50 and an abort policy.
- **The REST handlers of the process controller**, as decisions over the request body (json.dfy):
  - request validation and port parsing for `start` (start_endpoint.dfy);
  - stop, metrics, log-query dispatch, the sampling toggle, flight recordings, GC logging, native agents and history (endpoints.dfy);
  - heap dumps and the class histogram with their exception classification, and the async-profiler command (diagnostics.dfy);
  - the class-histogram text reader and its row cap (histogram.dfy).
  
  Reaching a process's agent is a value of type `Endpoints.Agent`. It gives what attaching returns or throws, and what the connection and each MBean call return or raise. Only attaching raises the attach API's own exceptions; a call over the connection raises an ordinary one.
- **The `/tmp` download guard** (download.dfy). It resolves, normalises and checks paths the way `java.nio.file` does on Unix (paths.dfy), and picks the media type and disposition.
- **The UI's Prometheus text reader** (prometheus.dfy). `Number(...)` is an abstract partial conversion to a number.
- **The launcher form's tokenizers** (launcher.dfy): `parseEnvVars` and the JVM-argument split. Their output feeds the backend's start request.

Java and JavaScript library behaviour the code relies on is written out:
- `trim`, `split`, `indexOf`, `lastIndexOf` and `contains` (text.dfy);
- `Integer.parseInt` and `Long.parseLong` with the decimal digits `Character.digit` reads, 32- and 64-bit wrap-around, and decimal rendering (numbers.dfy);
- `Map.of` refusing null values, and `Collectors.toMap` refusing duplicate keys.

The controller calls a five-argument `startProcess` with the environment variables (ProcessController.java line 77). The supervisor declares only four arguments (ProcessManager.java line 46). So the model validates and collects the environment variables in `start` but never passes them on.

## Model

| member | source | states |
|---|---|---|
| Text.TrimLeft | ui/src/utils/prometheus.js:8 | the result is a suffix of the input, every character dropped is white space and the result does not start with white space |
| Text.TrimRight | ui/src/utils/prometheus.js:8 | the result is a prefix of the input, every character dropped is white space and the result does not end with white space |
| Text.Trim | backend/src/main/java/com/jvmdoctor/backend/ProcessController.java:498 | trimming (Java `trim` and JavaScript `trim` differ only in what counts as blank) never lengthens and leaves no blank at either end |
| Text.TrimNoBlank | ui/src/utils/prometheus.js:8 | a string without blank characters is its own trim |
| Text.IndexOf | ui/src/utils/prometheus.js:24 | `indexOf`: -1 exactly when the character is absent, else the position of its first occurrence |
| Text.LastIndexOf | ui/src/utils/prometheus.js:12 | `lastIndexOf`: -1 exactly when the character is absent, else the position of its last occurrence |
| Text.Split | ui/src/utils/prometheus.js:6 | `split` on one character gives at least one piece and no piece holds the separator |
| Text.JoinSplit | ui/src/utils/prometheus.js:6 | joining the pieces of a split with the separator gives back the text |
| Text.SplitJoin | ui/src/utils/prometheus.js:30 | splitting a join of separator-free pieces gives back the pieces |
| Text.FirstSeparator | ui/src/components/process/ProcessLauncherModal.jsx:28 | the first `=` of `key=value` is at the length of a key holding no `=` |
| Text.ContainsIff | backend/src/main/java/com/jvmdoctor/backend/ProcessManager.java:150 | `contains` holds exactly when the needle occurs at some position |
| Text.ToLowerAscii | backend/src/main/java/com/jvmdoctor/backend/ProcessManager.java:62 | lower-casing of ASCII letters only, keeping the length and mapping every character on its own; Java's `toLowerCase` also lower-cases other letters and can lengthen the text, which changes none of the heap guard's decisions since no other letter lower-cases to `m`, `g` or a digit |
| Numbers.Wrap32 | backend/src/main/java/com/jvmdoctor/backend/ProcessManager.java:69 | 32-bit `int` arithmetic: the wrapped value is in range, congruent to the exact one modulo 2^32, and equal to it when it fits |
| Numbers.Wrap64 | backend/src/main/java/com/jvmdoctor/backend/ProcessController.java:197 | the same for 64-bit `long` (`Number.longValue`) |
| Numbers.DecimalDigit | backend/src/main/java/com/jvmdoctor/backend/ProcessManager.java:67 | the value `Character.digit(c, 10)` gives: -1 or a digit; in Latin-1 exactly the ASCII digits; a fullwidth digit is its distance from fullwidth zero |
| Numbers.ParseDecimal | backend/src/main/java/com/jvmdoctor/backend/ProcessManager.java:67 | the digit loop of `parseInt`/`parseLong`: a value exactly when the text is an optional `+` or `-` and at least one decimal digit (any Basic Multilingual Plane digit `Character.digit` reads, fullwidth ones included) whose value lies within the bounds, and then that signed value |
| Numbers.AccumulateReads | backend/src/main/java/com/jvmdoctor/backend/ProcessManager.java:67 | the negative accumulation with the `multmin` test rejects exactly when the digits read pass the bound, and otherwise ends at minus their value |
| Numbers.ParseInt | backend/src/main/java/com/jvmdoctor/backend/ProcessManager.java:67 | `Integer.parseInt`: a value exactly for a signed decimal numeral within 32 bits, and it is the numeral's value |
| Numbers.ParseLong | backend/src/main/java/com/jvmdoctor/backend/ProcessController.java:505 | `Long.parseLong`: a value exactly for a signed decimal numeral within 64 bits, and it is the numeral's value |
| Numbers.NatToDecimal | backend/src/main/java/com/jvmdoctor/backend/ProcessController.java:443 | `String.valueOf` of a natural number is a non-empty run of digits |
| Numbers.DigitsOfNat | backend/src/main/java/com/jvmdoctor/backend/ProcessController.java:443 | the digits rendered for a number read back as that number |
| Numbers.ParseRendersBack | backend/src/main/java/com/jvmdoctor/backend/ProcessController.java:52 | parsing the decimal rendering of an in-range integer gives it back |
| Json.TextField | backend/src/main/java/com/jvmdoctor/backend/ProcessController.java:44 | a `(String) cfg.get(key)` read: null when absent or null, the text when a string, a class-cast failure otherwise |
| Json.TextFieldOr | backend/src/main/java/com/jvmdoctor/backend/ProcessController.java:196 | `containsKey ? (String) get : default`: the default only when the key is absent, a present null stays null |
| Json.ParseBooleanOf | backend/src/main/java/com/jvmdoctor/backend/ProcessController.java:158 | `Boolean.parseBoolean(v.toString())`: true exactly for `true` or text equal to `true` ignoring case; null throws |
| Json.IntValueOf | backend/src/main/java/com/jvmdoctor/backend/ProcessController.java:438 | `((Number) v).intValue()`: defined exactly for numbers, wrapping to 32 bits; null throws |
| Json.LongValueOf | backend/src/main/java/com/jvmdoctor/backend/ProcessController.java:197 | `((Number) v).longValue()`: defined exactly for numbers, wrapping to 64 bits; null throws |
| Json.MapOf | backend/src/main/java/com/jvmdoctor/backend/ProcessController.java:64 | `Map.of` with distinct keys: fails exactly when a value is null, otherwise maps every key to its value |
| Json.TextOrNull | backend/src/main/java/com/jvmdoctor/backend/ProcessController.java:226 | a Java string as a map value: null stays null, text becomes a JSON string |
| Json.Respond | backend/src/main/java/com/jvmdoctor/backend/ProcessController.java:64 | a response whose body is a `Map.of`: a server error exactly when a value is null, otherwise that status with the map |
| Json.Failed | backend/src/main/java/com/jvmdoctor/backend/ProcessController.java:82 | the catch-all answer: 500 with the exception message, or a server error when the message is null |
| Paths.NonEmpty | backend/src/main/java/com/jvmdoctor/backend/FileController.java:23 | empty names are dropped and every other name is kept |
| Paths.NonEmptyKeeps | backend/src/main/java/com/jvmdoctor/backend/FileController.java:23 | names that are all non-empty are kept in full, in order |
| Paths.Parse | backend/src/main/java/com/jvmdoctor/backend/FileController.java:23 | `Paths.get` refuses exactly the strings holding NUL, with that reason; otherwise the path is absolute exactly when the text starts with `/`, and its names are non-empty and free of `/` and NUL |
| Paths.ParseRender | backend/src/main/java/com/jvmdoctor/backend/FileController.java:23 | rendering a path and parsing it again gives the same path |
| Paths.NoNulInJoin | backend/src/main/java/com/jvmdoctor/backend/FileController.java:23 | names free of NUL join into a text free of NUL |
| Paths.ToAbsolute | backend/src/main/java/com/jvmdoctor/backend/FileController.java:23 | `toAbsolutePath`: an absolute path is kept; a relative one is appended to the working directory |
| Paths.Normalize | backend/src/main/java/com/jvmdoctor/backend/FileController.java:23 | `normalize` keeps absoluteness and, for an absolute path, leaves only plain names (no `.` or `..`) |
| Paths.FoldPlain | backend/src/main/java/com/jvmdoctor/backend/FileController.java:23 | lexical normalisation only keeps names of its input |
| Paths.FoldOfPlain | backend/src/main/java/com/jvmdoctor/backend/FileController.java:23 | a path of plain names is already normal |
| Paths.NormalizeIdempotent | backend/src/main/java/com/jvmdoctor/backend/FileController.java:23 | normalising twice is normalising once |
| Download.FileName | backend/src/main/java/com/jvmdoctor/backend/FileController.java:29 | the file name is the last name of the path |
| Download.MediaType | backend/src/main/java/com/jvmdoctor/backend/FileController.java:28-30 | `image/svg+xml` exactly for a name ending in `.svg`, `application/octet-stream` otherwise (`.jfr` included) |
| Download.Disposition | backend/src/main/java/com/jvmdoctor/backend/FileController.java:31-33 | `inline` for an `image/` media type, `attachment` otherwise, with the quoted file name |
| Download.Resolved | backend/src/main/java/com/jvmdoctor/backend/FileController.java:23 | made absolute and normalised: fails exactly on a NUL; otherwise absolute with only plain names |
| Download.Download | backend/src/main/java/com/jvmdoctor/backend/FileController.java:21-40 | a NUL path fails with its message; 403 exactly when the normalised path's first name is not `tmp` (`StartsWithRootName`: `startsWith("/tmp")` compares names, not text); then 404 exactly for a missing file; under `/tmp`, served exactly when the entry is a regular file, a directory or unreadable file failing with its message; a served file carries the entry's length, the media type and disposition of its last name |
| Download.ServedStaysUnderTmp | backend/src/main/java/com/jvmdoctor/backend/FileController.java:23-24 | whatever the request, a served file's normalised path is absolute, begins with the name `tmp` and holds no `.` or `..` |
| Download.LookalikeForbidden | backend/src/main/java/com/jvmdoctor/backend/FileController.java:24 | `/tmpx/a` is forbidden: the prefix test is by names, not characters |
| Download.ClimbingOutForbidden | backend/src/main/java/com/jvmdoctor/backend/FileController.java:23-24 | `/tmp/../etc/passwd` normalises to `/etc/passwd` and is forbidden |
| Download.RelativeUnderTmp | backend/src/main/java/com/jvmdoctor/backend/FileController.java:23-36 | a relative name resolved against `/tmp` is served from `/tmp`, inline as SVG |
| Download.SvgDisposition | backend/src/main/java/com/jvmdoctor/backend/FileController.java:33 | an SVG file is offered inline under its own name |
| Download.InlineExactlyForSvg | backend/src/main/java/com/jvmdoctor/backend/FileController.java:28-33 | the disposition is inline exactly when the name ends in `.svg` |
| History.ProcessHistory.constructor | backend/src/main/java/com/jvmdoctor/backend/ProcessHistory.java:13-20 | the record holds exactly its arguments and starts not stopped (`stopTime` -1) |
| History.ProcessHistory.SetStopTime | backend/src/main/java/com/jvmdoctor/backend/ProcessHistory.java:22 | the stop time is overwritten unconditionally |
| LogTail.Last | backend/src/main/java/com/jvmdoctor/backend/ProcessManager.java:151-152 | the tail keeps min(n, length) elements |
| LogTail.LastIsSuffix | backend/src/main/java/com/jvmdoctor/backend/ProcessManager.java:151-152 | the tail is a suffix of the sequence, in order |
| LogTail.Append | backend/src/main/java/com/jvmdoctor/backend/ProcessManager.java:102-103 | `addLast` then `removeFirst` above 500: a bounded buffer stays bounded and ends with the new line |
| LogTail.AppendKeepsLast | backend/src/main/java/com/jvmdoctor/backend/ProcessManager.java:100-104 | appending to the last 500 lines gives the last 500 lines of the longer output |
| LogTail.DrainedIsLast | backend/src/main/java/com/jvmdoctor/backend/ProcessManager.java:98-104 | after any run of output lines, the buffer is exactly the last min(n, 500) of them in order |
| LogTail.Filter | backend/src/main/java/com/jvmdoctor/backend/ProcessManager.java:150 | the stream filter keeps exactly the accepted lines and nothing else |
| LogTail.FilterConcat | backend/src/main/java/com/jvmdoctor/backend/ProcessManager.java:150 | filtering distributes over concatenation, so order is kept |
| LogTail.FilterKeepsAll | backend/src/main/java/com/jvmdoctor/backend/ProcessManager.java:150 | a filter accepting every line (the null query) keeps the buffer as it is |
| LogTail.Tail | backend/src/main/java/com/jvmdoctor/backend/ProcessManager.java:151-152 | `subList(max(0, size - limit), size)`: the last `limit` matches for a non-negative limit; a negative limit fails, unless `size - limit` overflows and every match is returned |
| Launch.HeapSizeMb | backend/src/main/java/com/jvmdoctor/backend/ProcessManager.java:60-67 | a size read from a heap flag fits in 32 bits; `HeapSizeOfRendered` and `GuardRejectsFullwidth` say which size is read |
| Launch.HeapSizeOfRendered | backend/src/main/java/com/jvmdoctor/backend/ProcessManager.java:60-67 | a flag written with a decimal size and an optional `m`, `M`, `g` or `G` suffix reads back as that size, times 1024 for gigabytes, wrapped to 32 bits |
| Launch.GuardRejectsFullwidth | backend/src/main/java/com/jvmdoctor/backend/ProcessManager.java:59-71 | example: `-Xmx` with the fullwidth digits of 2048 and `m` asks for 2048 MB and is rejected under the default |
| Launch.ParseFullwidth2048 | backend/src/main/java/com/jvmdoctor/backend/ProcessManager.java:67 | example: `Integer.parseInt` reads the fullwidth digits of 2048 as 2048 |
| Launch.FirstRejected | backend/src/main/java/com/jvmdoctor/backend/ProcessManager.java:59-76 | no flag is rejected exactly when the result is none; a result is one of the arguments and is rejected, where `Rejects` is the guard's test: a `-Xmx`/`-Xms` flag whose size and `MAX_XMX_MB` both parse and `size * factor > maxAllowed` |
| Launch.FirstRejectedIsFirst | backend/src/main/java/com/jvmdoctor/backend/ProcessManager.java:59-71 | the rejected argument reported is the first one in order |
| Launch.FirstStop | backend/src/main/java/com/jvmdoctor/backend/ProcessManager.java:59-71 | where the loop over the extra arguments stops: nothing exactly when every element is a string the guard lets through; a stop names an element of the list that is null, not a string, or a rejected flag |
| Launch.FirstStopIsFirst | backend/src/main/java/com/jvmdoctor/backend/ProcessManager.java:59-71 | the loop stops at the first element that is null, not a string or a rejected flag: every element before it passes, and the stop is that element's |
| Launch.FirstStopOfStrings | backend/src/main/java/com/jvmdoctor/backend/ProcessManager.java:59-71 | over a list of strings the loop stops exactly at the first flag the guard rejects |
| Launch.CheckHeapArgs | backend/src/main/java/com/jvmdoctor/backend/ProcessManager.java:59-76 | the loop over the extra arguments stops where `FirstStop` says: the first null element, non-string element or rejected flag |
| Launch.UnparseableSettingDisablesGuard | backend/src/main/java/com/jvmdoctor/backend/ProcessManager.java:68-74 | a `MAX_XMX_MB` that does not parse rejects nothing, because the exception is swallowed |
| Launch.Command | backend/src/main/java/com/jvmdoctor/backend/ProcessManager.java:51-81 | the command is `java`, the agent flag (`AgentFlag`: `-javaagent:<jar>=<port>`) when the agent jar is non-empty, the extra arguments, `-jar` and the jar path |
| Launch.AgentPortRoundTrip | backend/src/main/java/com/jvmdoctor/backend/ProcessManager.java:54-56 | the agent flag names the agent jar and a port that reads back as the given port |
| Launch.DecimalHasNoEquals | backend/src/main/java/com/jvmdoctor/backend/ProcessManager.java:55 | a rendered port holds no `=`, so the flag's last `=` separates jar and port |
| Launch.DefaultSetting | backend/src/main/java/com/jvmdoctor/backend/ProcessManager.java:68 | the default `MAX_XMX_MB` is 1024 |
| Launch.GuardRejects2048 | backend/src/main/java/com/jvmdoctor/backend/ProcessManager.java:60-71 | `-Xmx2048m` and `-Xmx2048` are rejected under the default |
| Launch.GuardPasses512 | backend/src/main/java/com/jvmdoctor/backend/ProcessManager.java:60-71 | `-Xmx512m` passes under the default |
| Launch.GuardPasses1g | backend/src/main/java/com/jvmdoctor/backend/ProcessManager.java:66 | `-Xmx1g` is 1024 MB and passes under the default |
| Launch.GuardIgnoresKilobytes | backend/src/main/java/com/jvmdoctor/backend/ProcessManager.java:65-73 | `-Xmx2048k` does not parse and is let through |
| Launch.GuardWrapsAround | backend/src/main/java/com/jvmdoctor/backend/ProcessManager.java:69 | `-Xmx2097152g` multiplies to -2^31 in 32-bit arithmetic and is let through |
| Processes.Without | backend/src/main/java/com/jvmdoctor/backend/ProcessManager.java:170 | a subscriber removing itself leaves the others and a duplicate-free list |
| Processes.Receivers | backend/src/main/java/com/jvmdoctor/backend/ProcessManager.java:108-110 | a line reaches exactly the listed subscribers whose send does not fail |
| Processes.LineKeepsTracks | backend/src/main/java/com/jvmdoctor/backend/ProcessManager.java:100-104 | one output line keeps every buffer equal to the last 500 lines of its output |
| Processes.RegisterKeepsLists | backend/src/main/java/com/jvmdoctor/backend/ProcessManager.java:165-172 | adding the next handle to one list keeps every list duplicate-free and made of issued handles |
| Processes.StartFailure | backend/src/main/java/com/jvmdoctor/backend/ProcessManager.java:46-84 | `startProcess` succeeds exactly when below capacity, the argument list is non-null, every element is a string the guard passes and the spawn succeeds; capacity exactly when full; a heap error names the first rejected flag |
| Processes.StartOfStrings | backend/src/main/java/com/jvmdoctor/backend/ProcessManager.java:46-84 | with a list of strings the failure is capacity, else the first rejected flag, else the spawn error, else none |
| Processes.ProcessManager.constructor | backend/src/main/java/com/jvmdoctor/backend/ProcessManager.java:20-26 | empty maps, the id counter at 1, the settings as given |
| Processes.ProcessManager.StartProcess | backend/src/main/java/com/jvmdoctor/backend/ProcessManager.java:46-119 | fails exactly as `StartFailure` says, with that error; capacity touches nothing; otherwise an id is drawn (consumed even by a later failure); a failure after the draw changes no map; success files the process with the command of the checked arguments under the drawn id |
| Processes.ProcessManager.File | backend/src/main/java/com/jvmdoctor/backend/ProcessManager.java:87-91 | registration puts the process, a new history, an empty buffer and an empty list under the id |
| Processes.ProcessManager.OnOutputLine | backend/src/main/java/com/jvmdoctor/backend/ProcessManager.java:98-111 | while the buffer exists the line is appended (last 500 kept) and sent to every current subscriber whose send does not fail; after a stop it is dropped and nothing is recreated |
| Processes.ProcessManager.ListProcesses | backend/src/main/java/com/jvmdoctor/backend/ProcessManager.java:121-123 | the snapshot holds exactly the live processes |
| Processes.ProcessManager.StopProcess | backend/src/main/java/com/jvmdoctor/backend/ProcessManager.java:125-139 | false and no change for an id not live; otherwise the process, buffer and list go, the history gets the stop time and stays, every listed subscriber is completed |
| Processes.ProcessManager.GetLogBuffer | backend/src/main/java/com/jvmdoctor/backend/ProcessManager.java:141-143 | while buffers and live ids share their keys, a buffer exactly for a live id; it is that id's buffer and holds at most 500 lines |
| Processes.ProcessManager.GetProcessHistory | backend/src/main/java/com/jvmdoctor/backend/ProcessManager.java:145 | a history exactly for an id ever started |
| Processes.ProcessManager.QueryLogs | backend/src/main/java/com/jvmdoctor/backend/ProcessManager.java:147-153 | no buffer gives an empty list; otherwise the last `limit` lines containing the query (all lines for a null query), in buffer order |
| Processes.ProcessManager.QueryLogsRegex | backend/src/main/java/com/jvmdoctor/backend/ProcessManager.java:155-163 | no buffer gives an empty list before compiling; a bad pattern fails; otherwise the last `limit` lines the pattern finds, in order |
| Processes.ProcessManager.RegisterLogEmitter | backend/src/main/java/com/jvmdoctor/backend/ProcessManager.java:165-173 | null for an id with no list; otherwise exactly one never-issued subscriber is appended |
| Processes.ProcessManager.SubscriberClosed | backend/src/main/java/com/jvmdoctor/backend/ProcessManager.java:170-171 | completion or timeout removes only that subscriber, and only while the list exists |
| Processes.StopTwice | backend/src/main/java/com/jvmdoctor/backend/ProcessManager.java:125-139 | a second stop answers false, completes nobody and keeps the first stop time |
| Tasks.Admit | backend/src/main/java/com/jvmdoctor/backend/TaskManager.java:9-10 | `ThreadPoolExecutor(1, 2, queue 50, AbortPolicy)`: a task is refused exactly when 2 workers run and 50 wait; an admitted one adds one worker or one queued task |
| Tasks.RejectsOnlyWhenSaturated | backend/src/main/java/com/jvmdoctor/backend/TaskManager.java:9-10 | within the bounds, refusal happens only at 2 running and 50 queued |
| Tasks.Dequeue | backend/src/main/java/com/jvmdoctor/backend/TaskManager.java:9-10 | a worker taking a queued task keeps the pool within bounds |
| Tasks.Retire | backend/src/main/java/com/jvmdoctor/backend/TaskManager.java:9-10 | an idle worker above the core size leaving keeps the pool within bounds |
| Tasks.Active | backend/src/main/java/com/jvmdoctor/backend/TaskManager.java:21-25 | the active ids are exactly the tracked ones whose future is not done |
| Tasks.TaskManager.constructor | backend/src/main/java/com/jvmdoctor/backend/TaskManager.java:9-12 | no tasks, the id counter at 1, an empty pool |
| Tasks.TaskManager.Submit | backend/src/main/java/com/jvmdoctor/backend/TaskManager.java:14-19 | an id is drawn first, so a rejected submission consumes it and changes no map; an accepted one tracks exactly the new id, pending |
| Tasks.TaskManager.Complete | backend/src/main/java/com/jvmdoctor/backend/TaskManager.java:16 | a finished task stays tracked, now done; the id counter and the pool are kept, and so is the invariant that every tracked id was drawn |
| Tasks.TaskManager.GetActiveCount | backend/src/main/java/com/jvmdoctor/backend/TaskManager.java:21-25 | the counting loop gives the number of tracked futures not done, at most the number tracked |
| Tasks.TaskManager.Cancel | backend/src/main/java/com/jvmdoctor/backend/TaskManager.java:31-35 | an unknown id gives false and changes nothing; a known id is removed whatever `cancel` answers, which is true exactly when that future was not done; the invariant that every tracked id was drawn is kept |
| Tasks.TaskManager.List | backend/src/main/java/com/jvmdoctor/backend/TaskManager.java:27-29 | the tracked map itself, whose ids were all drawn from the counter |
| Tasks.CancelTwice | backend/src/main/java/com/jvmdoctor/backend/TaskManager.java:31-35 | a second cancel of the same id gives false |
| Histogram.Take | backend/src/main/java/com/jvmdoctor/backend/ProcessController.java:38 | a greedy run: the input is the run plus the rest, the run satisfies the class and the rest does not start with it |
| Histogram.TakeOf | backend/src/main/java/com/jvmdoctor/backend/ProcessController.java:38 | a run followed by a character outside the class is exactly what the greedy step takes |
| Histogram.MatchLine | backend/src/main/java/com/jvmdoctor/backend/ProcessController.java:38 | a match found fits the line grammar `digits: space digits space digits space rest` |
| Histogram.MatchLineComplete | backend/src/main/java/com/jvmdoctor/backend/ProcessController.java:38 | every fit of a trimmed line whose class name does not start with white space is the match found: the greedy `\s+` before the class takes every space, so a fit such as `1: 2 3  X` read with class ` X` is not the match (the grammar itself is ambiguous) |
| Histogram.MatchLineFindsAnyFit | backend/src/main/java/com/jvmdoctor/backend/ProcessController.java:38 | a trimmed line that fits the grammar in any way is matched |
| Histogram.TrimmedHasNoTrailingSpace | backend/src/main/java/com/jvmdoctor/backend/ProcessController.java:498 | a trimmed line does not end in white space |
| Histogram.RowOf | backend/src/main/java/com/jvmdoctor/backend/ProcessController.java:503-508 | a row holds a 32-bit rank, 64-bit counts and the class name as matched |
| Histogram.DropTrailingEmpty | backend/src/main/java/com/jvmdoctor/backend/ProcessController.java:496 | `String.split` drops trailing empty pieces: the result is a prefix not ending in an empty piece |
| Histogram.ChopCr | backend/src/main/java/com/jvmdoctor/backend/ProcessController.java:496 | an optional `\r` before the line break is removed |
| Histogram.SplitLines | backend/src/main/java/com/jvmdoctor/backend/ProcessController.java:496 | text without a line break is one line; no line holds a line break |
| Histogram.LineMatches | backend/src/main/java/com/jvmdoctor/backend/ProcessController.java:498-502 | a line yields at most one match |
| Histogram.Matches | backend/src/main/java/com/jvmdoctor/backend/ProcessController.java:497-502 | the matched lines, in input order, at most one per line |
| Histogram.MatchesPrefix | backend/src/main/java/com/jvmdoctor/backend/ProcessController.java:497-502 | the matches of a prefix of the lines are a prefix of all matches |
| Histogram.Cap | backend/src/main/java/com/jvmdoctor/backend/ProcessController.java:509 | the loop stops at `rows.size() >= maxRows`, which is at least one row |
| Histogram.FirstFailure | backend/src/main/java/com/jvmdoctor/backend/ProcessController.java:503-508 | the rows of the matches in order, or the first number that does not parse |
| Histogram.FirstFailureSnoc | backend/src/main/java/com/jvmdoctor/backend/ProcessController.java:503-508 | one more match either fails the whole reading or adds its row at the end |
| Histogram.FirstFailurePrefix | backend/src/main/java/com/jvmdoctor/backend/ProcessController.java:503-508 | a failure in a prefix is the failure of the whole |
| Histogram.RowsOfPrefix | backend/src/main/java/com/jvmdoctor/backend/ProcessController.java:509-511 | once a failure or the cap is reached, the answer is fixed by the lines read so far |
| Histogram.CappedPrefix | backend/src/main/java/com/jvmdoctor/backend/ProcessController.java:509-511 | reading stops at the cap: the capped matches give the same answer as the prefix read |
| Histogram.Capped | backend/src/main/java/com/jvmdoctor/backend/ProcessController.java:509-511 | at most the cap, a prefix, everything when under the cap |
| Histogram.MatchTrimmed | backend/src/main/java/com/jvmdoctor/backend/ProcessController.java:498-502 | one line trimmed and matched: the match found, if any, fits the trimmed line |
| Histogram.ParseHistogramText | backend/src/main/java/com/jvmdoctor/backend/ProcessController.java:491-514 | null text gives no rows; otherwise the rows of the lines that match, in order, capped, or the first number failure |
| Histogram.ReadRows | backend/src/main/java/com/jvmdoctor/backend/ProcessController.java:496-513 | the loop computes the capped rows of the matching lines |
| Histogram.ReadLine | backend/src/main/java/com/jvmdoctor/backend/ProcessController.java:498-511 | one pass of the loop: a failed number or the row reaching the cap gives the final answer |
| Histogram.ReadStep | backend/src/main/java/com/jvmdoctor/backend/ProcessController.java:498-508 | a line that does not match changes nothing; a matching one adds its row or fails |
| Histogram.Rows | backend/src/main/java/com/jvmdoctor/backend/ProcessController.java:496-512 | the reader's answer for a list of lines: never more rows than its cap, nor than there are lines |
| Histogram.ClampRows | backend/src/main/java/com/jvmdoctor/backend/ProcessController.java:314 | `max(1, min(200, limit))`: always in [1, 200], the limit itself when in range |
| StartEndpoint.AgentPortOf | backend/src/main/java/com/jvmdoctor/backend/ProcessController.java:45-55 | always a 32-bit port; 9404 unless the body gives a number or text; text is read by `Integer.parseInt` (Unicode digits included) and 9404 is kept when it does not parse |
| StartEndpoint.AgentPortReadsBack | backend/src/main/java/com/jvmdoctor/backend/ProcessController.java:45-55 | a port given as a number or as its decimal text is the port used |
| StartEndpoint.ArgOf | backend/src/main/java/com/jvmdoctor/backend/ProcessController.java:57 | the unchecked cast keeps each element as it is: a string stays that string, null stays null, anything else is a non-string element |
| StartEndpoint.ArgsOf | backend/src/main/java/com/jvmdoctor/backend/ProcessController.java:57 | absent `args` is the empty list; null is a null list; a list reads element by element, whatever its elements; anything else is a class-cast failure |
| StartEndpoint.ArgsOfTexts | backend/src/main/java/com/jvmdoctor/backend/ProcessController.java:57 | a list of strings reads back as exactly those strings |
| StartEndpoint.EnvVarOf | backend/src/main/java/com/jvmdoctor/backend/ProcessController.java:60 | an item reads exactly when it is a map whose key is text or null and whose value is non-null text |
| StartEndpoint.CollectEnv | backend/src/main/java/com/jvmdoctor/backend/ProcessController.java:60 | `toMap` succeeds exactly when every item reads and no key repeats; then every key maps to its value |
| StartEndpoint.BodyReads | backend/src/main/java/com/jvmdoctor/backend/ProcessController.java:44-60 | a body without the four fields reads; an `args` that is neither a list nor null does not |
| StartEndpoint.EnvItemsOf | backend/src/main/java/com/jvmdoctor/backend/ProcessController.java:59 | absent `envVars` is the empty list; present ones read exactly when they are a list |
| StartEndpoint.StartCheck | backend/src/main/java/com/jvmdoctor/backend/ProcessController.java:42-73 | a body that does not read (an `args` that is neither a list nor null, say) is a server error, even without a jar path; a missing jar path is 400 `jarPath is required`; a NUL path fails; a missing file is 400 naming the path; otherwise the absolute path, port, args and agent jar are launched |
| StartEndpoint.LaunchedJarIsAbsolute | backend/src/main/java/com/jvmdoctor/backend/ProcessController.java:66-71 | the launched jar path is absolute and names the existing file the request meant |
| StartEndpoint.Start | backend/src/main/java/com/jvmdoctor/backend/ProcessController.java:42-84 | an early answer changes nothing; otherwise 201 with the drawn id exactly when `startProcess` succeeds, the process then live with the checked jar and port; a null or non-string `args` element is a server error; every other failure is 500 with the supervisor's message (`StartErrorMessage`: `max processes reached`, `Xmx too large: <arg>`, or the spawn failure's message) and leaves the processes, histories, buffers and subscriber lists as they were |
| StartEndpoint.StartLaunch | backend/src/main/java/com/jvmdoctor/backend/ProcessController.java:75-83 | 201 with the drawn id exactly when `startProcess` succeeds, filing the process; a null or non-string element is a server error; every other failure is 500 with the supervisor's message (`StartErrorMessage`), and any failure leaves the processes, histories, buffers and subscriber lists as they were |
| Endpoints.Connected | backend/src/main/java/com/jvmdoctor/backend/ProcessController.java:163-170 | reaching the agent succeeds exactly when attach and connect do; a null connector address throws; a failed connect is an ordinary exception |
| Endpoints.Raise | backend/src/main/java/com/jvmdoctor/backend/ProcessController.java:250-257 | an MBean call that throws reaches the handler as an ordinary exception with its message, never as an attach failure |
| Endpoints.Then | backend/src/main/java/com/jvmdoctor/backend/ProcessController.java:164-176 | an operation runs only on a connected session; the first failure is the result, and an operation's failure is an ordinary exception |
| Endpoints.Caught | backend/src/main/java/com/jvmdoctor/backend/ProcessController.java:177-179 | `catch (Exception e)`: 500 with the message, or a server error when it is null |
| Endpoints.Live | backend/src/main/java/com/jvmdoctor/backend/ProcessController.java:160-162 | the lookup by id finds a process exactly when a live one has that id |
| Endpoints.Stop | backend/src/main/java/com/jvmdoctor/backend/ProcessController.java:97-101 | 200 with an empty map exactly for a live id, which is then stopped; 404 otherwise, with no change |
| Endpoints.Metrics | backend/src/main/java/com/jvmdoctor/backend/ProcessController.java:103-124 | 404 exactly for an id not live; 200 exactly when the fetch from the process's port succeeds, carrying its text |
| Endpoints.TextList | backend/src/main/java/com/jvmdoctor/backend/ProcessController.java:136 | the lines as a JSON list, in order |
| Endpoints.LinesReply | backend/src/main/java/com/jvmdoctor/backend/ProcessController.java:136-139 | the lines under `lines`, or a server error when the query throws |
| Endpoints.MaxLines | backend/src/main/java/com/jvmdoctor/backend/ProcessController.java:132 | `limit == null ? 200 : limit` |
| Endpoints.RegexRequested | backend/src/main/java/com/jvmdoctor/backend/ProcessController.java:133 | the regular-expression path is taken only when `regex` is true and a query is given |
| Endpoints.Logs | backend/src/main/java/com/jvmdoctor/backend/ProcessController.java:126-141 | limit 200 by default; the regex path only when `regex` is true and `q` is given (case-insensitive only when asked); else the substring path; no buffer gives an empty list; a non-negative limit gives the last `limit` matches; an uncompilable pattern fails |
| Endpoints.LogsNegativeLimit | backend/src/main/java/com/jvmdoctor/backend/ProcessController.java:126-141 | on either path a negative limit fails, unless the 32-bit start index `size - limit` overflows, and then every match is listed |
| Endpoints.LogsByDefault | backend/src/main/java/com/jvmdoctor/backend/ProcessController.java:132 | with no parameters, the last 200 lines of the buffer |
| Endpoints.LogsNegativeLimitFails | backend/src/main/java/com/jvmdoctor/backend/ProcessController.java:126-141 | a limit between -1000 and -1 always fails the substring query of a running process |
| Endpoints.IgnoreCaseOnlyForRegex | backend/src/main/java/com/jvmdoctor/backend/ProcessController.java:133-134 | the `ignoreCase` flag changes nothing off the regex path |
| Endpoints.Enabled | backend/src/main/java/com/jvmdoctor/backend/ProcessController.java:158 | the flag is on exactly when `enable` is true or text `true` ignoring case |
| Endpoints.Toggle | backend/src/main/java/com/jvmdoctor/backend/ProcessController.java:156-180 | a null `enable` throws before the lookup; 404 for an id not live; 200 with the flag exactly when the agent's attribute is set |
| Endpoints.MaxAge | backend/src/main/java/com/jvmdoctor/backend/ProcessController.java:197 | 0 when absent; a 64-bit number exactly when a number is given |
| Endpoints.StartJfr | backend/src/main/java/com/jvmdoctor/backend/ProcessController.java:182-206 | 404 exactly for an id not live; a failed attach is reported first; 200 `started` exactly when the agent starts the recording with that name and age |
| Endpoints.StopJfr | backend/src/main/java/com/jvmdoctor/backend/ProcessController.java:208-230 | 404 exactly for an id not live; 200 with the path exactly when the agent returns a non-null path |
| Endpoints.DefaultGcLog | backend/src/main/java/com/jvmdoctor/backend/ProcessController.java:342 | the default GC log is `/tmp/gc-<pid>.log` |
| Endpoints.GcSwitch | backend/src/main/java/com/jvmdoctor/backend/ProcessController.java:341 | GC logging is on when `on` is absent, otherwise `Boolean.parseBoolean` of it, and null throws |
| Endpoints.GcLog | backend/src/main/java/com/jvmdoctor/backend/ProcessController.java:336-358 | 404 exactly for an id not live; a null switch fails before attaching; 200 exactly when the switch and a non-null file read and the agent enables logging, echoing both |
| Endpoints.GcLogByDefault | backend/src/main/java/com/jvmdoctor/backend/ProcessController.java:341-342 | an empty request turns GC logging on into `/tmp/gc-<pid>.log` |
| Endpoints.LoadNative | backend/src/main/java/com/jvmdoctor/backend/ProcessController.java:400-422 | 404 exactly for an id not live; 400 `path required` before attaching when no path; a non-text path fails; 200 exactly when the agent answers, echoing its answer |
| Endpoints.HistoryJson | backend/src/main/java/com/jvmdoctor/backend/ProcessController.java:364 | the six fields of the history record |
| Endpoints.HistoryOf | backend/src/main/java/com/jvmdoctor/backend/ProcessController.java:360-365 | 404 exactly for an id never started; otherwise the record, stopped processes included |
| Endpoints.StopThenHistory | backend/src/main/java/com/jvmdoctor/backend/ProcessController.java:360-365 | after a stop, the history of that id answers with its stop time |
| Endpoints.AllHistory | backend/src/main/java/com/jvmdoctor/backend/ProcessController.java:367-370 | one entry per live process, its history |
| Endpoints.AllHistoryIsLive | backend/src/main/java/com/jvmdoctor/backend/ProcessController.java:367-370 | every entry is present, not stopped and of a live process: stopped processes are not listed |
| Diagnostics.Classify | backend/src/main/java/com/jvmdoctor/backend/ProcessController.java:266-281 | 412 exactly for a refused attach (with a default message when none), 409 for a failed handshake with a message, a server error when its message is null, 500 otherwise |
| Diagnostics.DefaultHeapDump | backend/src/main/java/com/jvmdoctor/backend/ProcessController.java:241 | the default dump file is `/tmp/heapdump-<pid>.hprof` |
| Diagnostics.DumpChecked | backend/src/main/java/com/jvmdoctor/backend/ProcessController.java:258-265 | only 200 or 500; 200 `success` exactly when the returned path parses and exists; a null path throws |
| Diagnostics.HeapDump | backend/src/main/java/com/jvmdoctor/backend/ProcessController.java:232-282 | 404 exactly for an id not live; a non-text file name fails; 412 exactly for a refused attach and 409 exactly for a failed handshake with a message (the dump call raises neither); 200 exactly when the dump returns a path that parses and exists, echoing it |
| Diagnostics.RefusedHeapDumpExplained | backend/src/main/java/com/jvmdoctor/backend/ProcessController.java:266-271 | a process that refuses attach gets 412 with the hint, never a bare 500 |
| Diagnostics.HistogramSession | backend/src/main/java/com/jvmdoctor/backend/ProcessController.java:462-469 | a null connector address throws `Management agent unavailable for pid <pid>` |
| Diagnostics.RowsReply | backend/src/main/java/com/jvmdoctor/backend/ProcessController.java:317-319 | rows under `entries`; a number that does not parse is 500 with Java's message |
| Diagnostics.HistogramRows | backend/src/main/java/com/jvmdoctor/backend/ProcessController.java:480 | null text gives no rows; never more than the cap |
| Diagnostics.RowCap | backend/src/main/java/com/jvmdoctor/backend/ProcessController.java:306-313 | 25 rows without a limit; otherwise the limit clamped to [1, 200] |
| Diagnostics.HistogramAnswer | backend/src/main/java/com/jvmdoctor/backend/ProcessController.java:304-334 | 404 exactly for an id not live; 412 exactly for a refused attach, 409 exactly for a failed handshake with a message; 200 exactly when the histogram is read and its numbers parse, with at most the row cap of rows |
| Diagnostics.HeapHistogram | backend/src/main/java/com/jvmdoctor/backend/ProcessController.java:304-334 | the endpoint with its reading loop answers as the specification function |
| Diagnostics.ProfilerRunOf | backend/src/main/java/com/jvmdoctor/backend/ProcessController.java:430-443 | no profiler home is 500 with its message; the command is the script, `-d`, `-e`, `-o`, `-f` with duration, event, format, file and the pid; a present setting is used as given, an absent event is `cpu`, an absent format `svg` and an absent file `/tmp/profile-<pid>.<format>`; with a profiler home, the run fails exactly when a present duration is not a number or a present event, format or file is not text |
| Diagnostics.DefaultProfile | backend/src/main/java/com/jvmdoctor/backend/ProcessController.java:441 | the default profile is `/tmp/profile-<pid>.<format>` |
| Diagnostics.ProfilerByDefault | backend/src/main/java/com/jvmdoctor/backend/ProcessController.java:438-441 | an empty request profiles `cpu` for 10 s into `/tmp/profile-<pid>.svg` |
| Diagnostics.RunProfiler | backend/src/main/java/com/jvmdoctor/backend/ProcessController.java:424-456 | 404 or the preparation error submit nothing; otherwise one task id is drawn and, when admitted, 202 names it and the output file |
| Launcher.SpacePieces | ui/src/components/process/ProcessLauncherModal.jsx:24 | no piece holds white space |
| Launcher.Words | ui/src/components/process/ProcessLauncherModal.jsx:23-26 | the tokens are non-empty and free of white space |
| Launcher.JvmArgs | ui/src/components/process/ProcessLauncherModal.jsx:55 | no argument is empty or holds white space, and together they hold all the non-space text in order |
| Launcher.WordsKeepText | ui/src/components/process/ProcessLauncherModal.jsx:23-26 | the tokens hold exactly the non-space characters of the field, in order |
| Launcher.PiecesKeepText | ui/src/components/process/ProcessLauncherModal.jsx:24 | splitting loses only white space |
| Launcher.ConcatNonEmpty | ui/src/components/process/ProcessLauncherModal.jsx:26 | dropping empty tokens loses no text |
| Launcher.WordsOfJoin | ui/src/components/process/ProcessLauncherModal.jsx:24 | words joined by spaces split back into the same words |
| Launcher.JvmArgsOfJoin | ui/src/components/process/ProcessLauncherModal.jsx:55 | arguments typed with single spaces come back as typed |
| Launcher.PairOf | ui/src/components/process/ProcessLauncherModal.jsx:27-33 | no pair exactly when no `=`; the key is before the first `=`, the value all after it |
| Launcher.PairsOf | ui/src/components/process/ProcessLauncherModal.jsx:27-34 | at most one pair per token; a single token gives its pair or nothing |
| Launcher.PairsFromWords | ui/src/components/process/ProcessLauncherModal.jsx:27-34 | every pair is the pair of one of the tokens |
| Launcher.EveryPairRead | ui/src/components/process/ProcessLauncherModal.jsx:27-34 | every token with `=` gives its pair |
| Launcher.PairsOfAppend | ui/src/components/process/ProcessLauncherModal.jsx:27-34 | the pairs of two runs of tokens are those of the first then those of the second, so pairs keep token order |
| Launcher.ParseEnvVars | ui/src/components/process/ProcessLauncherModal.jsx:22-35 | the pairs of the tokens; keys hold no `=`, nothing holds white space |
| Launcher.ParseRenderedEnv | ui/src/components/process/ProcessLauncherModal.jsx:22-35 | pairs written as `key=value` separated by spaces read back as the same pairs, in order and with duplicates |
| Launcher.EnvJson | ui/src/components/process/ProcessLauncherModal.jsx:56 | one request item per pair |
| Launcher.EnvReachesBackend | ui/src/components/process/ProcessLauncherModal.jsx:56 | the backend collects the form's pairs exactly when no key repeats, mapping each key to its value |
| Prometheus.Substring | ui/src/utils/prometheus.js:16-17 | JavaScript `substring`: a slice when in order and in range; a negative end swaps to the start |
| Prometheus.StripQuotes | ui/src/utils/prometheus.js:34 | one leading and one trailing quote are removed; unquoted values stay |
| Prometheus.LabelOf | ui/src/utils/prometheus.js:32-35 | a token without `=` gives no label |
| Prometheus.LabelOfPair | ui/src/utils/prometheus.js:32-34 | `k=v` gives the trimmed key and unquoted value exactly when both are non-empty |
| Prometheus.LabelsOf | ui/src/utils/prometheus.js:30-37 | every label comes from some token that defines it |
| Prometheus.LabelsOfLast | ui/src/utils/prometheus.js:30-37 | a repeated key takes the value of its last token |
| Prometheus.NameAndLabels | ui/src/utils/prometheus.js:22-39 | the name holds no `{` and opens the text before the value; without a `{` it is all of that text with no labels |
| Prometheus.SampleOf | ui/src/utils/prometheus.js:8-21 | blank, comment or space-free lines give no sample, and a sample's name holds no `{` |
| Prometheus.SampleOfShape | ui/src/utils/prometheus.js:8-28 | blank, comment or space-free lines are skipped; a sample's value is the text after the last space and its name, holding no `{`, begins the metric part (all of it when there are no labels) |
| Prometheus.ParsePrometheus | ui/src/utils/prometheus.js:1-46 | empty text gives no metrics; otherwise the loop groups the samples of the lines by name |
| Prometheus.Grouped | ui/src/utils/prometheus.js:40-43 | every name present has at least one sample |
| Prometheus.EmptyTextNoMetrics | ui/src/utils/prometheus.js:1-5 | empty text gives no metrics |
| Prometheus.GroupedByName | ui/src/utils/prometheus.js:40-43 | a name is present exactly when some line has it, with its samples in input order |
| Prometheus.SkippedLine | ui/src/utils/prometheus.js:8-15 | a blank, comment or space-free line adds nothing |
| Prometheus.PlainLineRead | ui/src/utils/prometheus.js:12-23 | `name value` reads as that name, no labels and the value |
| Prometheus.LabelTextRead | ui/src/utils/prometheus.js:32-34 | `key="value"` reads back as that label |
| Prometheus.LabelTextsRead | ui/src/utils/prometheus.js:30-37 | distinct labels written out read back as exactly those labels |
| Prometheus.LabelledLineRead | ui/src/utils/prometheus.js:8-43 | `name{k="v",...} value` reads back as that name, those labels and the value |
| Prometheus.Find | ui/src/utils/prometheus.js:56 | `find`: none exactly when no entry is accepted; otherwise the value of the first accepted entry |
| Prometheus.FirstMetricValue | ui/src/utils/prometheus.js:48-58 | null for an absent or empty name; the first value without a predicate; the first accepted value with one |
| Prometheus.FirstWithTrivialPredicate | ui/src/utils/prometheus.js:53-57 | a predicate accepting all gives the same as none |
| Prometheus.SumMetric | ui/src/utils/prometheus.js:60-68 | 0 for an absent name; otherwise the total of the accepted entries (all without a predicate) |
| Prometheus.TotalSplits | ui/src/utils/prometheus.js:65-67 | the entries a predicate accepts and those it refuses add up to all |
| Prometheus.SumSplits | ui/src/utils/prometheus.js:60-68 | the sums for a predicate and for its negation add up to the unfiltered sum |

## Left out

- Threads and concurrency: the drain thread's loop, the thread safety of the concurrent maps and lists, and the executor's scheduling. The model takes one output line or one API call at a time, and pool progress is a separate step (`Tasks.Dequeue`, `Tasks.Retire`).
- Operating-system processes, the network and SSE delivery. Spawning is a parameter of the start that either succeeds with a pid or fails with a message; destroying a process is not modelled. The HTTP fetch of `/metrics`, and each SSE send and completion, are also parameters; subscribers are handles, and a failing send is a set of handles.
- Environment and clock reads. `MAX_PROCESSES` and `MAX_XMX_MB` are constructor parameters; `ASYNC_PROFILER_HOME` and the time are method parameters; the working directory and file existence are parameters too.
- The attach, JMX and MBean plumbing. This is the abstract `Endpoints.Agent`, and the agent module itself is not part of this model.
- The regular-expression engine of the log query is a parameter `compile` giving the `find` predicate, or failure for a bad pattern. The fixed histogram grammar is matched by hand instead.
- `list` (the JSON rendering of the live processes), `streamLogs`, `downloadHeapDump`, `listLocalJvms` and `attachAgentToJvm` are not modelled. These are list rendering, SSE replay, and file serving or attach calls with no decision logic beyond what is modelled elsewhere.
- Exception messages raised inside library code are not modelled; such a failure is `ServerError`. The messages the source builds itself are modelled: capacity, heap guard, `jarPath is required`, `JAR file not found: `, NUL path, the histogram session and the profiler.
- Request bodies are JSON values whose numbers are integers; floating-point numbers and their `intValue` truncation are not modelled.
- History.ProcessHistory: `cmd` is a value, so the sharing of the command list with the live process descriptor is not modelled.
- Tasks.TaskManager.List: returns the tracked map as a value; callers changing the live map through it is not modelled.
- Processes.ProcessManager.ListProcesses: a set of processes; the order of the source's list is not modelled.
- Endpoints.AllHistory: a set of entries; the order of the source's list is not modelled.
- Launcher.SpacePieces: cuts at every white-space character rather than once per run; once empty pieces are dropped, the words are the same.
- Prometheus.SumMetric: the sum is exact arithmetic on reals, not floating-point addition.
- Prometheus.ParsePrometheus: metric names and label keys are keys of a map. The source's plain objects also inherit names such as `constructor` from their prototype, and assigning the label key `__proto__` goes through the prototype setter and drops the label; neither quirk is modelled.
- Prometheus.LabelsOf: keeps a label whose key is `__proto__`, which the source's object drops.
- Prometheus.LabelTextsRead: holds for the source only when no key is `__proto__`.
- Prometheus.LabelledLineRead: holds for the source only when no label key is `__proto__`.
- Numbers.DecimalDigit: the digit table lists the zeros of the decimal digits of the Basic Multilingual Plane as of Unicode 13; `parseInt` reads one `char` at a time, so digits outside that plane are never digits.
- Prometheus.Find: `Number(...)` and its `NaN` test are the abstract conversion, so no value is ever `NaN`.

=== FILE: diagnostics.dfy ===
/**
 * The diagnostic endpoints of the process controller: heap dumps and class
 * histograms, which explain a refused or failed attach to the client with a
 * hint, and async-profiler runs, which are handed to the worker pool.
 */
module Diagnostics {
  import opened Wrappers
  import opened Numbers
  import opened Json
  import opened Paths
  import opened Histogram
  import opened Tasks
  import opened Processes
  import opened Endpoints

  /** The message of a refused attach that carries none. */
  const ATTACH_NOT_SUPPORTED: string := "attach not supported"

  /** What one endpoint tells the client to try after a refused attach and after a failed handshake. */
  datatype Hints = Hints(refused: string, handshake: string)

  const HEAP_DUMP_HINTS: Hints := Hints(
    "The target JVM doesn't allow attach from this process. Ensure you run JVMDoctor as the same user as the target process, or restart the target process with a management agent or debug options (e.g. enable JMX or run with tools that allow dynamic attach).",
    "Attach handshake failed — the target JVM may be starting up or disallowing attach. Try again after the target process is fully started, or launch the process under JVMDoctor as a managed process so attach works.")

  const HISTOGRAM_HINTS: Hints := Hints(
    "Attach not supported; run JVMDoctor as same user as target process, or use managed launch.",
    "Target is not ready for attach; retry after it fully starts or use managed launch.")

  /** The body of an explained attach failure. */
  function Explained(message: string, hint: string, pid: int): map<string, Json> {
    map["error" := JText(message), "hint" := JText(hint), "pid" := JNumber(pid)]
  }

  /**
   * The handlers of the two diagnostic endpoints: a refused attach is 412
   * with its hint and a default message when it carries none; a failed
   * handshake is 409 with its hint, whose body cannot be built when the
   * message is null; anything else goes to the catch-all.
   */
  function Classify(f: Failure, pid: int, hints: Hints): (r: Response)
    ensures StatusOf(r) == 412 <==> f.AttachNotSupported?
    ensures StatusOf(r) == 409 <==> f.IllegalState? && f.message.Some?
    ensures !(f.AttachNotSupported? || (f.IllegalState? && f.message.Some?)) ==> StatusOf(r) == 500
    ensures f.AttachNotSupported? ==>
      r == Reply(412, JObject(Explained(OrElse(f.message, ATTACH_NOT_SUPPORTED), hints.refused, pid)))
    ensures f.IllegalState? && f.message.Some? ==>
      r == Reply(409, JObject(Explained(f.message.value, hints.handshake, pid)))
    ensures !f.AttachNotSupported? && !f.IllegalState? ==> r == Caught(f)
  {
    match f
    case AttachNotSupported(message) =>
      var text := if message.Some? then message.value else ATTACH_NOT_SUPPORTED;
      MapOfThree("error", JText(text), "hint", JText(hints.refused), "pid", JNumber(pid));
      Respond(412, [("error", Some(JText(text))), ("hint", Some(JText(hints.refused))), ("pid", Some(JNumber(pid)))])
    case IllegalState(None) =>
      var entries := [("error", None), ("hint", Some(JText(hints.handshake))), ("pid", Some(JNumber(pid)))];
      assert entries[0].1.None?;
      Respond(409, entries)
    case IllegalState(Some(text)) =>
      MapOfThree("error", JText(text), "hint", JText(hints.handshake), "pid", JNumber(pid));
      Respond(409, [("error", Some(JText(text))), ("hint", Some(JText(hints.handshake))), ("pid", Some(JNumber(pid)))])
    case _ => Caught(f)
  }

  /** Where a heap dump goes when the request names no file. */
  function DefaultHeapDump(pid: int): (r: string)
    ensures |r| > 20 && r[..14] == "/tmp/heapdump-" && r[|r| - 6..] == ".hprof"
  {
    "/tmp/heapdump-" + IntToDecimal(pid) + ".hprof"
  }

  const NOT_CREATED: string := "Heap dump file was not created"

  /**
   * After the dump: the path the agent returned is parsed and looked up on
   * the disk (relative to the working directory); a null path throws
   * inside the path parser, a NUL character is refused with its message.
   */
  function DumpChecked(returned: Option<string>, cwd: Path, onDisk: Path -> bool): (r: Response)
    requires cwd.absolute
    ensures StatusOf(r) == 200 || StatusOf(r) == 500
    ensures returned.None? ==> r == ServerError
    ensures returned.Some? && NUL in returned.value ==>
      r == Reply(500, JObject(map["error" := JText("Nul character not allowed: " + returned.value)]))
    ensures r.Reply? && r.status == 200 <==>
      returned.Some? && Parse(returned.value).Ok? && onDisk(ToAbsolute(Parse(returned.value).value, cwd))
    ensures r.Reply? && r.status == 200 ==>
      r.body == JObject(map["status" := JText("success"), "path" := JText(returned.value)])
  {
    match returned
    case None => ServerError
    case Some(p) =>
      match Parse(p)
      case Err(e) =>
        assert e.reason + ": " == "Nul character not allowed: ";
        Failed(Some(e.reason + ": " + e.input))
      case Ok(path) =>
        if onDisk(ToAbsolute(path, cwd)) then
          MapOfTwo("status", JText("success"), "path", JText(p));
          Respond(200, [("status", Some(JText("success"))), ("path", Some(JText(p)))])
        else
          Respond(500, [("status", Some(JText("error"))), ("message", Some(JText(NOT_CREATED)))])
  }

  /**
   * heapdump: 404 for an id that is not live; the target file is read
   * before attaching (a non-text file name fails there); a refused attach
   * or handshake is explained, and only attaching raises those; a dump
   * whose file then exists is a success.
   */
  function HeapDump(m: ProcessManager, id: int, cfg: Body, agentOf: int -> Agent, cwd: Path, onDisk: Path -> bool): (r: Response)
    reads m
    requires m.Keyed() && cwd.absolute
    ensures r == Empty(404) <==> Live(m, id).None?
    ensures Live(m, id).Some? && TextFieldOr(cfg, "filename", DefaultHeapDump(Live(m, id).value.pid)).Err? ==> r == ServerError
    ensures StatusOf(r) == 412 <==>
      && Live(m, id).Some?
      && TextFieldOr(cfg, "filename", DefaultHeapDump(Live(m, id).value.pid)).Ok?
      && var attach := agentOf(Live(m, id).value.pid).attach;
         attach.Threw? && attach.failure.AttachNotSupported?
    ensures StatusOf(r) == 409 <==>
      && Live(m, id).Some?
      && TextFieldOr(cfg, "filename", DefaultHeapDump(Live(m, id).value.pid)).Ok?
      && var attach := agentOf(Live(m, id).value.pid).attach;
         attach.Threw? && attach.failure.IllegalState? && attach.failure.message.Some?
    ensures Live(m, id).Some? && TextFieldOr(cfg, "filename", DefaultHeapDump(Live(m, id).value.pid)).Ok? ==>
      var agent := agentOf(Live(m, id).value.pid);
      var target := TextFieldOr(cfg, "filename", DefaultHeapDump(Live(m, id).value.pid)).value;
      Then(Connected(agent), agent.takeHeapDump(target, true)).Returned? ==>
        r == DumpChecked(agent.takeHeapDump(target, true).value, cwd, onDisk)
    ensures r.Reply? && r.status == 200 <==>
      && Live(m, id).Some?
      && var agent := agentOf(Live(m, id).value.pid);
         var target := TextFieldOr(cfg, "filename", DefaultHeapDump(Live(m, id).value.pid));
         && target.Ok?
         && Then(Connected(agent), agent.takeHeapDump(target.value, true)).Returned?
         && var returned := agent.takeHeapDump(target.value, true).value;
            returned.Some? && Parse(returned.value).Ok? && onDisk(ToAbsolute(Parse(returned.value).value, cwd))
    ensures r.Reply? && r.status == 200 ==>
      var returned := agentOf(Live(m, id).value.pid).takeHeapDump(
        TextFieldOr(cfg, "filename", DefaultHeapDump(Live(m, id).value.pid)).value, true).value;
      r.body == JObject(map["status" := JText("success"), "path" := JText(returned.value)])
  {
    match Live(m, id)
    case None => Empty(404)
    case Some(mp) =>
      match TextFieldOr(cfg, "filename", DefaultHeapDump(mp.pid))
      case Err(_) => ServerError
      case Ok(target) =>
        var agent := agentOf(mp.pid);
        match Then(Connected(agent), agent.takeHeapDump(target, true))
        case Threw(f) => Classify(f, mp.pid, HEAP_DUMP_HINTS)
        case Returned(returned) => DumpChecked(returned, cwd, onDisk)
  }

  /**
   * A process that refuses attach, whatever the request, is told so with
   * 412 and the hint: the status never turns into a bare server error.
   */
  lemma RefusedHeapDumpExplained(m: ProcessManager, id: int, agentOf: int -> Agent, cwd: Path, onDisk: Path -> bool,
                                 message: Option<string>)
    requires m.Keyed() && cwd.absolute && Live(m, id).Some?
    requires agentOf(Live(m, id).value.pid).attach == Threw(AttachNotSupported(message))
    ensures HeapDump(m, id, map[], agentOf, cwd, onDisk) ==
      Reply(412, JObject(Explained(OrElse(message, ATTACH_NOT_SUPPORTED), HEAP_DUMP_HINTS.refused, Live(m, id).value.pid)))
  {
  }

  /**
   * Attach, start the management agent, connect, as the histogram reader
   * does it: a null connector address is reported with its own message.
   */
  function HistogramSession(agent: Agent, pid: int): (r: Outcome<()>)
    ensures agent.attach == Returned(None) ==>
      r == Threw(Thrown(Some("Management agent unavailable for pid " + IntToDecimal(pid))))
    ensures agent.attach != Returned(None) ==> r == Connected(agent)
  {
    match agent.attach
    case Returned(None) => Threw(Thrown(Some("Management agent unavailable for pid " + IntToDecimal(pid))))
    case _ => Connected(agent)
  }

  /** One histogram row as the endpoint renders it. */
  function RowJson(row: Row): Json {
    JObject(map["rank" := JNumber(row.rank), "instances" := JNumber(row.instances),
                "bytes" := JNumber(row.bytes), "className" := JText(row.className)])
  }

  /** The histogram answer: the rows as a list, or the number that failed to parse. */
  function RowsReply(rows: Result<seq<Row>, NumberFormatError>): (r: Response)
    ensures rows.Err? ==> r == Reply(500, JObject(map["error" := JText("For input string: \"" + rows.error.input + "\"")]))
    ensures rows.Ok? ==> r.Reply? && r.status == 200 && r.body.JObject? && r.body.fields.Keys == {"entries"}
    ensures rows.Ok? ==> var entries := r.body.fields["entries"];
      entries.JList? && |entries.items| == |rows.value|
      && forall i :: 0 <= i < |rows.value| ==> entries.items[i] == RowJson(rows.value[i])
  {
    match rows
    case Err(e) => Failed(Some("For input string: \"" + e.input + "\""))
    case Ok(rows) =>
      Respond(200, [("entries", Some(JList(seq(|rows|, i requires 0 <= i < |rows| => RowJson(rows[i])))))])
  }

  /** What the histogram reader makes of the text the diagnostic command returned. */
  function HistogramRows(text: Option<string>, maxRows: int): (r: Result<seq<Row>, NumberFormatError>)
    ensures text.None? ==> r == Ok([])
    ensures r.Ok? ==> |r.value| <= Cap(maxRows)
  {
    if text.None? then Ok([])
    else
      Rows(SplitLines(text.value), maxRows)
  }

  /** The row cap of a histogram request: 25 when no limit is given, else the limit clamped to [1, 200]. */
  function RowCap(limit: Option<int>): (r: int)
    ensures 1 <= r <= MAX_LIMIT
    ensures limit.None? ==> r == DEFAULT_LIMIT
    ensures limit.Some? && 1 <= limit.value <= MAX_LIMIT ==> r == limit.value
    ensures limit.Some? && limit.value < 1 ==> r == 1
    ensures limit.Some? && limit.value > MAX_LIMIT ==> r == MAX_LIMIT
  {
    ClampRows(if limit.Some? then limit.value else DEFAULT_LIMIT)
  }

  /**
   * heap/histogram as a function of its inputs: 404 for an id that is not
   * live; the row cap is 25 or the limit clamped to [1, 200]; a refused
   * attach or handshake is explained, and only attaching raises those;
   * otherwise at most that many rows of the class histogram.
   */
  function HistogramAnswer(m: ProcessManager, id: int, limit: Option<int>, agentOf: int -> Agent): (r: Response)
    reads m
    requires m.Keyed()
    ensures r == Empty(404) <==> Live(m, id).None?
    ensures StatusOf(r) == 412 <==>
      && Live(m, id).Some?
      && var attach := agentOf(Live(m, id).value.pid).attach;
         attach.Threw? && attach.failure.AttachNotSupported?
    ensures StatusOf(r) == 409 <==>
      && Live(m, id).Some?
      && var attach := agentOf(Live(m, id).value.pid).attach;
         attach.Threw? && attach.failure.IllegalState? && attach.failure.message.Some?
    ensures r.Reply? && r.status == 200 <==>
      && Live(m, id).Some?
      && var agent := agentOf(Live(m, id).value.pid);
         var text := Then(HistogramSession(agent, Live(m, id).value.pid), agent.gcClassHistogram);
         text.Returned? && HistogramRows(text.value, RowCap(limit)).Ok?
    ensures Live(m, id).Some? ==>
      var agent := agentOf(Live(m, id).value.pid);
      var text := Then(HistogramSession(agent, Live(m, id).value.pid), agent.gcClassHistogram);
      text.Returned? ==>
        var rows := HistogramRows(text.value, RowCap(limit));
        r == RowsReply(rows) && (rows.Ok? ==> |rows.value| <= RowCap(limit) <= MAX_LIMIT)
  {
    match Live(m, id)
    case None => Empty(404)
    case Some(mp) =>
      var agent := agentOf(mp.pid);
      match Then(HistogramSession(agent, mp.pid), agent.gcClassHistogram)
      case Threw(f) => Classify(f, mp.pid, HISTOGRAM_HINTS)
      case Returned(text) => RowsReply(HistogramRows(text, RowCap(limit)))
  }

  /** heap/histogram: the reader's loop runs over the text the agent returned. */
  method HeapHistogram(m: ProcessManager, id: int, limit: Option<int>, agentOf: int -> Agent) returns (r: Response)
    requires m.Keyed()
    ensures r == HistogramAnswer(m, id, limit, agentOf)
  {
    var live := Live(m, id);
    if live.None? {
      return Empty(404);
    }
    var mp := live.value;
    var agent := agentOf(mp.pid);
    var text := Then(HistogramSession(agent, mp.pid), agent.gcClassHistogram);
    if text.Threw? {
      return Classify(text.failure, mp.pid, HISTOGRAM_HINTS);
    }
    var rows := ParseHistogramText(text.value, RowCap(limit));
    r := RowsReply(rows);
  }

  const PROFILER_NOT_FOUND: string := "async-profiler not found; set ASYNC_PROFILER_HOME"

  /** A profiler run as the endpoint prepares it: the command line and the output file it names. */
  datatype ProfilerRun = ProfilerRun(cmd: seq<string>, output: string)

  /** Where the profile goes when the request names no file: its extension is the output format. */
  function DefaultProfile(pid: int, format: string): (r: string)
    ensures |r| > 13 + |format| && r[..13] == "/tmp/profile-" && r[|r| - |format| - 1..] == "." + format
  {
    "/tmp/profile-" + IntToDecimal(pid) + "." + format
  }

  /**
   * The profiler command: without `ASYNC_PROFILER_HOME` the endpoint answers
   * 500 with its message; then the duration (10 s), event (`cpu`), output
   * format (`svg`) and file (`DefaultProfile` of the format) are read, and
   * the run fails exactly when one of them is present but unreadable or
   * null; the command is the script, its four options and the process id.
   */
  function ProfilerRunOf(cfg: Body, pid: int, home: Option<string>): (r: Result<ProfilerRun, Response>)
    ensures home.None? ==> r == Err(Reply(500, JObject(map["error" := JText(PROFILER_NOT_FOUND)])))
    ensures home.Some? && r.Err? ==> r.error == ServerError
    ensures r.Ok? ==>
      var cmd := r.value.cmd;
      && home.Some? && |cmd| == 10
      && cmd[0] == home.value + "/profiler.sh" && cmd[1] == "-d" && cmd[3] == "-e" && cmd[5] == "-o" && cmd[7] == "-f"
      && cmd[8] == r.value.output && cmd[9] == IntToDecimal(pid)
      && cmd[2] == IntToDecimal(if "duration" in cfg && cfg["duration"].JNumber? then Wrap32(cfg["duration"].number) else 10)
      && ("event" in cfg ==> cfg["event"] == JText(cmd[4]))
      && ("output" in cfg ==> cfg["output"] == JText(cmd[6]))
      && ("filename" in cfg ==> cfg["filename"] == JText(cmd[8]))
      && ("event" !in cfg ==> cmd[4] == "cpu")
      && ("output" !in cfg ==> cmd[6] == "svg")
      && ("filename" !in cfg ==> cmd[8] == DefaultProfile(pid, cmd[6]))
    ensures home.Some? ==> (r.Err? <==>
      || ("duration" in cfg && !cfg["duration"].JNumber?)
      || ("event" in cfg && !cfg["event"].JText?)
      || ("output" in cfg && !cfg["output"].JText?)
      || ("filename" in cfg && !cfg["filename"].JText?))
  {
    if home.None? then Err(Respond(500, [("error", Some(JText(PROFILER_NOT_FOUND)))]))
    else
      var duration := if "duration" in cfg then IntValueOf(cfg["duration"]) else Ok(10);
      var event := TextFieldOr(cfg, "event", "cpu");
      var format := TextFieldOr(cfg, "output", "svg");
      if duration.Err? || event.Err? || format.Err? then Err(ServerError)
      else
        var file := TextFieldOr(cfg, "filename", DefaultProfile(pid, OrElse(format.value, "null")));
        if file.Err? || event.value.None? || format.value.None? || file.value.None? then Err(ServerError)
        else
          var output := file.value.value;
          Ok(ProfilerRun([home.value + "/profiler.sh", "-d", IntToDecimal(duration.value), "-e", event.value.value,
                          "-o", format.value.value, "-f", output, IntToDecimal(pid)], output))
  }

  /** An empty request profiles CPU for 10 seconds into `/tmp/profile-<pid>.svg`. */
  lemma ProfilerByDefault(pid: int, home: string)
    ensures var out := DefaultProfile(pid, "svg");
      ProfilerRunOf(map[], pid, Some(home)) ==
        Ok(ProfilerRun([home + "/profiler.sh", "-d", "10", "-e", "cpu", "-o", "svg", "-f", out, IntToDecimal(pid)], out))
  {
    assert NatToDecimal(1) == "1";
    assert IntToDecimal(10) == "10";
  }

  /**
   * profiler/run: 404 for an id that is not live and 500 without the
   * profiler, submitting nothing; otherwise the run is submitted to the worker
   * pool and 202 gives its task id and the output file; a rejected submission
   * is a server error. `ran` is the command the submitted task runs.
   */
  method RunProfiler(m: ProcessManager, tasks: TaskManager, id: int, cfg: Body, home: Option<string>)
    returns (r: Response, ran: Option<seq<string>>)
    requires m.Keyed() && tasks.Valid()
    modifies tasks
    ensures tasks.Valid()
    ensures Live(m, id).None? ==> r == Empty(404) && ran.None? && unchanged(tasks)
    ensures Live(m, id).Some? && ProfilerRunOf(cfg, Live(m, id).value.pid, home).Err? ==>
      r == ProfilerRunOf(cfg, Live(m, id).value.pid, home).error && ran.None? && unchanged(tasks)
    ensures Live(m, id).Some? && ProfilerRunOf(cfg, Live(m, id).value.pid, home).Ok? ==>
      var run := ProfilerRunOf(cfg, Live(m, id).value.pid, home).value;
      && tasks.nextId == old(tasks.nextId) + 1
      && (ran.Some? <==> Admit(old(tasks.pool)).Some?)
      && (ran.Some? ==>
            && ran.value == run.cmd && tasks.tasks == old(tasks.tasks)[old(tasks.nextId) := Pending]
            && r == Reply(202, JObject(map["taskId" := JNumber(old(tasks.nextId)), "path" := JText(run.output)])))
      && (ran.None? ==> r == ServerError && tasks.tasks == old(tasks.tasks))
  {
    var live := Live(m, id);
    if live.None? {
      return Empty(404), None;
    }
    var prepared := ProfilerRunOf(cfg, live.value.pid, home);
    if prepared.Err? {
      return prepared.error, None;
    }
    var run := prepared.value;
    var submitted := tasks.Submit();
    if submitted.Err? {
      return ServerError, None;
    }
    MapOfTwo("taskId", JNumber(submitted.value), "path", JText(run.output));
    r := Respond(202, [("taskId", Some(JNumber(submitted.value))), ("path", Some(JText(run.output)))]);
    ran := Some(run.cmd);
  }
}

=== FILE: download.dfy ===
/**
 * The file-download endpoint: the requested path is made absolute and
 * normalised, refused unless it lies under `/tmp` by its first name, looked
 * up on disk, and served with a media type and a disposition chosen from
 * its file name. The disk is a parameter; the guard itself never consults it.
 */
module Download {
  import opened Wrappers
  import opened Text
  import opened Paths

  /** The one directory downloads may come from, as the first name of an absolute path. */
  const ALLOWED_ROOT: string := "tmp"

  const SVG: string := "image/svg+xml"
  const OCTET_STREAM: string := "application/octet-stream"

  /** What the disk holds at a path: `exists()` is true for all but `Missing`. */
  datatype Entry = Missing | RegularFile(length: nat) | Directory | Unreadable

  /** The endpoint's answer. */
  datatype Reply =
    | Forbidden                   // 403 with the body "Forbidden"
    | NotFound                    // 404, no body
    | Failed(message: string)     // 500 with the exception message as the body
    | Serve(mediaType: string, disposition: string, length: nat)  // 200 with the file

  function Status(r: Reply): int {
    match r
    case Forbidden => 403
    case NotFound => 404
    case Failed(_) => 500
    case Serve(_, _, _) => 200
  }

  /** `getName()`: the last name of the path, empty for the root. */
  function FileName(p: Path): (r: string)
    ensures p.names != [] ==> r == p.names[|p.names| - 1]
  {
    if p.names == [] then "" else p.names[|p.names| - 1]
  }

  predicate EndsWithText(s: string, suffix: string) {
    |suffix| <= |s| && s[|s| - |suffix|..] == suffix
  }

  /**
   * The media type: octet-stream by default, `image/svg+xml` for a `.svg`
   * name, and octet-stream again for a `.jfr` name.
   */
  function MediaType(name: string): (r: string)
    ensures r == SVG <==> EndsWithText(name, ".svg")
    ensures r != SVG ==> r == OCTET_STREAM
  {
    var byDefault := OCTET_STREAM;
    var svg := if EndsWithText(name, ".svg") then SVG else byDefault;
    if EndsWithText(name, ".jfr") then OCTET_STREAM else svg
  }

  /** `Content-Disposition`: inline for an image type, otherwise an attachment, with the file name quoted. */
  function Disposition(name: string, mediaType: string): (r: string)
    ensures "image/" <= mediaType ==> r == "inline; filename=\"" + name + "\""
    ensures !("image/" <= mediaType) ==> r == "attachment; filename=\"" + name + "\""
  {
    (if "image/" <= mediaType then "inline" else "attachment") + "; filename=\"" + name + "\""
  }

  /** The path the guard decides on: absolute, then normalised. */
  function Resolved(filePath: string, cwd: Path): (r: Result<Path, InvalidPath>)
    requires cwd.absolute
    ensures r.Err? <==> NUL in filePath
    ensures r.Err? ==> r.error == InvalidPath(filePath, "Nul character not allowed")
    ensures r.Ok? ==> r.value.absolute && forall x :: x in r.value.names ==> Plain(x)
  {
    match Parse(filePath)
    case Err(e) => Err(e)
    case Ok(p) => Ok(Normalize(ToAbsolute(p, cwd)))
  }

  /**
   * download: a path string that does not parse fails with its message; a
   * resolved path whose first name is not `tmp` is forbidden; a missing file
   * is not found; a file that cannot be opened fails with the path and the
   * reason; any other file is served.
   */
  function Download(filePath: string, cwd: Path, disk: Path -> Entry): (r: Reply)
    requires cwd.absolute
    ensures NUL in filePath ==> r == Failed("Nul character not allowed: " + filePath)
    ensures Resolved(filePath, cwd).Ok? ==>
      var p := Resolved(filePath, cwd).value;
      && (r == Forbidden <==> !StartsWithRootName(p, ALLOWED_ROOT))
      && (StartsWithRootName(p, ALLOWED_ROOT) ==> (r == NotFound <==> disk(p) == Missing))
      && (StartsWithRootName(p, ALLOWED_ROOT) ==> (r.Serve? <==> disk(p).RegularFile?))
      && (StartsWithRootName(p, ALLOWED_ROOT) && disk(p) == Directory ==> r == Failed(Render(p) + " (Is a directory)"))
      && (StartsWithRootName(p, ALLOWED_ROOT) && disk(p) == Unreadable ==> r == Failed(Render(p) + " (Permission denied)"))
    ensures r.Serve? ==>
      var p := Resolved(filePath, cwd).value;
      && Resolved(filePath, cwd).Ok? && StartsWithRootName(p, ALLOWED_ROOT)
      && disk(p).RegularFile? && r.length == disk(p).length
      && r.mediaType == MediaType(FileName(p))
      && r.disposition == Disposition(FileName(p), r.mediaType)
  {
    match Resolved(filePath, cwd)
    case Err(e) =>
      assert e.reason + ": " == "Nul character not allowed: ";
      Failed(e.reason + ": " + e.input)
    case Ok(p) =>
      if !StartsWithRootName(p, ALLOWED_ROOT) then Forbidden
      else
        match disk(p)
        case Missing => NotFound
        case Directory => Failed(Render(p) + " (Is a directory)")
        case Unreadable => Failed(Render(p) + " (Permission denied)")
        case RegularFile(length) =>
          var name := FileName(p);
          var mediaType := MediaType(name);
          Serve(mediaType, Disposition(name, mediaType), length)
  }

  /**
   * Whatever the request, a file that is served lies under `/tmp` by its
   * names alone: the path has no `.` or `..` name left to climb out with, and
   * the disk was only asked about that path.
   */
  lemma ServedStaysUnderTmp(filePath: string, cwd: Path, disk: Path -> Entry)
    requires cwd.absolute
    ensures var r := Download(filePath, cwd, disk);
      r.Serve? ==>
        var p := Resolved(filePath, cwd).value;
        && p.absolute && p.names != [] && p.names[0] == ALLOWED_ROOT
        && (forall x :: x in p.names ==> Plain(x))
        && FileName(p) in p.names
  {
  }

  /** `/tmpx/a` shares its first characters with `/tmp` but not its first name: forbidden. */
  lemma LookalikeForbidden(cwd: Path, disk: Path -> Entry)
    requires cwd.absolute
    ensures Download("/tmpx/a", cwd, disk) == Forbidden
  {
    var p := Path(true, ["tmpx", "a"]);
    assert Render(p) == "/tmpx/a";
    ParseRender(p);
    FoldOfPlain(p.names, true);
  }

  /** `/tmp/../etc/passwd` normalises to `/etc/passwd`: forbidden. */
  lemma ClimbingOutForbidden(cwd: Path, disk: Path -> Entry)
    requires cwd.absolute
    ensures Download("/tmp/../etc/passwd", cwd, disk) == Forbidden
  {
    ClimbingOutParses();
    ClimbingOutFolds();
    assert Resolved("/tmp/../etc/passwd", cwd) == Ok(Path(true, ["etc", "passwd"]));
  }

  lemma ClimbingOutParses()
    ensures Parse("/tmp/../etc/passwd") == Ok(Path(true, ["tmp", "..", "etc", "passwd"]))
  {
    var d := ["tmp", "..", "etc", "passwd"];
    ClimbingOutJoins();
    ClimbingOutNames();
    ParsesAs("/tmp/../etc/passwd", Path(true, d));
  }

  lemma ClimbingOutNames()
    ensures GoodNames(["tmp", "..", "etc", "passwd"])
  {
  }

  lemma ClimbingOutJoins()
    ensures Join(["tmp", "..", "etc", "passwd"], "/") == "tmp/../etc/passwd"
  {
    var d := ["tmp", "..", "etc", "passwd"];
    assert d[1..][1..][1..] == ["passwd"] && d[1..][1..] == ["etc", "passwd"] && d[1..] == ["..", "etc", "passwd"];
    assert Join(d[1..][1..], "/") == "etc/passwd";
    assert Join(d[1..], "/") == "../etc/passwd";
  }

  lemma ClimbingOutFolds()
    ensures Fold(["tmp", "..", "etc", "passwd"], true) == ["etc", "passwd"]
  {
    var a := [] + ["tmp"];
    var b := a + [".."];
    var c := b + ["etc"];
    var d := c + ["passwd"];
    FoldSnoc([], "tmp", true);
    assert Fold(a, true) == ["tmp"];
    FoldSnoc(a, "..", true);
    assert Fold(b, true) == [];
    FoldSnoc(b, "etc", true);
    assert Fold(c, true) == ["etc"];
    FoldSnoc(c, "passwd", true);
    assert d == ["tmp", "..", "etc", "passwd"];
  }

  /** A relative path is resolved against the working directory before the check. */
  lemma RelativeUnderTmp(disk: Path -> Entry)
    requires disk(Path(true, ["tmp", "profile-42.svg"])) == RegularFile(7)
    ensures Download("profile-42.svg", Path(true, ["tmp"]), disk)
      == Serve(SVG, "inline; filename=\"profile-42.svg\"", 7)
  {
    RelativeResolves();
    SvgMediaType();
    SvgDisposition();
  }

  lemma RelativeResolves()
    ensures Resolved("profile-42.svg", Path(true, ["tmp"])) == Ok(Path(true, ["tmp", "profile-42.svg"]))
  {
    var names := ["tmp", "profile-42.svg"];
    assert Plain(names[0]) && Plain(names[1]);
    assert forall x :: x in names ==> x == names[0] || x == names[1];
    FoldOfPlain(names, true);
    RelativeParses();
  }

  lemma RelativeParses()
    ensures Parse("profile-42.svg") == Ok(Path(false, ["profile-42.svg"]))
  {
    var p := Path(false, ["profile-42.svg"]);
    assert GoodNames(p.names);
    assert Render(p) == "profile-42.svg";
    ParseRender(p);
  }

  lemma SvgDisposition()
    ensures Disposition("profile-42.svg", SVG) == "inline; filename=\"profile-42.svg\""
  {
    assert "image/" <= SVG;
  }

  lemma SvgMediaType()
    ensures MediaType("profile-42.svg") == SVG
  {
    assert EndsWithText("profile-42.svg", ".svg");
    assert !EndsWithText("profile-42.svg", ".jfr");
  }

  /** Folding one more name is one more step. */
  lemma FoldSnoc(names: seq<string>, name: string, absolute: bool)
    ensures Fold(names + [name], absolute) == Step(Fold(names, absolute), name, absolute)
  {
    assert (names + [name])[..|names|] == names;
  }

  /** A path string with no NUL and no empty, `/` or NUL names parses to the path it renders. */
  lemma ParsesAs(s: string, p: Path)
    requires GoodNames(p.names)
    requires p.absolute && s == "/" + Join(p.names, "/")
    ensures Parse(s) == Ok(p)
  {
    ParseRender(p);
  }

  /** Only `.svg` names are served inline, as `image/svg+xml`; everything else is an attachment. */
  lemma InlineExactlyForSvg(name: string)
    ensures var t := MediaType(name);
      && ("inline" <= Disposition(name, t) <==> EndsWithText(name, ".svg"))
      && (EndsWithText(name, ".jfr") ==> t == OCTET_STREAM)
  {
    var t := MediaType(name);
    var d := Disposition(name, t);
    if !EndsWithText(name, ".svg") {
      assert t == OCTET_STREAM;
      assert !("image/" <= t) by {
        assert t[0] == 'a';
      }
      assert d[0] == 'a';
    }
  }
}

=== FILE: endpoints.dfy ===
/**
 * The per-process endpoints of the process controller that answer from the
 * supervisor's state or reach the agent of a live process: the lookup they
 * start with, stop, metrics, logs, history, the sampling toggle, flight
 * recordings, GC logging and native agents. Reaching an agent (attach, the
 * local management agent, the JMX connection, the MBean invocation) is a
 * parameter: what each step returns or throws.
 */
module Endpoints {
  import opened Wrappers
  import opened Numbers
  import opened Json
  import opened History
  import opened LogTail
  import opened Processes

  /** What an attach step or an agent operation threw. */
  datatype Failure =
    | AttachNotSupported(message: Option<string>)  // the target refuses to be attached to
    | IllegalState(message: Option<string>)        // the attach handshake failed
    | Thrown(message: Option<string>)              // any other exception, with its message
    | NullDereference                              // a null met inside the JVM's own code

  /** What reaching an agent, or an operation invoked on it, gave. */
  datatype Outcome<T> = Returned(value: T) | Threw(failure: Failure)

  /**
   * What a call over the JMX connection gave: its value, or an exception
   * with its message. Such a call never raises the attach API's own
   * exceptions: those come from attaching alone.
   */
  datatype Invoked<T> = Gave(value: T) | Raised(message: Option<string>)

  /**
   * The agent of one process as the endpoints reach it: attaching and
   * starting the local management agent (which yields the published
   * connector address, possibly null), connecting to that address, and the
   * operations of the agent's control MBean and of the diagnostic-command
   * MBean, each with what it returns or throws.
   */
  datatype Agent = Agent(
    attach: Outcome<Option<string>>,
    connect: Invoked<()>,
    setSampleEnabled: bool -> Invoked<()>,
    startJfr: (Option<string>, int) -> Invoked<()>,
    stopAndDumpJfr: Option<string> -> Invoked<Option<string>>,
    takeHeapDump: (Option<string>, bool) -> Invoked<Option<string>>,
    enableGcLogging: (bool, Option<string>) -> Invoked<()>,
    loadNativeAgent: string -> Invoked<bool>,
    gcClassHistogram: Invoked<Option<string>>)

  /** A call over the connection as the handlers see it: its exception is an ordinary one. */
  function Raise<T>(call: Invoked<T>): (r: Outcome<T>)
    ensures r.Returned? <==> call.Gave?
    ensures call.Gave? ==> r.value == call.value
    ensures call.Raised? ==> r == Threw(Thrown(call.message))
  {
    match call
    case Gave(v) => Returned(v)
    case Raised(message) => Threw(Thrown(message))
  }

  /**
   * Attach, start the management agent, connect: a null connector address
   * makes the JMX service URL throw before any connection is tried.
   */
  function Connected(agent: Agent): (r: Outcome<()>)
    ensures agent.attach.Threw? ==> r == Threw(agent.attach.failure)
    ensures agent.attach == Returned(None) ==> r == Threw(NullDereference)
    ensures r.Returned? <==> agent.attach.Returned? && agent.attach.value.Some? && agent.connect.Gave?
    ensures agent.attach.Returned? && agent.attach.value.Some? && agent.connect.Raised? ==>
      r == Threw(Thrown(agent.connect.message))
  {
    match agent.attach
    case Threw(f) => Threw(f)
    case Returned(None) => Threw(NullDereference)
    case Returned(Some(_)) => Raise(agent.connect)
  }

  /** An operation invoked once the connection stands: the first failure wins. */
  function Then<T>(session: Outcome<()>, op: Invoked<T>): (r: Outcome<T>)
    ensures r.Returned? <==> session.Returned? && op.Gave?
    ensures session.Threw? ==> r == Threw(session.failure)
    ensures session.Returned? ==> r == Raise(op)
  {
    if session.Threw? then Threw(session.failure) else Raise(op)
  }

  /** The catch-all handler of the agent endpoints, applied to what was thrown. */
  function Caught(f: Failure): (r: Response)
    ensures f.NullDereference? ==> r == ServerError
    ensures !f.NullDereference? && f.message.Some? ==> r == Reply(500, JObject(map["error" := JText(f.message.value)]))
    ensures !f.NullDereference? && f.message.None? ==> r == ServerError
    ensures r.Reply? ==> r.status == 500
  {
    if f.NullDereference? then ServerError else Failed(f.message)
  }

  /**
   * The lookup every per-process endpoint starts with: the live process
   * whose id is `id`, if there is one.
   */
  function Live(m: ProcessManager, id: int): (r: Option<ManagedProcess>)
    reads m
    requires m.Keyed()
    ensures r.Some? <==> exists mp :: mp in m.ListProcesses() && mp.id == id
    ensures r.Some? ==> r.value in m.ListProcesses() && r.value.id == id
  {
    if id in m.processes then Some(m.processes[id]) else None
  }

  /**
   * stop: 200 with an empty object when the id was live, which stops it and
   * stamps its history; 404 otherwise, changing nothing.
   */
  method Stop(m: ProcessManager, id: int, now: int) returns (r: Response)
    requires m.Valid()
    modifies m, m.history.Values
    ensures m.Valid()
    ensures r == Reply(200, JObject(map[])) <==> id in old(m.processes)
    ensures r != Reply(200, JObject(map[])) ==> r == Empty(404) && m.processes == old(m.processes)
    ensures id in old(m.processes) ==> id !in m.processes && id in m.history && m.history[id].stopTime == now
  {
    var stopped, _ := m.StopProcess(id, now);
    r := if stopped then Reply(200, JObject(map[])) else Empty(404);
  }

  /**
   * metrics: the text the agent's exporter serves on the process's agent
   * port, passed through; 404 exactly when the id is not live.
   */
  function Metrics(m: ProcessManager, id: int, fetch: int -> Outcome<string>): (r: Response)
    reads m
    requires m.Keyed()
    ensures r == Empty(404) <==> Live(m, id).None?
    ensures r.Reply? && r.status == 200 <==> Live(m, id).Some? && fetch(Live(m, id).value.port).Returned?
    ensures r.Reply? && r.status == 200 ==> r.body == JText(fetch(Live(m, id).value.port).value)
  {
    match Live(m, id)
    case None => Empty(404)
    case Some(mp) =>
      match fetch(mp.port)
      case Threw(f) => Caught(f)
      case Returned(body) => Reply(200, JText(body))
  }

  /** The limit of the logs query when none is given. */
  const DEFAULT_LOG_LIMIT: int := 200

  /** The limit of a logs request: the one given, else the default. */
  function MaxLines(limit: Option<int>): (r: int)
    ensures limit.None? ==> r == DEFAULT_LOG_LIMIT
    ensures limit.Some? ==> r == limit.value
  {
    if limit.Some? then limit.value else DEFAULT_LOG_LIMIT
  }

  /** Some lines as a JSON list of texts. */
  function TextList(lines: seq<string>): (r: Json)
    ensures r.JList? && |r.items| == |lines|
    ensures forall i :: 0 <= i < |lines| ==> r.items[i] == JText(lines[i])
  {
    JList(seq(|lines|, i requires 0 <= i < |lines| => JText(lines[i])))
  }

  /** `{"lines": ...}`; a failed query threw from `subList` or from compiling the pattern. */
  function LinesReply(q: Result<seq<string>, QueryFailure>): (r: Response)
    ensures q.Err? <==> r == ServerError
    ensures q.Ok? ==> r == Reply(200, JObject(map["lines" := TextList(q.value)]))
  {
    match q
    case Err(_) => ServerError
    case Ok(lines) => Respond(200, [("lines", Some(TextList(lines)))])
  }

  /** Whether the logs request takes the regular-expression path: the flag is true and a query is given. */
  predicate RegexRequested(q: Option<string>, regex: Option<bool>)
    ensures RegexRequested(q, regex) ==> q.Some? && regex == Some(true)
  {
    regex == Some(true) && q.Some?
  }

  /**
   * logs: with the regex flag set and a query given, the regular-expression
   * search (case-insensitive only when that flag is true); otherwise the
   * substring search, the regex flag without a query listing every line.
   * The limit defaults to 200. A negative limit makes `subList` start past
   * the end and throw, unless the 32-bit subtraction `size - limit`
   * overflows, which starts it at 0 and lists every match. A process
   * without a buffer (never started or stopped) answers 200 with no lines,
   * not 404.
   */
  function Logs(m: ProcessManager, id: int, q: Option<string>, regex: Option<bool>, ignoreCase: Option<bool>,
                limit: Option<int>, compile: (string, bool) -> Option<string -> bool>): (r: Response)
    reads m
    requires m.BuffersBounded()
    requires limit.Some? ==> IsInt32(limit.value)
    ensures id !in m.logBuffers ==> r == LinesReply(Ok([]))
    ensures var max := MaxLines(limit);
      id in m.logBuffers && !RegexRequested(q, regex) && 0 <= max ==>
        r == LinesReply(Ok(Last(Filter(m.logBuffers[id], SubstringFilter(q)), max)))
    ensures var max := MaxLines(limit);
      var find := compile(if q.Some? then q.value else "", ignoreCase == Some(true));
      id in m.logBuffers && RegexRequested(q, regex) ==>
        && (find.None? ==> r == ServerError)
        && (find.Some? && 0 <= max ==> r == LinesReply(Ok(Last(Filter(m.logBuffers[id], find.value), max))))
  {
    var max := MaxLines(limit);
    if RegexRequested(q, regex) then
      LinesReply(m.QueryLogsRegex(id, q.value, ignoreCase == Some(true), compile, max))
    else
      LinesReply(m.QueryLogs(id, q, max))
  }

  /** With no parameters at all, the logs of a running process are the last 200 lines of its buffer. */
  lemma LogsByDefault(m: ProcessManager, id: int, compile: (string, bool) -> Option<string -> bool>)
    requires m.BuffersBounded() && id in m.logBuffers
    ensures Logs(m, id, None, None, None, None, compile) == LinesReply(Ok(Last(m.logBuffers[id], DEFAULT_LOG_LIMIT)))
  {
    FilterKeepsAll(m.logBuffers[id], SubstringFilter(None));
  }

  /**
   * A negative limit on either path: `subList` starts past the end and
   * throws, unless the 32-bit `size - limit` overflows, which lists every
   * match.
   */
  lemma LogsNegativeLimit(m: ProcessManager, id: int, q: Option<string>, regex: Option<bool>, ignoreCase: Option<bool>,
                          limit: Option<int>, compile: (string, bool) -> Option<string -> bool>)
    requires m.BuffersBounded() && limit.Some? && IsInt32(limit.value)
    requires id in m.logBuffers && MaxLines(limit) < 0
    ensures !RegexRequested(q, regex) ==>
      var lines := Filter(m.logBuffers[id], SubstringFilter(q));
      Logs(m, id, q, regex, ignoreCase, limit, compile) ==
        if IsInt32(|lines| - limit.value) then ServerError else LinesReply(Ok(lines))
    ensures RegexRequested(q, regex) && compile(q.value, ignoreCase == Some(true)).Some? ==>
      var lines := Filter(m.logBuffers[id], compile(q.value, ignoreCase == Some(true)).value);
      Logs(m, id, q, regex, ignoreCase, limit, compile) ==
        if IsInt32(|lines| - limit.value) then ServerError else LinesReply(Ok(lines))
  {
    var max := limit.value;
    if RegexRequested(q, regex) {
      var found := m.QueryLogsRegex(id, q.value, ignoreCase == Some(true), compile, max);
      assert Logs(m, id, q, regex, ignoreCase, limit, compile) == LinesReply(found);
    } else {
      var found := m.QueryLogs(id, q, max);
      assert Logs(m, id, q, regex, ignoreCase, limit, compile) == LinesReply(found);
    }
  }

  /**
   * A small negative limit fails the substring query of any running
   * process: the start it computes lies past the end of the matches.
   */
  lemma LogsNegativeLimitFails(m: ProcessManager, id: int, q: Option<string>, regex: Option<bool>,
                               ignoreCase: Option<bool>, limit: int, compile: (string, bool) -> Option<string -> bool>)
    requires m.BuffersBounded() && id in m.logBuffers && !RegexRequested(q, regex)
    requires -1000 <= limit < 0
    ensures Logs(m, id, q, regex, ignoreCase, Some(limit), compile) == ServerError
  {
    var lines := Filter(m.logBuffers[id], SubstringFilter(q));
    assert |lines| <= |m.logBuffers[id]| <= CAPACITY;
    LogsNegativeLimit(m, id, q, regex, ignoreCase, Some(limit), compile);
  }

  /** The case flag is read only on the regular-expression path. */
  lemma IgnoreCaseOnlyForRegex(m: ProcessManager, id: int, q: Option<string>, regex: Option<bool>,
                               a: Option<bool>, b: Option<bool>, limit: Option<int>,
                               compile: (string, bool) -> Option<string -> bool>)
    requires m.BuffersBounded() && (limit.Some? ==> IsInt32(limit.value))
    requires !RegexRequested(q, regex) || ((a == Some(true)) == (b == Some(true)))
    ensures Logs(m, id, q, regex, a, limit, compile) == Logs(m, id, q, regex, b, limit, compile)
  {
  }

  /** The sampling flag a toggle request asks for: true only for a true boolean or the text "true". */
  function Enabled(cfg: Body): (b: bool)
    ensures b <==> "enable" in cfg && (cfg["enable"] == JBool(true) || (cfg["enable"].JText? && Text.ToLowerAscii(cfg["enable"].text) == "true"))
  {
    "enable" in cfg && ParseBooleanOf(cfg["enable"]) == Ok(true)
  }

  /**
   * toggle: the flag is read before the lookup, so a null `enable` fails
   * even for an unknown id; then 404 for an id that is not live; then the
   * agent's sampling attribute is set and the flag echoed.
   */
  function Toggle(m: ProcessManager, id: int, cfg: Body, agentOf: int -> Agent): (r: Response)
    reads m
    requires m.Keyed()
    ensures "enable" in cfg && cfg["enable"] == JNull ==> r == ServerError
    ensures !("enable" in cfg && cfg["enable"] == JNull) ==> (r == Empty(404) <==> Live(m, id).None?)
    ensures r.Reply? && r.status == 200 <==>
      && !("enable" in cfg && cfg["enable"] == JNull) && Live(m, id).Some?
      && Connected(agentOf(Live(m, id).value.pid)).Returned?
      && agentOf(Live(m, id).value.pid).setSampleEnabled(Enabled(cfg)).Gave?
    ensures r.Reply? && r.status == 200 ==> r.body == JObject(map["enabled" := JBool(Enabled(cfg))])
  {
    var enable := if "enable" in cfg then ParseBooleanOf(cfg["enable"]) else Ok(false);
    if enable.Err? then ServerError
    else
      match Live(m, id)
      case None => Empty(404)
      case Some(mp) =>
        var agent := agentOf(mp.pid);
        match Then(Connected(agent), agent.setSampleEnabled(enable.value))
        case Threw(f) => Caught(f)
        case Returned(_) => Respond(200, [("enabled", Some(JBool(enable.value)))])
  }

  /** The maximum age of a start request: 0 when absent, a number's low 64 bits otherwise. */
  function MaxAge(cfg: Body): (r: Result<int, Fault>)
    ensures "maxAgeMillis" !in cfg ==> r == Ok(0)
    ensures r.Ok? ==> IsInt64(r.value)
    ensures "maxAgeMillis" in cfg ==> (r.Ok? <==> cfg["maxAgeMillis"].JNumber?)
  {
    if "maxAgeMillis" in cfg then LongValueOf(cfg["maxAgeMillis"]) else Ok(0)
  }

  /**
   * jfr/start: 404 for an id that is not live; the body is read only after
   * the connection stands, so a failed attach is reported whatever the body
   * holds; then the recording is started with the name and maximum age.
   */
  function StartJfr(m: ProcessManager, id: int, cfg: Body, agentOf: int -> Agent): (r: Response)
    reads m
    requires m.Keyed()
    ensures r == Empty(404) <==> Live(m, id).None?
    ensures Live(m, id).Some? && Connected(agentOf(Live(m, id).value.pid)).Threw? ==>
      r == Caught(Connected(agentOf(Live(m, id).value.pid)).failure)
    ensures r.Reply? && r.status == 200 <==>
      && Live(m, id).Some? && Connected(agentOf(Live(m, id).value.pid)).Returned?
      && TextFieldOr(cfg, "name", "recording").Ok? && MaxAge(cfg).Ok?
      && agentOf(Live(m, id).value.pid).startJfr(TextFieldOr(cfg, "name", "recording").value, MaxAge(cfg).value).Gave?
    ensures r.Reply? && r.status == 200 ==> r.body == JObject(map["started" := JBool(true)])
  {
    match Live(m, id)
    case None => Empty(404)
    case Some(mp) =>
      var agent := agentOf(mp.pid);
      match Connected(agent)
      case Threw(f) => Caught(f)
      case Returned(_) =>
        var name := TextFieldOr(cfg, "name", "recording");
        var maxAge := MaxAge(cfg);
        if name.Err? || maxAge.Err? then ServerError
        else
          match Raise(agent.startJfr(name.value, maxAge.value))
          case Threw(f) => Caught(f)
          case Returned(_) => Respond(200, [("started", Some(JBool(true)))])
  }

  /**
   * jfr/stop: 404 for an id that is not live; after the connection stands,
   * the recording is stopped and dumped to the target, and the path the
   * agent returns is answered; a null path fails the body.
   */
  function StopJfr(m: ProcessManager, id: int, cfg: Body, agentOf: int -> Agent): (r: Response)
    reads m
    requires m.Keyed()
    ensures r == Empty(404) <==> Live(m, id).None?
    ensures Live(m, id).Some? && Connected(agentOf(Live(m, id).value.pid)).Threw? ==>
      r == Caught(Connected(agentOf(Live(m, id).value.pid)).failure)
    ensures r.Reply? && r.status == 200 <==>
      && Live(m, id).Some? && Connected(agentOf(Live(m, id).value.pid)).Returned? && TextFieldOr(cfg, "filename", "dump.jfr").Ok?
      && var dumped := agentOf(Live(m, id).value.pid).stopAndDumpJfr(TextFieldOr(cfg, "filename", "dump.jfr").value);
         dumped.Gave? && dumped.value.Some?
    ensures r.Reply? && r.status == 200 ==>
      r.body == JObject(map["path" := JText(agentOf(Live(m, id).value.pid).stopAndDumpJfr(TextFieldOr(cfg, "filename", "dump.jfr").value).value.value)])
  {
    match Live(m, id)
    case None => Empty(404)
    case Some(mp) =>
      var agent := agentOf(mp.pid);
      match Connected(agent)
      case Threw(f) => Caught(f)
      case Returned(_) =>
        match TextFieldOr(cfg, "filename", "dump.jfr")
        case Err(_) => ServerError
        case Ok(target) =>
          match Raise(agent.stopAndDumpJfr(target))
          case Threw(f) => Caught(f)
          case Returned(path) => Respond(200, [("path", TextOrNull(path))])
  }

  /** The GC log file of a process when the request names none. */
  function DefaultGcLog(pid: int): (r: string)
    ensures |r| > 12 && r[..8] == "/tmp/gc-" && r[|r| - 4..] == ".log"
  {
    "/tmp/gc-" + IntToDecimal(pid) + ".log"
  }

  /** The GC logging switch of a request: on when absent, else the parsed boolean (null throws). */
  function GcSwitch(cfg: Body): (r: Result<bool, Fault>)
    ensures "on" !in cfg ==> r == Ok(true)
    ensures "on" in cfg ==> r == ParseBooleanOf(cfg["on"])
  {
    if "on" in cfg then ParseBooleanOf(cfg["on"]) else Ok(true)
  }

  /**
   * gc/log: 404 for an id that is not live; the switch (on unless given)
   * and the file are read before attaching, so a null switch or a non-text
   * file fails without reaching the agent; the answer echoes both, and a
   * file given as null reaches the agent but then fails the answer.
   */
  function GcLog(m: ProcessManager, id: int, cfg: Body, agentOf: int -> Agent): (r: Response)
    reads m
    requires m.Keyed()
    ensures r == Empty(404) <==> Live(m, id).None?
    ensures Live(m, id).Some? && "on" in cfg && cfg["on"] == JNull ==> r == ServerError
    ensures r.Reply? && r.status == 200 <==>
      && Live(m, id).Some? && GcSwitch(cfg).Ok?
      && var pid := Live(m, id).value.pid;
         var file := TextFieldOr(cfg, "filename", DefaultGcLog(pid));
         && file.Ok? && file.value.Some?
         && Then(Connected(agentOf(pid)), agentOf(pid).enableGcLogging(GcSwitch(cfg).value, file.value)).Returned?
    ensures r.Reply? && r.status == 200 ==>
      var file := TextFieldOr(cfg, "filename", DefaultGcLog(Live(m, id).value.pid));
      r.body == JObject(map["gcLogging" := JBool(GcSwitch(cfg).value), "path" := JText(file.value.value)])
  {
    match Live(m, id)
    case None => Empty(404)
    case Some(mp) =>
      var on := GcSwitch(cfg);
      var file := TextFieldOr(cfg, "filename", DefaultGcLog(mp.pid));
      if on.Err? || file.Err? then ServerError
      else
        var agent := agentOf(mp.pid);
        match Then(Connected(agent), agent.enableGcLogging(on.value, file.value))
        case Threw(f) => Caught(f)
        case Returned(_) =>
          var entries := [("gcLogging", Some(JBool(on.value))), ("path", TextOrNull(file.value))];
          assert entries[1].1.Some? <==> file.value.Some?;
          Respond(200, entries)
  }

  /** An empty request switches GC logging on, into `/tmp/gc-<pid>.log`. */
  lemma GcLogByDefault(m: ProcessManager, id: int, agentOf: int -> Agent)
    requires m.Keyed() && Live(m, id).Some?
    requires var pid := Live(m, id).value.pid;
      Then(Connected(agentOf(pid)), agentOf(pid).enableGcLogging(true, Some(DefaultGcLog(pid)))).Returned?
    ensures GcLog(m, id, map[], agentOf) ==
      Reply(200, JObject(map["gcLogging" := JBool(true), "path" := JText(DefaultGcLog(Live(m, id).value.pid))]))
  {
  }

  const PATH_REQUIRED: string := "path required"

  /**
   * native/load: 404 for an id that is not live; 400 when the path is
   * absent or null, before attaching; otherwise the agent loads the library
   * and its answer is echoed.
   */
  function LoadNative(m: ProcessManager, id: int, cfg: Body, agentOf: int -> Agent): (r: Response)
    reads m
    requires m.Keyed()
    ensures r == Empty(404) <==> Live(m, id).None?
    ensures Live(m, id).Some? && TextField(cfg, "path") == Ok(None) ==>
      r == Reply(400, JObject(map["error" := JText(PATH_REQUIRED)]))
    ensures Live(m, id).Some? && TextField(cfg, "path").Err? ==> r == ServerError
    ensures r.Reply? && r.status == 200 <==>
      && Live(m, id).Some? && TextField(cfg, "path").Ok? && TextField(cfg, "path").value.Some?
      && Then(Connected(agentOf(Live(m, id).value.pid)),
              agentOf(Live(m, id).value.pid).loadNativeAgent(TextField(cfg, "path").value.value)).Returned?
    ensures r.Reply? && r.status == 200 ==>
      var loaded := Then(Connected(agentOf(Live(m, id).value.pid)),
                         agentOf(Live(m, id).value.pid).loadNativeAgent(TextField(cfg, "path").value.value));
      r.body == JObject(map["loaded" := JBool(loaded.value)])
  {
    match Live(m, id)
    case None => Empty(404)
    case Some(mp) =>
      match TextField(cfg, "path")
      case Err(_) => ServerError
      case Ok(None) => Respond(400, [("error", Some(JText(PATH_REQUIRED)))])
      case Ok(Some(path)) =>
        var agent := agentOf(mp.pid);
        match Then(Connected(agent), agent.loadNativeAgent(path))
        case Threw(f) => Caught(f)
        case Returned(loaded) => Respond(200, [("loaded", Some(JBool(loaded)))])
  }

  /** The record of one process as the history endpoints render it. */
  function HistoryJson(h: ProcessHistory): (j: Json)
    reads h
    ensures j.JObject? && j.fields.Keys == {"id", "pid", "jar", "startTime", "stopTime", "cmd"}
    ensures j.JObject? && j.fields["stopTime"] == JNumber(h.stopTime) && j.fields["id"] == JNumber(h.id)
  {
    JObject(map["id" := JNumber(h.id), "pid" := JNumber(h.pid), "jar" := JText(h.jar),
                "startTime" := JNumber(h.startTime), "stopTime" := JNumber(h.stopTime), "cmd" := TextList(h.cmd)])
  }

  /**
   * history/{id}: answered for every id ever started, stopped ones
   * included; 404 only for an id that never was.
   */
  function HistoryOf(m: ProcessManager, id: int): (r: Response)
    reads m, m.history.Values
    ensures r == Empty(404) <==> id !in m.history
    ensures id in m.history ==> r == Reply(200, HistoryJson(m.history[id]))
  {
    match m.GetProcessHistory(id)
    case None => Empty(404)
    case Some(h) => Reply(200, HistoryJson(h))
  }

  /** Stopping a live process leaves its history answerable, now carrying the stop time. */
  method StopThenHistory(m: ProcessManager, id: int, now: int) returns (stopped: Response, after: Response)
    requires m.Valid()
    modifies m, m.history.Values
    ensures m.Valid()
    ensures id in old(m.processes) ==>
      && stopped == Reply(200, JObject(map[]))
      && after.Reply? && after.status == 200 && after.body.JObject?
      && "stopTime" in after.body.fields && after.body.fields["stopTime"] == JNumber(now)
      && "id" in after.body.fields && after.body.fields["id"] == JNumber(id)
  {
    stopped := Stop(m, id, now);
    after := HistoryOf(m, id);
  }

  /**
   * history: for every live process, the history filed under its id (null
   * where there is none); the list's order is not modelled.
   */
  function AllHistory(m: ProcessManager): (r: set<Option<ProcessHistory>>)
    reads m
    ensures forall i :: i in m.processes ==> m.GetProcessHistory(m.processes[i].id) in r
    ensures forall o :: o in r ==> exists i :: i in m.processes && o == m.GetProcessHistory(m.processes[i].id)
  {
    set i | i in m.processes :: m.GetProcessHistory(m.processes[i].id)
  }

  /**
   * In a consistent supervisor the history listing holds exactly the records
   * of the live processes: no null, none stopped, one per live id.
   */
  lemma AllHistoryIsLive(m: ProcessManager)
    requires m.Valid()
    ensures forall o :: o in AllHistory(m) ==> o.Some? && o.value.stopTime == NOT_STOPPED && o.value.id in m.processes
    ensures forall i :: i in m.processes ==> Some(m.history[i]) in AllHistory(m)
  {
    forall o | o in AllHistory(m)
      ensures o.Some? && o.value.stopTime == NOT_STOPPED && o.value.id in m.processes
    {
      var i :| i in m.processes && o == m.GetProcessHistory(m.processes[i].id);
      assert m.processes[i].id == i;
    }
    forall i | i in m.processes
      ensures Some(m.history[i]) in AllHistory(m)
    {
      assert m.processes[i].id == i;
    }
  }
}

=== FILE: histogram.dfy ===
/**
 * The class-histogram reader of the heap-histogram endpoint: the text the
 * diagnostic command returns is cut into lines, each trimmed line is matched
 * against the row grammar `^(\d+):\s+(\d+)\s+(\d+)\s+(.+)$`, and matching
 * lines become rows until the row cap is reached.
 */
module Histogram {
  import opened Wrappers
  import opened Text
  import opened Numbers

  /** The row cap the endpoint uses when no limit is given. */
  const DEFAULT_LIMIT: int := 25
  /** The largest row cap the endpoint accepts. */
  const MAX_LIMIT: int := 200

  /** `\s` of java.util.regex: space, tab, newline, vertical tab, form feed, carriage return. */
  predicate RegexSpace(c: char) {
    c == ' ' || c == '\t' || c == '\n' || c == '\U{000B}' || c == '\U{000C}' || c == '\r'
  }

  /** `.` of java.util.regex: every char but the line terminators. */
  predicate RegexDot(c: char) {
    c != '\n' && c != '\r' && c != '\U{0085}' && c != '\U{2028}' && c != '\U{2029}'
  }

  /** Every char of `s` is of the class `p`. */
  predicate All(s: string, p: char -> bool) {
    forall i :: 0 <= i < |s| ==> p(s[i])
  }

  /** A string cut in two: a run of one character class and what follows it. */
  datatype Span = Span(run: string, rest: string)

  /** The longest run of class `p` that `s` starts with, and the rest. */
  function Take(s: string, p: char -> bool): (r: Span)
    ensures s == r.run + r.rest && All(r.run, p)
    ensures r.rest == [] || !p(r.rest[0])
  {
    if s == [] || !p(s[0]) then Span([], s)
    else
      var t := Take(s[1..], p);
      TakeStep(s, t.run, t.rest, p);
      Span([s[0]] + t.run, t.rest)
  }

  lemma TakeStep(s: string, run: string, rest: string, p: char -> bool)
    requires s != [] && p(s[0]) && s[1..] == run + rest && All(run, p)
    ensures s == ([s[0]] + run) + rest && All([s[0]] + run, p)
  {
    assert s == [s[0]] + s[1..];
    assert forall i :: 1 <= i < |run| + 1 ==> ([s[0]] + run)[i] == run[i - 1];
  }

  /** A run of class `p` followed by something not of that class is the longest run. */
  lemma {:induction false} TakeOf(w: string, rest: string, p: char -> bool)
    requires All(w, p) && (rest == [] || !p(rest[0]))
    ensures Take(w + rest, p) == Span(w, rest)
  {
    if w != [] {
      assert (w + rest)[0] == w[0];
      assert (w + rest)[1..] == w[1..] + rest;
      TakeOf(w[1..], rest, p);
      assert [w[0]] + w[1..] == w;
    } else {
      assert w + rest == rest;
    }
  }

  /**
   * One way a line matches the row grammar: the four groups and the three
   * white-space runs between them.
   */
  datatype LineMatch = LineMatch(rank: string, gap1: string, instances: string, gap2: string,
                                 bytes: string, gap3: string, className: string)

  /** Each part of the match is a non-empty run of its class. */
  predicate Parts(m: LineMatch) {
    && m.rank != [] && All(m.rank, IsDigit)
    && m.gap1 != [] && All(m.gap1, RegexSpace)
    && m.instances != [] && All(m.instances, IsDigit)
    && m.gap2 != [] && All(m.gap2, RegexSpace)
    && m.bytes != [] && All(m.bytes, IsDigit)
    && m.gap3 != [] && All(m.gap3, RegexSpace)
    && m.className != [] && All(m.className, RegexDot)
  }

  /** What follows the colon when the parts are laid end to end. */
  function AfterColon(m: LineMatch): string {
    m.gap1 + (m.instances + (m.gap2 + (m.bytes + (m.gap3 + m.className))))
  }

  /** The line is exactly the match laid end to end, each part a non-empty run of its class. */
  predicate Fits(line: string, m: LineMatch) {
    Parts(m) && line == m.rank + ([':'] + AfterColon(m))
  }

  /** A line that does not end in `\s`, as every trimmed line does not. */
  predicate NoTrailingSpace(line: string) {
    line == [] || !RegexSpace(line[|line| - 1])
  }

  /**
   * `matches()` of the row grammar on a line without trailing white space.
   * Each `\d+` and `\s+` takes its longest run, which is the only choice that
   * can succeed, and the class name is what remains.
   */
  function MatchLine(line: string): (r: Option<LineMatch>)
    requires NoTrailingSpace(line)
    ensures r.Some? ==> Fits(line, r.value) && !RegexSpace(r.value.className[0])
  {
    var rank := Take(line, IsDigit);
    if rank.run == [] || rank.rest == [] || rank.rest[0] != ':' then None
    else
      assert rank.rest == [':'] + rank.rest[1..];
      var gap1 := Take(rank.rest[1..], RegexSpace);
      var instances := Take(gap1.rest, IsDigit);
      var gap2 := Take(instances.rest, RegexSpace);
      var bytes := Take(gap2.rest, IsDigit);
      var gap3 := Take(bytes.rest, RegexSpace);
      var name := gap3.rest;
      if gap1.run == [] || instances.run == [] || gap2.run == [] || bytes.run == [] || gap3.run == []
         || name == [] || !All(name, RegexDot)
      then None
      else
        var m := LineMatch(rank.run, gap1.run, instances.run, gap2.run, bytes.run, gap3.run, name);
        assert AfterColon(m) == rank.rest[1..] by {
          assert m.gap3 + m.className == bytes.rest;
          assert m.bytes + (m.gap3 + m.className) == gap2.rest;
          assert m.gap2 + (m.bytes + (m.gap3 + m.className)) == instances.rest;
          assert m.instances + (m.gap2 + (m.bytes + (m.gap3 + m.className))) == gap1.rest;
        }
        Some(m)
  }

  /**
   * Every line without trailing white space laid out as the grammar's parts,
   * with a class name not starting in `\s`, is matched as exactly those parts.
   */
  lemma MatchLineComplete(line: string, m: LineMatch)
    requires Fits(line, m) && NoTrailingSpace(line) && !RegexSpace(m.className[0])
    ensures MatchLine(line) == Some(m)
  {
    var r1 := AfterColon(m);
    Head(m.gap1, r1[|m.gap1|..]);
    assert r1 == m.gap1 + r1[|m.gap1|..];
    assert RegexSpace(m.gap1[0]);
    TakeOf(m.rank, [':'] + r1, IsDigit);
    assert ([':'] + r1)[1..] == r1;
    TakesAfterColon(m);
  }

  /** After the colon each `\s+` and `\d+` takes exactly its part. */
  lemma TakesAfterColon(m: LineMatch)
    requires Parts(m) && !RegexSpace(m.className[0])
    ensures var r5 := m.gap3 + m.className;
      var r4 := m.bytes + r5;
      var r3 := m.gap2 + r4;
      var r2 := m.instances + r3;
      && Take(AfterColon(m), RegexSpace) == Span(m.gap1, r2)
      && Take(r2, IsDigit) == Span(m.instances, r3)
      && Take(r3, RegexSpace) == Span(m.gap2, r4)
      && Take(r4, IsDigit) == Span(m.bytes, r5)
      && Take(r5, RegexSpace) == Span(m.gap3, m.className)
  {
    var r5 := m.gap3 + m.className;
    var r4 := m.bytes + r5;
    var r3 := m.gap2 + r4;
    var r2 := m.instances + r3;
    Head(m.instances, r3);
    Head(m.gap2, r4);
    Head(m.bytes, r5);
    Head(m.gap3, m.className);
    assert IsDigit(m.instances[0]) && IsDigit(m.bytes[0]);
    assert RegexSpace(m.gap2[0]) && RegexSpace(m.gap3[0]);
    TakeOf(m.gap1, r2, RegexSpace);
    TakeOf(m.instances, r3, IsDigit);
    TakeOf(m.gap2, r4, RegexSpace);
    TakeOf(m.bytes, r5, IsDigit);
    TakeOf(m.gap3, m.className, RegexSpace);
  }

  lemma Head(a: string, b: string)
    requires a != []
    ensures (a + b)[0] == a[0]
  {
  }

  /**
   * The grammar matches a line without trailing white space as soon as any
   * layout of its parts fits: a class name starting in `\s` gives those
   * characters to the run before it.
   */
  lemma MatchLineFindsAnyFit(line: string, m: LineMatch)
    requires Fits(line, m) && NoTrailingSpace(line)
    ensures MatchLine(line).Some?
  {
    var lead := Take(m.className, RegexSpace);
    assert line[|line| - 1] == m.className[|m.className| - 1];
    assert !RegexSpace(m.className[|m.className| - 1]);
    assert lead.rest != [];
    var shifted := m.(gap3 := m.gap3 + lead.run, className := lead.rest);
    assert All(lead.rest, RegexDot) by {
      forall i | 0 <= i < |lead.rest|
        ensures RegexDot(lead.rest[i])
      {
        assert lead.rest[i] == m.className[|lead.run| + i];
      }
    }
    assert m.gap3 + m.className == shifted.gap3 + shifted.className;
    assert AfterColon(m) == AfterColon(shifted);
    MatchLineComplete(line, shifted);
  }

  /** A trimmed line never ends in `\s`. */
  lemma TrimmedHasNoTrailingSpace(s: string)
    ensures NoTrailingSpace(JavaTrim(s))
  {
    var t := JavaTrim(s);
    assert t == [] || !JavaBlank(t[|t| - 1]);
    assert forall c :: RegexSpace(c) ==> JavaBlank(c);
  }

  /** A histogram row: rank, instance count, byte count and class name. */
  datatype Row = Row(rank: int, instances: int, bytes: int, className: string)

  /** The text `parseInt` or `parseLong` rejected. */
  datatype NumberFormatError = NumberFormatError(input: string)

  /** The row of a match: the rank as an `int`, the counts as `long`s; an out-of-range number throws. */
  function RowOf(m: LineMatch): (r: Result<Row, NumberFormatError>)
    ensures r.Ok? ==> IsInt32(r.value.rank) && IsInt64(r.value.instances) && IsInt64(r.value.bytes)
    ensures r.Ok? ==> r.value.className == m.className
  {
    match ParseInt(m.rank)
    case None => Err(NumberFormatError(m.rank))
    case Some(rank) =>
      match ParseLong(m.instances)
      case None => Err(NumberFormatError(m.instances))
      case Some(instances) =>
        match ParseLong(m.bytes)
        case None => Err(NumberFormatError(m.bytes))
        case Some(bytes) => Ok(Row(rank, instances, bytes, m.className))
  }

  /** The pieces `split` leaves after its trailing empty pieces are removed. */
  function DropTrailingEmpty(pieces: seq<string>): (r: seq<string>)
    ensures |r| <= |pieces| && r == pieces[..|r|]
    ensures r == [] || r[|r| - 1] != []
  {
    if pieces == [] || pieces[|pieces| - 1] != [] then pieces
    else DropTrailingEmpty(pieces[..|pieces| - 1])
  }

  /** Drops one carriage return at the end of a piece. */
  function ChopCr(s: string): (r: string)
    ensures r == s || (EndsWith(s, '\r') && s == r + ['\r'])
  {
    if EndsWith(s, '\r') then s[..|s| - 1] else s
  }

  /**
   * Java's `split("\\r?\\n")`: a text without a newline is its own single
   * piece; otherwise every newline, with a carriage return just before it,
   * cuts the text, and the empty pieces at the end are dropped.
   */
  function SplitLines(text: string): (r: seq<string>)
    ensures '\n' !in text ==> r == [text]
    ensures forall i :: 0 <= i < |r| ==> '\n' !in r[i]
  {
    if '\n' !in text then [text]
    else
      var pieces := Split(text, '\n');
      var cut := seq(|pieces|, i requires 0 <= i < |pieces| =>
        if i < |pieces| - 1 then ChopCr(pieces[i]) else pieces[i]);
      DropTrailingEmpty(cut)
  }

  /** The match of one trimmed line, if it matches. */
  function LineMatches(raw: string): (r: seq<LineMatch>)
    ensures |r| <= 1
  {
    TrimmedHasNoTrailingSpace(raw);
    match MatchLine(JavaTrim(raw))
    case None => []
    case Some(m) => [m]
  }

  /** The matches of the trimmed lines, in line order. */
  function Matches(lines: seq<string>): (r: seq<LineMatch>)
    ensures |r| <= |lines|
  {
    if lines == [] then [] else Matches(lines[..|lines| - 1]) + LineMatches(lines[|lines| - 1])
  }

  lemma MatchesStep(lines: seq<string>, i: nat)
    requires i < |lines|
    ensures Matches(lines[..i + 1]) == Matches(lines[..i]) + LineMatches(lines[i])
  {
    assert lines[..i + 1][..i] == lines[..i];
  }

  /** The matches of a prefix of the lines are a prefix of the matches. */
  lemma {:induction false} MatchesPrefix(lines: seq<string>, k: nat)
    requires k <= |lines|
    ensures var p := Matches(lines[..k]);
      |p| <= |Matches(lines)| && Matches(lines)[..|p|] == p
    decreases |lines| - k
  {
    if k < |lines| {
      var init := lines[..|lines| - 1];
      MatchesPrefix(init, k);
      assert init[..k] == lines[..k];
    } else {
      assert lines[..k] == lines;
    }
  }

  /** How many rows the reader keeps at most: it stops once it holds `maxRows`, but only after adding a row. */
  function Cap(maxRows: int): (n: nat)
    ensures n >= 1 && n >= maxRows
  {
    if maxRows < 1 then 1 else maxRows
  }

  /**
   * What the reader returns for a list of lines: the first Cap(maxRows)
   * matching lines, in order, as rows; if one of them holds a number out of
   * range the whole reading fails with that number.
   */
  function Rows(lines: seq<string>, maxRows: int): (r: Result<seq<Row>, NumberFormatError>)
    ensures r.Ok? ==> |r.value| <= Cap(maxRows) && |r.value| <= |lines|
  {
    FirstFailure(Capped(Matches(lines), Cap(maxRows)), RowOf)
  }

  /** `f` applied to every element in order, or the first failure of `f`. */
  function FirstFailure<A, B, E>(xs: seq<A>, f: A -> Result<B, E>): (r: Result<seq<B>, E>)
    ensures r.Ok? ==>
      |r.value| == |xs| && forall j :: 0 <= j < |xs| ==> f(xs[j]) == Ok(r.value[j])
    ensures r.Err? ==>
      exists j :: 0 <= j < |xs| && f(xs[j]) == Err(r.error) && forall k :: 0 <= k < j ==> f(xs[k]).Ok?
  {
    if xs == [] then Ok([])
    else
      match f(xs[0])
      case Err(e) => Err(e)
      case Ok(y) =>
        var rest := FirstFailure(xs[1..], f);
        if rest.Err? then
          ghost var j :| 0 <= j < |xs| - 1 && f(xs[1..][j]) == Err(rest.error)
            && forall k :: 0 <= k < j ==> f(xs[1..][k]).Ok?;
          assert f(xs[j + 1]) == Err(rest.error);
          assert forall k :: 1 <= k < j + 1 ==> xs[k] == xs[1..][k - 1];
          rest
        else
          Ok([y] + rest.value)
  }

  /** One more element extends the results by its result, or fails with its failure. */
  lemma {:induction false} FirstFailureSnoc<A, B, E>(xs: seq<A>, x: A, f: A -> Result<B, E>)
    requires FirstFailure(xs, f).Ok?
    ensures f(x).Err? ==> FirstFailure(xs + [x], f) == Err(f(x).error)
    ensures f(x).Ok? ==> FirstFailure(xs + [x], f) == Ok(FirstFailure(xs, f).value + [f(x).value])
    decreases |xs|
  {
    if xs != [] {
      assert (xs + [x])[0] == xs[0];
      assert (xs + [x])[1..] == xs[1..] + [x];
      FirstFailureSnoc(xs[1..], x, f);
      if f(x).Ok? {
        var tail := FirstFailure(xs[1..], f).value;
        assert [f(xs[0]).value] + (tail + [f(x).value]) == ([f(xs[0]).value] + tail) + [f(x).value];
      }
    } else {
      assert xs + [x] == [x] && [x][0] == x && [x][1..] == [];
      assert FirstFailure([x][1..], f) == Ok([]);
      if f(x).Ok? {
        assert FirstFailure([x], f) == Ok([f(x).value] + []);
        assert [f(x).value] + [] == [] + [f(x).value];
      }
    }
  }

  /** Once a prefix fails, what follows it does not matter. */
  lemma {:induction false} FirstFailurePrefix<A, B, E>(p: seq<A>, q: seq<A>, f: A -> Result<B, E>)
    requires FirstFailure(p, f).Err?
    ensures FirstFailure(p + q, f) == FirstFailure(p, f)
    decreases |p|
  {
    assert (p + q)[0] == p[0];
    if f(p[0]).Ok? {
      assert (p + q)[1..] == p[1..] + q;
      FirstFailurePrefix(p[1..], q, f);
    }
  }

  /**
   * The reading is decided by a prefix of the lines once that prefix has
   * failed, has reached the cap, or is all the lines.
   */
  lemma RowsOfPrefix(lines: seq<string>, k: nat, maxRows: int)
    requires k <= |lines|
    requires |Matches(lines[..k])| <= Cap(maxRows)
    requires FirstFailure(Matches(lines[..k]), RowOf).Err? || |Matches(lines[..k])| == Cap(maxRows) || k == |lines|
    ensures Rows(lines, maxRows) == FirstFailure(Matches(lines[..k]), RowOf)
  {
    MatchesPrefix(lines, k);
    if k == |lines| {
      assert lines[..k] == lines;
    }
    CappedPrefix(Matches(lines), Matches(lines[..k]), Cap(maxRows), RowOf);
  }

  /**
   * Results of the first `n` elements are those of a prefix no longer than
   * `n` once that prefix fails, holds `n` elements, or is everything.
   */
  lemma CappedPrefix<A, B, E>(all: seq<A>, p: seq<A>, n: nat, f: A -> Result<B, E>)
    requires |p| <= n && |p| <= |all| && all[..|p|] == p
    requires FirstFailure(p, f).Err? || |p| == n || p == all
    ensures FirstFailure(Capped(all, n), f) == FirstFailure(p, f)
  {
    var taken := Capped(all, n);
    assert taken[..|p|] == all[..|p|];
    assert taken == taken[..|p|] + taken[|p|..];
    if |p| == n || p == all {
      assert taken == p;
    } else {
      FirstFailurePrefix(p, taken[|p|..], f);
    }
  }

  /** The first `n` elements of `s`, or all of `s` when it is shorter. */
  function Capped<T>(s: seq<T>, n: nat): (r: seq<T>)
    ensures |r| <= n && |r| <= |s| && r == s[..|r|]
    ensures |s| <= n ==> r == s
  {
    if |s| <= n then s else s[..n]
  }

  /** `matcher(line.trim()).matches()` of the row grammar on one line of the text. */
  method MatchTrimmed(raw: string) returns (found: Option<LineMatch>)
    ensures LineMatches(raw) == if found.Some? then [found.value] else []
    ensures found.Some? ==> Fits(JavaTrim(raw), found.value)
  {
    var line := JavaTrim(raw);
    TrimmedHasNoTrailingSpace(raw);
    found := MatchLine(line);
  }

  /**
   * parseHistogramText: no text gives no rows; otherwise the lines are read
   * in order, a trimmed line that does not match is skipped, a matching one
   * becomes a row (or aborts the reading when a number is out of range), and
   * the loop stops once `maxRows` rows are held.
   */
  method ParseHistogramText(histogram: Option<string>, maxRows: int) returns (r: Result<seq<Row>, NumberFormatError>)
    ensures histogram.None? ==> r == Ok([])
    ensures histogram.Some? ==> r == Rows(SplitLines(histogram.value), maxRows)
  {
    if histogram.None? {
      return Ok([]);
    }
    r := ReadRows(SplitLines(histogram.value), maxRows);
  }

  /** The loop of parseHistogramText over the lines of the text. */
  method ReadRows(lines: seq<string>, maxRows: int) returns (r: Result<seq<Row>, NumberFormatError>)
    ensures r == Rows(lines, maxRows)
  {
    var rows: seq<Row> := [];
    var i := 0;
    while i < |lines|
      invariant 0 <= i <= |lines|
      invariant |Matches(lines[..i])| < Cap(maxRows)
      invariant FirstFailure(Matches(lines[..i]), RowOf) == Ok(rows)
    {
      var stop;
      stop, rows := ReadLine(lines, i, rows, maxRows);
      if stop.Some? {
        return stop.value;
      }
      i := i + 1;
    }
    RowsOfPrefix(lines, i, maxRows);
    return Ok(rows);
  }

  /**
   * One pass of that loop: a matching line becomes a row; a number out of
   * range, or the row that brings the count to `maxRows`, ends the reading
   * with its final answer.
   */
  method ReadLine(lines: seq<string>, i: nat, rows: seq<Row>, maxRows: int)
    returns (stop: Option<Result<seq<Row>, NumberFormatError>>, next: seq<Row>)
    requires i < |lines|
    requires |Matches(lines[..i])| < Cap(maxRows) && FirstFailure(Matches(lines[..i]), RowOf) == Ok(rows)
    ensures stop.Some? ==> stop.value == Rows(lines, maxRows)
    ensures stop.None? ==>
      |Matches(lines[..i + 1])| < Cap(maxRows) && FirstFailure(Matches(lines[..i + 1]), RowOf) == Ok(next)
  {
    var found := MatchTrimmed(lines[i]);
    ReadStep(lines, i, rows, found);
    next := rows;
    stop := None;
    if found.Some? {
      var row := RowOf(found.value);
      if row.Err? {
        RowsOfPrefix(lines, i + 1, maxRows);
        stop := Some(Err(row.error));
        return;
      }
      next := rows + [row.value];
      if |next| >= maxRows {
        RowsOfPrefix(lines, i + 1, maxRows);
        stop := Some(Ok(next));
      }
    }
  }

  /** How one more line changes the matches read so far and their rows. */
  lemma ReadStep(lines: seq<string>, i: nat, rows: seq<Row>, found: Option<LineMatch>)
    requires i < |lines| && FirstFailure(Matches(lines[..i]), RowOf) == Ok(rows)
    requires LineMatches(lines[i]) == if found.Some? then [found.value] else []
    ensures found.None? ==> Matches(lines[..i + 1]) == Matches(lines[..i])
    ensures found.Some? ==> |Matches(lines[..i + 1])| == |rows| + 1
    ensures found.Some? && RowOf(found.value).Ok? ==>
      FirstFailure(Matches(lines[..i + 1]), RowOf) == Ok(rows + [RowOf(found.value).value])
    ensures found.Some? && RowOf(found.value).Err? ==>
      FirstFailure(Matches(lines[..i + 1]), RowOf) == Err(RowOf(found.value).error)
  {
    var before := Matches(lines[..i]);
    MatchesStep(lines, i);
    if found.Some? {
      FirstFailureSnoc(before, found.value, RowOf);
    } else {
      assert before + [] == before;
    }
  }

  /**
   * `Math.max(1, Math.min(200, limit))`: the endpoint's row cap lies in
   * [1, 200] and is the requested limit whenever that lies there.
   */
  function ClampRows(limit: int): (r: int)
    ensures 1 <= r <= MAX_LIMIT
    ensures 1 <= limit <= MAX_LIMIT ==> r == limit
    ensures limit < 1 ==> r == 1
    ensures limit > MAX_LIMIT ==> r == MAX_LIMIT
  {
    var low := if MAX_LIMIT < limit then MAX_LIMIT else limit;
    if 1 < low then low else 1
  }
}

=== FILE: history.dfy ===
/**
 * The lifecycle record the supervisor keeps for every process it ever
 * launched. Everything but the stop time is fixed at construction; the stop
 * time starts at the sentinel -1 and is overwritten when the process is
 * stopped.
 */
module History {

  /** The stop time of a process that has not been stopped yet. */
  const NOT_STOPPED: int := -1

  class ProcessHistory {
    const id: int
    const jar: string
    const pid: int
    const startTime: int
    /** The launch command; shared with the live process descriptor, never changed. */
    const cmd: seq<string>
    var stopTime: int

    constructor (id: int, jar: string, pid: int, startTime: int, cmd: seq<string>)
      ensures this.id == id && this.jar == jar && this.pid == pid
      ensures this.startTime == startTime && this.cmd == cmd
      ensures stopTime == NOT_STOPPED
    {
      this.id := id;
      this.jar := jar;
      this.pid := pid;
      this.startTime := startTime;
      this.cmd := cmd;
      this.stopTime := NOT_STOPPED;
    }

    /** Overwrites the stop time, whatever it was and whatever the start time is. */
    method SetStopTime(t: int)
      modifies this
      ensures stopTime == t
    {
      stopTime := t;
    }
  }
}

=== FILE: json.dfy ===
/**
 * Request and response bodies of the process endpoints: JSON values as the
 * framework decodes them, the typed reads a handler makes of a request map
 * (casts that can fail, `toString` on a value that can be null), the
 * `Map.of` bodies the handlers answer with, and the response itself.
 */
module Json {
  import opened Wrappers
  import opened Numbers
  import Text

  /** A decoded JSON value; numbers are integral in this model. */
  datatype Json =
    | JNull
    | JText(text: string)
    | JNumber(number: int)
    | JBool(flag: bool)
    | JList(items: seq<Json>)
    | JObject(fields: map<string, Json>)

  /** A request body: the decoded top-level object. */
  type Body = map<string, Json>

  /** Why reading a request value threw. */
  datatype Fault =
    | ClassCast        // the value is not of the type the handler casts it to
    | NullPointer      // the handler dereferences a null value
    | DuplicateKey     // `Collectors.toMap` met a key a second time
    | InvalidPathText  // `Paths.get` refused the text

  /** `(String) cfg.get(key)`: absent or null reads as null, text as itself; anything else fails the cast. */
  function TextField(cfg: Body, key: string): (r: Result<Option<string>, Fault>)
    ensures r == Ok(None) <==> key !in cfg || cfg[key] == JNull
    ensures (r.Ok? && r.value.Some?) <==> key in cfg && cfg[key].JText?
    ensures r.Ok? && r.value.Some? ==> r.value.value == cfg[key].text
    ensures r.Err? ==> r.error == ClassCast
  {
    if key !in cfg then Ok(None)
    else
      match cfg[key]
      case JNull => Ok(None)
      case JText(s) => Ok(Some(s))
      case _ => Err(ClassCast)
  }

  /**
   * `cfg.containsKey(key) ? (String) cfg.get(key) : fallback`: only an
   * absent key takes the fallback; a null value stays null.
   */
  function TextFieldOr(cfg: Body, key: string, fallback: string): (r: Result<Option<string>, Fault>)
    ensures key !in cfg ==> r == Ok(Some(fallback))
    ensures key in cfg ==> r == TextField(cfg, key)
  {
    if key in cfg then TextField(cfg, key) else Ok(Some(fallback))
  }

  /**
   * `Boolean.parseBoolean(value.toString())`: a null value throws; the
   * result is true exactly for a boolean true or the text "true" in any
   * letter case (a number, list or object never renders as that text).
   */
  function ParseBooleanOf(v: Json): (r: Result<bool, Fault>)
    ensures r.Err? <==> v == JNull
    ensures r.Err? ==> r.error == NullPointer
    ensures r == Ok(true) <==> v == JBool(true) || (v.JText? && Text.ToLowerAscii(v.text) == "true")
  {
    match v
    case JNull => Err(NullPointer)
    case JBool(b) => Ok(b)
    case JText(s) => Ok(Text.ToLowerAscii(s) == "true")
    case _ => Ok(false)
  }

  /** `((Number) value).intValue()`: a number keeps its low 32 bits; null and other values throw. */
  function IntValueOf(v: Json): (r: Result<int, Fault>)
    ensures r.Ok? <==> v.JNumber?
    ensures r.Ok? ==> r.value == Wrap32(v.number) && IsInt32(r.value)
    ensures v == JNull ==> r == Err(NullPointer)
  {
    match v
    case JNumber(n) => Ok(Wrap32(n))
    case JNull => Err(NullPointer)
    case _ => Err(ClassCast)
  }

  /** `((Number) value).longValue()`: a number keeps its low 64 bits; null and other values throw. */
  function LongValueOf(v: Json): (r: Result<int, Fault>)
    ensures r.Ok? <==> v.JNumber?
    ensures r.Ok? ==> r.value == Wrap64(v.number) && IsInt64(r.value)
    ensures v == JNull ==> r == Err(NullPointer)
  {
    match v
    case JNumber(n) => Ok(Wrap64(n))
    case JNull => Err(NullPointer)
    case _ => Err(ClassCast)
  }

  /** The entries of a `Map.of` body: a key and a reference that may be null. */
  type Entries = seq<(string, Option<Json>)>

  predicate DistinctKeys(entries: Entries) {
    forall i, j :: 0 <= i < j < |entries| ==> entries[i].0 != entries[j].0
  }

  /**
   * `Map.of(k1, v1, ...)`: the object holding every entry, or `None` when
   * any value is null, which makes `Map.of` throw.
   */
  function MapOf(entries: Entries): (r: Option<map<string, Json>>)
    requires DistinctKeys(entries)
    ensures r.Some? <==> forall i :: 0 <= i < |entries| ==> entries[i].1.Some?
    ensures r.Some? ==> r.value.Keys == set i | 0 <= i < |entries| :: entries[i].0
    ensures r.Some? ==> forall i :: 0 <= i < |entries| ==> r.value[entries[i].0] == entries[i].1.value
  {
    if entries == [] then Some(map[])
    else
      var (key, value) := entries[0];
      match MapOf(entries[1..])
      case None => None
      case Some(rest) =>
        if value.None? then None
        else
          assert key !in rest.Keys by {
            forall i | 1 <= i < |entries|
              ensures entries[i].0 != key
            {
              assert entries[0].0 != entries[i].0;
            }
          }
          Some(rest[key := value.value])
  }

  /** `Map.of` with one value. */
  lemma MapOfOne(k: string, v: Json)
    ensures MapOf([(k, Some(v))]) == Some(map[k := v])
  {
    var e := [(k, Some(v))];
    assert e[1..] == [];
  }

  /** `Map.of` with two values under distinct keys. */
  lemma MapOfTwo(k1: string, v1: Json, k2: string, v2: Json)
    requires k1 != k2
    ensures MapOf([(k1, Some(v1)), (k2, Some(v2))]) == Some(map[k1 := v1, k2 := v2])
  {
    var e := [(k1, Some(v1)), (k2, Some(v2))];
    assert e[0] == (k1, Some(v1)) && e[1..] == [(k2, Some(v2))];
    MapOfOne(k2, v2);
    assert MapOf(e) == Some(map[k2 := v2][k1 := v1]);
    assert map[k2 := v2][k1 := v1] == map[k1 := v1, k2 := v2];
  }

  /** `Map.of` with three values under distinct keys. */
  lemma MapOfThree(k1: string, v1: Json, k2: string, v2: Json, k3: string, v3: Json)
    requires k1 != k2 && k1 != k3 && k2 != k3
    ensures MapOf([(k1, Some(v1)), (k2, Some(v2)), (k3, Some(v3))]) == Some(map[k1 := v1, k2 := v2, k3 := v3])
  {
    var e := [(k1, Some(v1)), (k2, Some(v2)), (k3, Some(v3))];
    assert e[1..] == [(k2, Some(v2)), (k3, Some(v3))];
    MapOfTwo(k2, v2, k3, v3);
    assert map[k2 := v2, k3 := v3][k1 := v1] == map[k1 := v1, k2 := v2, k3 := v3];
  }

  /** The text of a reference that may be null. */
  function TextOrNull(s: Option<string>): (r: Option<Json>)
    ensures r.Some? <==> s.Some?
    ensures s.Some? ==> r == Some(JText(s.value))
  {
    if s.Some? then Some(JText(s.value)) else None
  }

  /** What an endpoint answers. */
  datatype Response =
    | Reply(status: int, body: Json)   // a status with the body the handler built
    | Empty(status: int)               // a status with no body
    // 500 carrying a runtime exception: one that escapes the handler, or one
    // whose message the handler puts into an `{"error": ...}` body
    | ServerError

  function StatusOf(r: Response): (s: int)
    ensures r.ServerError? ==> s == 500
  {
    match r
    case Reply(status, _) => status
    case Empty(status) => status
    case ServerError => 500
  }

  /** `ResponseEntity.status(status).body(Map.of(...))`: the body is built first, so a null value throws instead. */
  function Respond(status: int, entries: Entries): (r: Response)
    requires DistinctKeys(entries)
    ensures r.ServerError? <==> !(forall i :: 0 <= i < |entries| ==> entries[i].1.Some?)
    ensures r.Reply? ==> r.status == status && r.body == JObject(MapOf(entries).value)
    ensures !r.Empty?
  {
    match MapOf(entries)
    case None => ServerError
    case Some(fields) => Reply(status, JObject(fields))
  }

  /** The catch-all handler: 500 with the exception's message, which `Map.of` refuses when it is null. */
  function Failed(message: Option<string>): (r: Response)
    ensures message.None? <==> r == ServerError
    ensures message.Some? ==> r == Reply(500, JObject(map["error" := JText(message.value)]))
  {
    Respond(500, [("error", TextOrNull(message))])
  }
}

=== FILE: launch.dfy ===
/**
 * The launch-time checks and the command line of the process supervisor:
 * the heap-size guard on `-Xmx`/`-Xms` arguments and the `java` command it
 * spawns.
 */
module Launch {
  import opened Wrappers
  import opened Text
  import opened Numbers

  /** MAX_XMX_MB when the environment does not set it. */
  const DEFAULT_MAX_XMX_MB: string := "1024"

  /** The arguments whose size the guard inspects. */
  predicate IsHeapFlag(a: string) {
    "-Xmx" <= a || "-Xms" <= a
  }

  /**
   * The size in megabytes a heap flag asks for, as the guard computes it: the
   * text after the four-character flag is lower-cased, a trailing `m` is
   * dropped (factor 1), then a trailing `g` is dropped (factor 1024), the rest
   * is parsed as an `int` and multiplied by the factor in 32-bit arithmetic.
   * `None` when the number does not parse (the guard then ignores the flag).
   */
  function HeapSizeMb(a: string): (r: Option<int>)
    requires IsHeapFlag(a)
    ensures r.Some? ==> IsInt32(r.value)
  {
    var lowered := ToLowerAscii(a[4..]);
    var noM := if EndsWith(lowered, 'm') then lowered[..|lowered| - 1] else lowered;
    var isG := EndsWith(noM, 'g');
    var digits := if isG then noM[..|noM| - 1] else noM;
    var factor := if isG then 1024 else 1;
    match ParseInt(digits)
    case None => None
    case Some(size) => Some(Wrap32(size * factor))
  }

  /**
   * The guard rejects `a` when it is a heap flag, its size parses, the
   * MAX_XMX_MB setting parses, and the size exceeds the setting. Both parses
   * sit in one try block that swallows NumberFormatException, so a setting
   * that does not parse disables the guard.
   */
  predicate Rejects(a: string, maxSetting: string) {
    && IsHeapFlag(a)
    && HeapSizeMb(a).Some?
    && ParseInt(maxSetting).Some?
    && HeapSizeMb(a).value > ParseInt(maxSetting).value
  }

  /** The first argument, in order, that the guard rejects. */
  function FirstRejected(args: seq<string>, maxSetting: string): (r: Option<string>)
    ensures r.None? <==> forall i :: 0 <= i < |args| ==> !Rejects(args[i], maxSetting)
    ensures r.Some? ==> r.value in args && Rejects(r.value, maxSetting)
  {
    if args == [] then None
    else if Rejects(args[0], maxSetting) then Some(args[0])
    else
      assert forall i :: 1 <= i < |args| ==> args[i] == args[1..][i - 1];
      FirstRejected(args[1..], maxSetting)
  }

  /** Every argument before the one reported passes the guard. */
  lemma {:induction false} FirstRejectedIsFirst(args: seq<string>, maxSetting: string)
    requires FirstRejected(args, maxSetting).Some?
    ensures exists i :: (0 <= i < |args| && args[i] == FirstRejected(args, maxSetting).value
      && forall j :: 0 <= j < i ==> !Rejects(args[j], maxSetting))
  {
    if !Rejects(args[0], maxSetting) {
      var rest := args[1..];
      FirstRejectedIsFirst(rest, maxSetting);
      var i :| 0 <= i < |rest| && rest[i] == FirstRejected(rest, maxSetting).value
        && forall j :: 0 <= j < i ==> !Rejects(rest[j], maxSetting);
      forall j | 0 <= j < i + 1
        ensures !Rejects(args[j], maxSetting)
      {
        if j > 0 {
          assert args[j] == rest[j - 1];
        }
      }
      assert args[i + 1] == rest[i];
    }
  }

  /**
   * An element of the argument list as the supervisor receives it. The
   * controller casts the request's list to `List<String>` without checking
   * its elements, so an element may be null or a value that is not text.
   */
  datatype Arg = ArgText(text: string) | ArgNull | ArgOther

  /** A list of strings as elements of the argument list. */
  function AsArgs(args: seq<string>): (r: seq<Arg>)
    ensures |r| == |args| && forall i :: 0 <= i < |args| ==> r[i] == ArgText(args[i])
  {
    seq(|args|, i requires 0 <= i < |args| => ArgText(args[i]))
  }

  /** The strings of an argument list whose elements are all text. */
  function Strings(items: seq<Arg>): (r: seq<string>)
    requires forall i :: 0 <= i < |items| ==> items[i].ArgText?
    ensures AsArgs(r) == items
  {
    seq(|items|, i requires 0 <= i < |items| => items[i].text)
  }

  /**
   * Where the guard loop stops: at a null element (`startsWith` throws a
   * NullPointerException), at an element that is not text (the loop
   * variable's cast to `String` throws a ClassCastException), or at a flag
   * the guard rejects.
   */
  datatype Stop = NullArg | NonTextArg | TooLarge(arg: string)

  /** The first element, in order, at which the guard loop stops. */
  function FirstStop(items: seq<Arg>, maxSetting: string): (r: Option<Stop>)
    ensures r.None? <==> forall i :: 0 <= i < |items| ==> items[i].ArgText? && !Rejects(items[i].text, maxSetting)
    ensures r.Some? && r.value.TooLarge? ==> ArgText(r.value.arg) in items && Rejects(r.value.arg, maxSetting)
    ensures r == Some(NullArg) ==> ArgNull in items
    ensures r == Some(NonTextArg) ==> ArgOther in items
  {
    if items == [] then None
    else
      assert forall i :: 1 <= i < |items| ==> items[i] == items[1..][i - 1];
      match items[0]
      case ArgNull => Some(NullArg)
      case ArgOther => Some(NonTextArg)
      case ArgText(a) => if Rejects(a, maxSetting) then Some(TooLarge(a)) else FirstStop(items[1..], maxSetting)
  }

  /** Whether the guard loop stops at this element: it is null, not text, or a rejected flag. */
  predicate StopsAt(item: Arg, maxSetting: string) {
    !item.ArgText? || Rejects(item.text, maxSetting)
  }

  /** How the guard loop stops at an element where it stops. */
  function StopOf(item: Arg): Stop {
    match item
    case ArgNull => NullArg
    case ArgOther => NonTextArg
    case ArgText(a) => TooLarge(a)
  }

  /**
   * The loop stops at the first element where it can: every element before
   * it passes, and the stop is that element's.
   */
  lemma {:induction false} FirstStopIsFirst(items: seq<Arg>, maxSetting: string)
    requires FirstStop(items, maxSetting).Some?
    ensures exists i :: (0 <= i < |items| && StopsAt(items[i], maxSetting)
      && FirstStop(items, maxSetting).value == StopOf(items[i])
      && forall j :: 0 <= j < i ==> !StopsAt(items[j], maxSetting))
  {
    if !StopsAt(items[0], maxSetting) {
      var rest := items[1..];
      assert FirstStop(items, maxSetting) == FirstStop(rest, maxSetting);
      FirstStopIsFirst(rest, maxSetting);
      var i :| 0 <= i < |rest| && StopsAt(rest[i], maxSetting)
        && FirstStop(rest, maxSetting).value == StopOf(rest[i])
        && forall j :: 0 <= j < i ==> !StopsAt(rest[j], maxSetting);
      PassesBefore(items, i, maxSetting);
      assert items[i + 1] == rest[i];
    }
  }

  /** An element that passes, followed by `i` more that pass, is `i + 1` that pass. */
  lemma PassesBefore(items: seq<Arg>, i: nat, maxSetting: string)
    requires 0 < |items| && !StopsAt(items[0], maxSetting) && i < |items|
    requires forall j :: 0 <= j < i ==> !StopsAt(items[1..][j], maxSetting)
    ensures forall j :: 0 <= j < i + 1 ==> !StopsAt(items[j], maxSetting)
  {
    forall j | 0 < j < i + 1
      ensures !StopsAt(items[j], maxSetting)
    {
      assert items[j] == items[1..][j - 1];
    }
  }

  /** On a list of strings the loop stops exactly at the first argument the guard rejects. */
  lemma {:induction false} FirstStopOfStrings(args: seq<string>, maxSetting: string)
    ensures FirstStop(AsArgs(args), maxSetting)
      == if FirstRejected(args, maxSetting).Some? then Some(TooLarge(FirstRejected(args, maxSetting).value)) else None
  {
    if args != [] {
      assert AsArgs(args)[1..] == AsArgs(args[1..]);
      FirstStopOfStrings(args[1..], maxSetting);
    }
  }

  /**
   * The loop of the guard over the extra arguments: it stops at the first
   * element that is null, is not text, or is a flag it rejects.
   */
  method CheckHeapArgs(extraArgs: seq<Arg>, maxSetting: string) returns (stop: Option<Stop>)
    ensures stop == FirstStop(extraArgs, maxSetting)
  {
    for i := 0 to |extraArgs|
      invariant FirstStop(extraArgs, maxSetting) == FirstStop(extraArgs[i..], maxSetting)
    {
      assert extraArgs[i..][1..] == extraArgs[i + 1..];
      match extraArgs[i]
      case ArgNull => return Some(NullArg);
      case ArgOther => return Some(NonTextArg);
      case ArgText(a) =>
        if "-Xmx" <= a || "-Xms" <= a {
          var size := HeapSizeMb(a);
          var maxAllowed := ParseInt(maxSetting);
          if size.Some? && maxAllowed.Some? && size.value > maxAllowed.value {
            return Some(TooLarge(a));
          }
        }
    }
    return None;
  }

  /** An unparseable MAX_XMX_MB setting lets every argument through. */
  lemma UnparseableSettingDisablesGuard(args: seq<string>, maxSetting: string)
    requires ParseInt(maxSetting).None?
    ensures FirstRejected(args, maxSetting).None?
  {
  }

  /** `-javaagent:<agentJar>=<port>`, present only for a non-empty agent jar. */
  function AgentFlag(agentJar: Option<string>, agentPort: int): seq<string> {
    if agentJar.Some? && agentJar.value != "" then
      ["-javaagent:" + agentJar.value + "=" + IntToDecimal(agentPort)]
    else []
  }

  /**
   * The command the supervisor spawns: `java`, the agent flag when there is
   * an agent jar, the extra arguments in order, then `-jar <jarPath>`.
   */
  function Command(jarPath: string, agentPort: int, extraArgs: seq<string>, agentJar: Option<string>): (cmd: seq<string>)
    ensures var k := if agentJar.Some? && agentJar.value != "" then 1 else 0;
      && |cmd| == 3 + k + |extraArgs|
      && cmd[0] == "java"
      && cmd[1 + k..|cmd| - 2] == extraArgs
      && cmd[|cmd| - 2] == "-jar" && cmd[|cmd| - 1] == jarPath
      && (k == 1 ==> "-javaagent:" + agentJar.value + "=" <= cmd[1])
  {
    ["java"] + AgentFlag(agentJar, agentPort) + extraArgs + ["-jar", jarPath]
  }

  /** The agent reads its port back from the text after the last `=` of its flag. */
  lemma AgentPortRoundTrip(agentJar: string, agentPort: int)
    requires agentJar != "" && IsInt32(agentPort)
    ensures var flag := AgentFlag(Some(agentJar), agentPort)[0];
      ParseInt(flag[LastIndexOf(flag, '=') + 1..]) == Some(agentPort)
  {
    var prefix := "-javaagent:" + agentJar + "=";
    var port := IntToDecimal(agentPort);
    var flag := prefix + port;
    assert AgentFlag(Some(agentJar), agentPort)[0] == flag;
    DecimalHasNoEquals(agentPort);
    assert flag[|prefix| - 1] == '=';
    assert flag[|prefix|..] == port;
    ParseRendersBack(agentPort, INT32_MIN, INT32_MAX);
  }

  lemma DecimalHasNoEquals(n: int)
    ensures '=' !in IntToDecimal(n)
  {
    var s := IntToDecimal(n);
    var digits := if n < 0 then NatToDecimal(-n) else NatToDecimal(n);
    assert forall i :: 0 <= i < |digits| ==> digits[i] != '=';
    if n < 0 {
      assert forall i :: 1 <= i < |s| ==> s[i] == digits[i - 1];
    }
  }

  /** The default MAX_XMX_MB setting parses to 1024 megabytes. */
  lemma DefaultSetting()
    ensures ParseInt(DEFAULT_MAX_XMX_MB) == Some(1024)
  {
    assert NatToDecimal(1024) == DEFAULT_MAX_XMX_MB;
    ParseRendersBack(1024, INT32_MIN, INT32_MAX);
  }

  lemma Parse2048()
    ensures ParseInt("2048") == Some(2048)
  {
    assert NatToDecimal(2048) == "2048";
    ParseRendersBack(2048, INT32_MIN, INT32_MAX);
  }

  /** The characters of a rendered integer are a sign and ASCII digits, which lower-casing keeps. */
  lemma LowerKeepsDecimal(n: int)
    ensures ToLowerAscii(IntToDecimal(n)) == IntToDecimal(n)
  {
    var num := IntToDecimal(n);
    var digits := if n < 0 then NatToDecimal(-n) else NatToDecimal(n);
    assert forall i :: 0 <= i < |num| ==> num[i] == '-' || IsDigit(num[i]) by {
      forall i | 0 <= i < |num|
        ensures num[i] == '-' || IsDigit(num[i])
      {
        if n < 0 && i > 0 {
          assert num[i] == digits[i - 1];
        }
      }
    }
  }

  /**
   * A flag written as `-Xmx`, a decimal size and an optional `m`, `M`, `g`
   * or `G` reads back as that size, times 1024 for gigabytes, in 32-bit
   * arithmetic.
   */
  lemma HeapSizeOfRendered(n: int, sfx: string)
    requires IsInt32(n) && sfx in ["", "m", "M", "g", "G"]
    ensures IsHeapFlag("-Xmx" + IntToDecimal(n) + sfx)
    ensures HeapSizeMb("-Xmx" + IntToDecimal(n) + sfx) == Some(Wrap32(n * (if sfx in ["g", "G"] then 1024 else 1)))
  {
    var num := IntToDecimal(n);
    var a := "-Xmx" + num + sfx;
    assert "-Xmx" <= a;
    assert a[4..] == num + sfx;
    var isG := sfx in ["g", "G"];
    var ls := ToLowerAscii(sfx);
    LoweredSuffix(sfx);
    LoweredRendering(n, sfx);
    StrippedSize(num, ls);
    ParseRendersBack(n, INT32_MIN, INT32_MAX);
  }

  /** Stripping a lower-cased `m`, then `g`, from a size ending in a digit leaves the size. */
  lemma StrippedSize(num: string, ls: string)
    requires |num| > 0 && IsDigit(num[|num| - 1]) && ls in ["", "m", "g"]
    ensures var lowered := num + ls;
      var noM := if EndsWith(lowered, 'm') then lowered[..|lowered| - 1] else lowered;
      && EndsWith(noM, 'g') == (ls == "g")
      && (if EndsWith(noM, 'g') then noM[..|noM| - 1] else noM) == num
  {
    if ls != "" {
      assert (num + ls)[..|num + ls| - 1] == num;
      assert (num + ls)[|num + ls| - 1] == ls[0];
    } else {
      assert num + ls == num;
    }
  }

  /** The size suffixes lower-case to `m`, `g` or nothing. */
  lemma LoweredSuffix(sfx: string)
    requires sfx in ["", "m", "M", "g", "G"]
    ensures ToLowerAscii(sfx) == if sfx in ["g", "G"] then "g" else if sfx == "" then "" else "m"
  {
    if sfx != "" {
      assert ToLowerAscii(sfx) == [LowerChar(sfx[0])];
    }
  }

  /** Lower-casing a rendered size and its suffix keeps the size, whose last character is a digit. */
  lemma LoweredRendering(n: int, sfx: string)
    ensures ToLowerAscii(IntToDecimal(n) + sfx) == IntToDecimal(n) + ToLowerAscii(sfx)
    ensures IsDigit(IntToDecimal(n)[|IntToDecimal(n)| - 1])
  {
    var num := IntToDecimal(n);
    LowerKeepsDecimal(n);
    assert ToLowerAscii(num + sfx) == ToLowerAscii(num) + ToLowerAscii(sfx);
    if n < 0 {
      assert num[|num| - 1] == NatToDecimal(-n)[|NatToDecimal(-n)| - 1];
    }
  }

  /** The fullwidth digits of 2048 read as 2048, as `Character.digit` gives their values. */
  lemma ParseFullwidth2048()
    ensures ParseInt("\U{FF12}\U{FF10}\U{FF14}\U{FF18}") == Some(2048)
  {
    var s := "\U{FF12}\U{FF10}\U{FF14}\U{FF18}";
    var ds := DigitsOf(s);
    assert Unsigned(s) == s;
    assert ds == [2, 0, 4, 8];
    assert ds[..3] == [2, 0, 4] && [2, 0, 4][..2] == [2, 0] && [2, 0][..1] == [2] && [2][..0] == [];
    assert Value(ds) == 2048;
  }

  /**
   * `-Xmx` followed by the fullwidth digits of 2048 and `m` asks for 2048 MB,
   * since `parseInt` reads any Unicode decimal digit, and is rejected by
   * default.
   */
  lemma GuardRejectsFullwidth()
    ensures HeapSizeMb("-Xmx\U{FF12}\U{FF10}\U{FF14}\U{FF18}m") == Some(2048)
    ensures Rejects("-Xmx\U{FF12}\U{FF10}\U{FF14}\U{FF18}m", DEFAULT_MAX_XMX_MB)
  {
    var a := "-Xmx\U{FF12}\U{FF10}\U{FF14}\U{FF18}m";
    var body := "\U{FF12}\U{FF10}\U{FF14}\U{FF18}m";
    assert "-Xmx" <= a && a[4..] == body;
    assert ToLowerAscii(body) == body;
    assert body[..4] == "\U{FF12}\U{FF10}\U{FF14}\U{FF18}";
    ParseFullwidth2048();
    DefaultSetting();
  }

  /** `-Xmx2048m` and `-Xmx2048` both ask for 2048 MB and are rejected by default. */
  lemma GuardRejects2048()
    ensures Rejects("-Xmx2048m", DEFAULT_MAX_XMX_MB)
    ensures Rejects("-Xmx2048", DEFAULT_MAX_XMX_MB)
  {
    DefaultSetting();
    Parse2048();
    assert "-Xmx2048m"[4..] == "2048m";
    assert ToLowerAscii("2048m") == "2048m";
    assert "2048m"[..4] == "2048";
    assert "-Xmx2048"[4..] == "2048";
    assert ToLowerAscii("2048") == "2048";
  }

  /** `-Xmx512m` asks for 512 MB and passes by default. */
  lemma GuardPasses512()
    ensures !Rejects("-Xmx512m", DEFAULT_MAX_XMX_MB)
  {
    DefaultSetting();
    assert NatToDecimal(512) == "512";
    ParseRendersBack(512, INT32_MIN, INT32_MAX);
    assert "-Xmx512m"[4..] == "512m";
    assert ToLowerAscii("512m") == "512m";
    assert "512m"[..3] == "512";
  }

  /** `-Xmx1g` asks for exactly 1024 MB, which is not above the default limit. */
  lemma GuardPasses1g()
    ensures HeapSizeMb("-Xmx1g") == Some(1024)
    ensures !Rejects("-Xmx1g", DEFAULT_MAX_XMX_MB)
  {
    DefaultSetting();
    assert NatToDecimal(1) == "1";
    ParseRendersBack(1, INT32_MIN, INT32_MAX);
    assert "-Xmx1g"[4..] == "1g";
    assert ToLowerAscii("1g") == "1g";
    assert "1g"[..1] == "1";
  }

  /** A size with an unsupported suffix does not parse, so `-Xmx2048k` is ignored. */
  lemma GuardIgnoresKilobytes()
    ensures HeapSizeMb("-Xmx2048k").None?
    ensures !Rejects("-Xmx2048k", DEFAULT_MAX_XMX_MB)
  {
    assert "-Xmx2048k"[4..] == "2048k";
    assert ToLowerAscii("2048k") == "2048k";
    assert !IsDigit("2048k"[4]);
  }

  lemma Parse2097152()
    ensures ParseInt("2097152") == Some(2097152)
  {
    assert NatToDecimal(2) == "2";
    assert NatToDecimal(20) == "20";
    assert NatToDecimal(209) == "209";
    assert NatToDecimal(2097) == "2097";
    assert NatToDecimal(20971) == "20971";
    assert NatToDecimal(209715) == "209715";
    assert NatToDecimal(2097152) == "2097152";
    ParseRendersBack(2097152, INT32_MIN, INT32_MAX);
    assert IntToDecimal(2097152) == "2097152";
  }

  /**
   * The product is taken in 32-bit arithmetic: `-Xmx2097152g` asks for 2 TiB,
   * but 2097152 * 1024 wraps to -2147483648, so the guard lets it through.
   */
  lemma GuardWrapsAround()
    ensures HeapSizeMb("-Xmx2097152g") == Some(INT32_MIN)
    ensures !Rejects("-Xmx2097152g", DEFAULT_MAX_XMX_MB)
  {
    DefaultSetting();
    Parse2097152();
    assert "-Xmx2097152g"[4..] == "2097152g";
    assert ToLowerAscii("2097152g") == "2097152g";
    assert "2097152g"[..7] == "2097152";
    assert Wrap32(2097152 * 1024) == INT32_MIN;
  }
}

=== FILE: launcher.dfy ===
/**
 * The launch form of the UI: the JVM-arguments field and the environment
 * field are cut into words at white space, and each environment word of the
 * form `KEY=VALUE` becomes a pair; the pairs travel in the start request's
 * `envVars` list, which the backend collects into a map.
 */
module Launcher {
  import opened Wrappers
  import opened Text
  import opened Json
  import Paths
  import StartEndpoint

  /**
   * The text cut at every white-space character. The form cuts once at a
   * run of white space and this cuts once per character; the extra pieces
   * are empty, and empty pieces are dropped wherever the pieces are used,
   * so the words are the same.
   */
  function SpacePieces(s: string): (r: seq<string>)
    ensures |r| >= 1
    ensures forall i :: 0 <= i < |r| ==> forall c :: c in r[i] ==> !JsSpace(c)
    decreases |s|
  {
    if s == [] then [""]
    else if JsSpace(s[0]) then [""] + SpacePieces(s[1..])
    else
      var rest := SpacePieces(s[1..]);
      [[s[0]] + rest[0]] + rest[1..]
  }

  /** The words of the text, in order: the non-empty pieces between white space. */
  function Words(s: string): (r: seq<string>)
    ensures forall i :: 0 <= i < |r| ==> r[i] != [] && forall c :: c in r[i] ==> !JsSpace(c)
  {
    var pieces := SpacePieces(s);
    var words := Paths.NonEmpty(pieces);
    assert forall i :: 0 <= i < |words| ==> words[i] in pieces;
    words
  }

  /** The JVM arguments of the launch request: no argument is empty or holds white space. */
  function JvmArgs(field: string): (r: seq<string>)
    ensures forall i :: 0 <= i < |r| ==> r[i] != [] && forall c :: c in r[i] ==> !JsSpace(c)
    ensures Concat(r) == NoSpace(field)
  {
    WordsKeepText(field);
    Words(field)
  }

  /** The strings laid end to end. */
  function Concat(ws: seq<string>): string {
    if ws == [] then "" else ws[0] + Concat(ws[1..])
  }

  /** The text with its white space removed. */
  function NoSpace(s: string): string {
    if s == [] then "" else (if JsSpace(s[0]) then "" else [s[0]]) + NoSpace(s[1..])
  }

  /** The words hold every character of the text that is not white space, in order, and nothing else. */
  lemma WordsKeepText(s: string)
    ensures Concat(Words(s)) == NoSpace(s)
  {
    PiecesKeepText(s);
    ConcatNonEmpty(SpacePieces(s));
  }

  lemma {:induction false} PiecesKeepText(s: string)
    ensures Concat(SpacePieces(s)) == NoSpace(s)
    decreases |s|
  {
    if s != [] {
      PiecesKeepText(s[1..]);
      var rest := SpacePieces(s[1..]);
      if JsSpace(s[0]) {
        assert ([""] + rest)[1..] == rest;
      } else {
        var r := [[s[0]] + rest[0]] + rest[1..];
        assert r[1..] == rest[1..];
        assert Concat(rest) == rest[0] + Concat(rest[1..]);
      }
    }
  }

  lemma {:induction false} ConcatNonEmpty(pieces: seq<string>)
    ensures Concat(Paths.NonEmpty(pieces)) == Concat(pieces)
  {
    if pieces != [] {
      ConcatNonEmpty(pieces[1..]);
      if pieces[0] != [] {
        assert ([pieces[0]] + Paths.NonEmpty(pieces[1..]))[1..] == Paths.NonEmpty(pieces[1..]);
      }
    }
  }

  /** A word followed by more text: the word opens the first piece. */
  lemma {:induction false} PiecesOfWord(w: string, rest: string)
    requires forall c :: c in w ==> !JsSpace(c)
    ensures SpacePieces(w + rest) ==
      [w + SpacePieces(rest)[0]] + SpacePieces(rest)[1..]
    decreases |w|
  {
    if w != [] {
      var p := SpacePieces(rest);
      assert (w + rest)[1..] == w[1..] + rest;
      assert (w + rest)[0] == w[0] && w[0] in w;
      PiecesOfWord(w[1..], rest);
      var r := SpacePieces(w[1..] + rest);
      assert r == [w[1..] + p[0]] + p[1..];
      assert r[0] == w[1..] + p[0] && r[1..] == p[1..];
      assert SpacePieces(w + rest) == [[w[0]] + r[0]] + r[1..];
      assert [w[0]] + w[1..] == w;
      assert [w[0]] + r[0] == w + p[0];
      assert [[w[0]] + r[0]] + r[1..] == [w + p[0]] + p[1..];
    } else {
      var p := SpacePieces(rest);
      assert w + rest == rest && w + p[0] == p[0];
      assert [p[0]] + p[1..] == p;
    }
  }

  /** A leading space opens an empty first piece. */
  lemma PiecesOfSpaced(rest: string)
    ensures SpacePieces(" " + rest) == [""] + SpacePieces(rest)
  {
    assert (" " + rest)[0] == ' ' && (" " + rest)[1..] == rest;
  }

  /** Words joined by single spaces are cut back into the same words. */
  lemma {:induction false} WordsOfJoin(ws: seq<string>)
    requires forall i :: 0 <= i < |ws| ==> ws[i] != [] && forall c :: c in ws[i] ==> !JsSpace(c)
    ensures SpacePieces(Join(ws, " ")) == if ws == [] then [""] else ws
  {
    if |ws| == 1 {
      PiecesOfWord(ws[0], "");
      assert ws[0] + "" == ws[0];
    } else if |ws| > 1 {
      var tail := Join(ws[1..], " ");
      assert forall i :: 0 <= i < |ws[1..]| ==> ws[1..][i] == ws[i + 1];
      WordsOfJoin(ws[1..]);
      assert Join(ws, " ") == ws[0] + (" " + tail);
      PiecesOfSpaced(tail);
      PiecesOfWord(ws[0], " " + tail);
      assert ws[0] + "" == ws[0];
      assert [ws[0]] + ws[1..] == ws;
    }
  }

  /** The round trip of the arguments field: words joined by spaces are read back as those words. */
  lemma JvmArgsOfJoin(ws: seq<string>)
    requires forall i :: 0 <= i < |ws| ==> ws[i] != [] && forall c :: c in ws[i] ==> !JsSpace(c)
    ensures JvmArgs(Join(ws, " ")) == ws
  {
    WordsOfJoin(ws);
    if ws != [] {
      Paths.NonEmptyKeeps(ws);
    }
  }

  /** One environment variable of the form. */
  datatype EnvPair = EnvPair(key: string, value: string)

  /** A word with an `=`: the key before the first one (possibly empty), the value after it. */
  function PairOf(token: string): (r: Option<EnvPair>)
    ensures r.None? <==> '=' !in token
    ensures r.Some? ==> '=' !in r.value.key && token == r.value.key + "=" + r.value.value
  {
    var idx := IndexOf(token, '=');
    if idx == -1 then None
    else
      assert token == token[..idx] + "=" + token[idx + 1..];
      Some(EnvPair(token[..idx], token[idx + 1..]))
  }

  /**
   * The pairs of the words that hold an `=`, in order: a single word gives
   * its pair or nothing; `PairsFromWords` and `EveryPairRead` say that the
   * pairs are exactly those of the words, and `PairsOfAppend` that they keep
   * word order.
   */
  function PairsOf(tokens: seq<string>): (r: seq<EnvPair>)
    ensures |r| <= |tokens|
    ensures |tokens| == 1 ==> r == if '=' in tokens[0] then [PairOf(tokens[0]).value] else []
  {
    if tokens == [] then []
    else
      var rest := PairsOf(tokens[1..]);
      match PairOf(tokens[0])
      case None => rest
      case Some(p) => [p] + rest
  }

  /** Every pair is read from one of the words. */
  lemma {:induction false} PairsFromWords(tokens: seq<string>)
    ensures forall p :: p in PairsOf(tokens) ==> exists t :: t in tokens && PairOf(t) == Some(p)
  {
    if tokens != [] {
      PairsFromWords(tokens[1..]);
      forall p | p in PairsOf(tokens)
        ensures exists t :: t in tokens && PairOf(t) == Some(p)
      {
        if PairOf(tokens[0]) != Some(p) {
          var t :| t in tokens[1..] && PairOf(t) == Some(p);
          assert t in tokens;
        }
      }
    }
  }

  /** Every word with an `=` gives its pair. */
  lemma {:induction false} EveryPairRead(tokens: seq<string>)
    ensures forall i :: 0 <= i < |tokens| && PairOf(tokens[i]).Some? ==> PairOf(tokens[i]).value in PairsOf(tokens)
  {
    if tokens != [] {
      EveryPairRead(tokens[1..]);
      forall i | 0 <= i < |tokens| && PairOf(tokens[i]).Some?
        ensures PairOf(tokens[i]).value in PairsOf(tokens)
      {
        if i > 0 {
          assert tokens[i] == tokens[1..][i - 1];
        }
      }
    }
  }

  /** The pairs of two runs of words are those of the first run, then those of the second. */
  lemma {:induction false} PairsOfAppend(a: seq<string>, b: seq<string>)
    ensures PairsOf(a + b) == PairsOf(a) + PairsOf(b)
  {
    if a == [] {
      assert a + b == b;
    } else {
      assert (a + b)[0] == a[0];
      assert (a + b)[1..] == a[1..] + b;
      PairsOfAppend(a[1..], b);
    }
  }

  /**
   * parseEnvVars: the words of the field, each trimmed (which changes
   * nothing), the empty ones dropped, then each word with an `=` as a pair;
   * order and duplicates are kept.
   */
  function ParseEnvVars(field: string): (r: seq<EnvPair>)
    ensures r == PairsOf(Words(field))
    ensures forall p :: p in r ==> '=' !in p.key && forall c :: c in p.key + p.value ==> !JsSpace(c)
  {
    var pieces := SpacePieces(field);
    var trimmed := seq(|pieces|, i requires 0 <= i < |pieces| => JsTrim(pieces[i]));
    TrimsNothing(pieces, trimmed);
    var r := PairsOf(Paths.NonEmpty(trimmed));
    PairsHaveNoSpace(field);
    r
  }

  /** The words hold no white space, so trimming them changes nothing. */
  lemma TrimsNothing(pieces: seq<string>, trimmed: seq<string>)
    requires forall i :: 0 <= i < |pieces| ==> forall c :: c in pieces[i] ==> !JsSpace(c)
    requires |trimmed| == |pieces| && forall i :: 0 <= i < |pieces| ==> trimmed[i] == JsTrim(pieces[i])
    ensures trimmed == pieces
  {
    forall i | 0 <= i < |pieces|
      ensures trimmed[i] == pieces[i]
    {
      TrimNoBlank(pieces[i], JsSpace);
    }
  }

  /** The keys of the pairs of the words hold no `=`, and the pairs no white space. */
  lemma PairsHaveNoSpace(field: string)
    ensures forall p :: p in PairsOf(Words(field)) ==> '=' !in p.key && forall c :: c in p.key + p.value ==> !JsSpace(c)
  {
    var words := Words(field);
    PairsFromWords(words);
    forall p | p in PairsOf(words)
      ensures '=' !in p.key && forall c :: c in p.key + p.value ==> !JsSpace(c)
    {
      var t :| t in words && PairOf(t) == Some(p);
      assert forall c :: c in p.key + p.value ==> c in t by {
        assert t == p.key + "=" + p.value;
      }
    }
  }

  /** What the form would hold for some pairs: `KEY=VALUE` words separated by single spaces. */
  function RenderEnv(pairs: seq<EnvPair>): string {
    Join(seq(|pairs|, i requires 0 <= i < |pairs| => pairs[i].key + "=" + pairs[i].value), " ")
  }

  /**
   * The round trip of the environment field: pairs whose keys hold no `=`
   * and which hold no white space are read back exactly, empty keys and
   * values included.
   */
  lemma ParseRenderedEnv(pairs: seq<EnvPair>)
    requires forall i :: 0 <= i < |pairs| ==>
      '=' !in pairs[i].key && forall c :: c in pairs[i].key + pairs[i].value ==> !JsSpace(c)
    ensures ParseEnvVars(RenderEnv(pairs)) == pairs
  {
    var ws := seq(|pairs|, i requires 0 <= i < |pairs| => pairs[i].key + "=" + pairs[i].value);
    forall i | 0 <= i < |ws|
      ensures ws[i] != [] && forall c :: c in ws[i] ==> !JsSpace(c)
    {
      assert ws[i][|pairs[i].key|] == '=';
      assert forall c :: c in ws[i] ==> c == '=' || c in pairs[i].key + pairs[i].value;
      assert !JsSpace('=');
    }
    JvmArgsOfJoin(ws);
    PairsOfRendered(pairs, ws);
  }

  lemma {:induction false} PairsOfRendered(pairs: seq<EnvPair>, ws: seq<string>)
    requires |ws| == |pairs|
    requires forall i :: 0 <= i < |pairs| ==> '=' !in pairs[i].key && ws[i] == pairs[i].key + "=" + pairs[i].value
    ensures PairsOf(ws) == pairs
  {
    if pairs != [] {
      PairsOfRendered(pairs[1..], ws[1..]);
      var p := PairOf(ws[0]);
      var k := pairs[0].key;
      assert ws[0] == k + "=" + pairs[0].value;
      assert ws[0][|k|] == '=' && ws[0][..|k|] == k;
      assert IndexOf(ws[0], '=') == |k| by {
        assert '=' !in ws[0][..|k|];
      }
      assert ws[0][|k| + 1..] == pairs[0].value;
      assert [pairs[0]] + pairs[1..] == pairs;
    }
  }

  /** The `envVars` list of the start request: one object per pair. */
  function EnvJson(pairs: seq<EnvPair>): (r: seq<Json>)
    ensures |r| == |pairs|
  {
    seq(|pairs|, i requires 0 <= i < |pairs| => JObject(map["key" := JText(pairs[i].key), "value" := JText(pairs[i].value)]))
  }

  /**
   * The form keeps duplicate keys, and the backend's collection throws on
   * them: the start request is refused exactly when two pairs share a key;
   * otherwise every key is present with its value.
   */
  lemma EnvReachesBackend(pairs: seq<EnvPair>)
    ensures var env := StartEndpoint.CollectEnv(EnvJson(pairs));
      && (env.Ok? <==> forall i, j :: 0 <= i < j < |pairs| ==> pairs[i].key != pairs[j].key)
      && (env.Ok? ==> forall i :: 0 <= i < |pairs| ==> Some(pairs[i].key) in env.value && env.value[Some(pairs[i].key)] == pairs[i].value)
  {
    var items := EnvJson(pairs);
    forall i | 0 <= i < |items|
      ensures StartEndpoint.EnvVarOf(items[i]) == Ok(StartEndpoint.EnvVar(Some(pairs[i].key), pairs[i].value))
    {
      assert items[i].fields["key"] == JText(pairs[i].key);
      assert items[i].fields["value"] == JText(pairs[i].value);
    }
  }
}

=== FILE: log_tail.dfy ===
/**
 * The per-process log buffer: a bounded FIFO of output lines, and the query
 * that filters it and keeps the most recent matches.
 */
module LogTail {
  import opened Wrappers
  import opened Numbers
  import Text

  /** Lines kept per process; the oldest line is evicted beyond this. */
  const CAPACITY: nat := 500

  /** The last `n` elements of `s`, or all of `s` when it is shorter. */
  function Last<T>(s: seq<T>, n: nat): (r: seq<T>)
    ensures |r| == if |s| <= n then |s| else n
  {
    if |s| <= n then s else s[|s| - n..]
  }

  /** What `Last` keeps is the end of the sequence, element for element. */
  lemma LastIsSuffix<T>(s: seq<T>, n: nat)
    ensures var r := Last(s, n);
      forall k :: 0 <= k < |r| ==> r[k] == s[|s| - |r| + k]
  {
  }

  /**
   * One drain step on a buffer: the line is added at the end and, when the
   * buffer then holds more than CAPACITY lines, the first one is removed.
   */
  function Append(buffer: seq<string>, line: string): (r: seq<string>)
    ensures |buffer| <= CAPACITY ==> |r| <= CAPACITY
    ensures r != [] && r[|r| - 1] == line
  {
    var added := buffer + [line];
    if |added| > CAPACITY then added[1..] else added
  }

  /** A buffer that holds the last lines of a stream still does after one more line. */
  lemma AppendKeepsLast(lines: seq<string>, line: string)
    ensures Append(Last(lines, CAPACITY), line) == Last(lines + [line], CAPACITY)
  {
    if |lines| >= CAPACITY {
      var kept := lines[|lines| - CAPACITY..];
      assert (kept + [line])[1..] == (lines + [line])[|lines| + 1 - CAPACITY..];
    }
  }

  /** The buffer after draining `lines` one by one into an empty buffer. */
  function Drained(lines: seq<string>): seq<string> {
    if lines == [] then [] else Append(Drained(lines[..|lines| - 1]), lines[|lines| - 1])
  }

  /**
   * For every sequence of appends, the buffer holds exactly the CAPACITY most
   * recent lines (all of them while fewer were appended), in append order.
   */
  lemma {:induction false} DrainedIsLast(lines: seq<string>)
    ensures Drained(lines) == Last(lines, CAPACITY)
  {
    if lines != [] {
      var init := lines[..|lines| - 1];
      DrainedIsLast(init);
      AppendKeepsLast(init, lines[|lines| - 1]);
      assert init + [lines[|lines| - 1]] == lines;
    }
  }

  /** The lines `keep` accepts, in buffer order (a stream `filter`). */
  function Filter(lines: seq<string>, keep: string -> bool): (r: seq<string>)
    ensures |r| <= |lines|
    ensures forall i :: 0 <= i < |r| ==> keep(r[i])
    ensures forall x :: x in r <==> x in lines && keep(x)
  {
    if lines == [] then []
    else
      var rest := Filter(lines[1..], keep);
      assert forall x :: x in lines <==> x == lines[0] || x in lines[1..];
      if keep(lines[0]) then [lines[0]] + rest else rest
  }

  /** Filtering commutes with concatenation: matches keep their relative order. */
  lemma {:induction false} FilterConcat(a: seq<string>, b: seq<string>, keep: string -> bool)
    ensures Filter(a + b, keep) == Filter(a, keep) + Filter(b, keep)
  {
    if a != [] {
      FilterConcat(a[1..], b, keep);
      assert (a + b)[1..] == a[1..] + b;
    } else {
      assert a + b == b;
    }
  }

  /** A filter that accepts every line keeps the buffer as it is. */
  lemma {:induction false} FilterKeepsAll(lines: seq<string>, keep: string -> bool)
    requires forall i :: 0 <= i < |lines| ==> keep(lines[i])
    ensures Filter(lines, keep) == lines
  {
    if lines != [] {
      FilterKeepsAll(lines[1..], keep);
      assert [lines[0]] + lines[1..] == lines;
    }
  }

  /** The substring filter of the logs query: no filter keeps every line. */
  function SubstringFilter(contains: Option<string>): string -> bool {
    (s: string) => contains.None? || Text.Contains(s, contains.value)
  }

  /** Why a query may fail instead of answering. */
  datatype QueryFailure =
    | StartOutOfRange  // subList was asked to start past the end of the matches
    | BadPattern       // the regular expression does not compile

  /**
   * `subList(max(0, size - limit), size)` on the matches, with the subtraction
   * done in 32-bit arithmetic: a start beyond the end throws.
   */
  function Tail(matches: seq<string>, limit: int): (r: Option<seq<string>>)
    requires IsInt32(limit) && |matches| <= INT32_MAX
    ensures 0 <= limit ==> r == Some(Last(matches, limit))
    ensures limit < 0 && IsInt32(|matches| - limit) ==> r.None?
    ensures limit < 0 && !IsInt32(|matches| - limit) ==> r == Some(matches)
  {
    var diff := Wrap32(|matches| - limit);
    var start := if diff < 0 then 0 else diff;
    if start > |matches| then None else Some(matches[start..])
  }
}

=== FILE: numbers.dfy ===
/**
 * Java's fixed-width integers: the ranges of `int` and `long`, 32-bit
 * wrap-around, `Integer.parseInt` / `Long.parseLong` in radix 10 and
 * `String.valueOf` of an integer.
 */
module Numbers {
  import opened Wrappers

  const INT32_MIN: int := -0x8000_0000
  const INT32_MAX: int := 0x7FFF_FFFF
  const INT64_MIN: int := -0x8000_0000_0000_0000
  const INT64_MAX: int := 0x7FFF_FFFF_FFFF_FFFF

  predicate IsInt32(n: int) {
    INT32_MIN <= n <= INT32_MAX
  }

  predicate IsInt64(n: int) {
    INT64_MIN <= n <= INT64_MAX
  }

  /** The 32-bit two's-complement value of `n`: what Java's `int` arithmetic keeps. */
  function Wrap32(n: int): (r: int)
    ensures IsInt32(r)
    ensures (n - r) % 0x1_0000_0000 == 0
    ensures IsInt32(n) ==> r == n
  {
    (n - INT32_MIN) % 0x1_0000_0000 + INT32_MIN
  }

  /** An ASCII digit: what a regular expression's `\d` matches. */
  predicate IsDigit(c: char) {
    '0' <= c <= '9'
  }

  predicate AllDigits(s: string) {
    forall i :: 0 <= i < |s| ==> IsDigit(s[i])
  }

  function DigitValue(c: char): (d: nat)
    requires IsDigit(c)
    ensures d < 10
  {
    c as int - '0' as int
  }

  function DigitChar(d: nat): (c: char)
    requires d < 10
    ensures IsDigit(c) && DigitValue(c) == d
  {
    ('0' as int + d) as char
  }

  /** The 64-bit two's-complement value of `n`: what `Number.longValue` keeps of a wider integer. */
  function Wrap64(n: int): (r: int)
    ensures IsInt64(r)
    ensures (n - r) % 0x1_0000_0000_0000_0000 == 0
    ensures IsInt64(n) ==> r == n
  {
    (n - INT64_MIN) % 0x1_0000_0000_0000_0000 + INT64_MIN
  }

  /**
   * The code points of the digit zero of every run of Unicode decimal
   * digits (general category Nd) in the Basic Multilingual Plane above
   * Latin-1; each run holds the ten digits zero to nine in order. The
   * fullwidth run comes first, the others follow in code-point order (the
   * runs do not overlap, so the order does not change any digit's value).
   * A Java `String` is UTF-16, so a digit outside that plane is a
   * surrogate pair, and neither half of it is a digit.
   */
  const DIGIT_ZEROS: seq<int> := [
    0xFF10, 0x0660, 0x06F0, 0x07C0, 0x0966, 0x09E6, 0x0A66, 0x0AE6, 0x0B66,
    0x0BE6, 0x0C66, 0x0CE6, 0x0D66, 0x0DE6, 0x0E50, 0x0ED0, 0x0F20, 0x1040,
    0x1090, 0x17E0, 0x1810, 0x1946, 0x19D0, 0x1A80, 0x1A90, 0x1B50, 0x1BB0,
    0x1C40, 0x1C50, 0xA620, 0xA8D0, 0xA900, 0xA9D0, 0xA9F0, 0xAA50, 0xABF0
  ]

  /** The value of code point `x` as a digit of one of the runs from the `k`-th on, or -1. */
  function DigitFrom(x: int, k: nat): (r: int)
    requires k <= |DIGIT_ZEROS|
    ensures -1 <= r < 10
    decreases |DIGIT_ZEROS| - k
  {
    if k == |DIGIT_ZEROS| then -1
    else if DIGIT_ZEROS[k] <= x < DIGIT_ZEROS[k] + 10 then x - DIGIT_ZEROS[k]
    else DigitFrom(x, k + 1)
  }

  /**
   * `Character.digit(c, 10)`: the value of a Unicode decimal digit, and -1
   * for every other character (letters have values of ten and above, which
   * radix 10 refuses). Within Latin-1 the only digits are the ASCII ones.
   */
  function DecimalDigit(c: char): (r: int)
    ensures -1 <= r < 10
    ensures c as int < 0x100 ==> (r >= 0 <==> IsDigit(c))
    ensures IsDigit(c) ==> r == DigitValue(c)
    ensures 0xFF10 <= c as int < 0xFF1A ==> r == c as int - 0xFF10
  {
    if c as int < 0x100 then (if IsDigit(c) then DigitValue(c) else -1)
    else DigitFrom(c as int, 0)
  }

  /** The `Character.digit` value of every character of `s`, in order. */
  function DigitsOf(s: string): (ds: seq<int>)
    ensures |ds| == |s| && DigitRange(ds)
  {
    seq(|s|, i requires 0 <= i < |s| => DecimalDigit(s[i]))
  }

  /** Digit values, each -1 (not a digit) or zero to nine. */
  predicate DigitRange(ds: seq<int>) {
    forall i :: 0 <= i < |ds| ==> -1 <= ds[i] < 10
  }

  /** Digit values with no -1 among them. */
  predicate AllDigitValues(ds: seq<int>) {
    forall i :: 0 <= i < |ds| ==> 0 <= ds[i] < 10
  }

  /** The number a run of digit values denotes, most significant first. */
  function Value(ds: seq<int>): nat
    requires AllDigitValues(ds)
  {
    if ds == [] then 0 else Value(ds[..|ds| - 1]) * 10 + ds[|ds| - 1]
  }

  predicate AllDecimal(s: string) {
    AllDigitValues(DigitsOf(s))
  }

  /** The value of a string of decimal digits. */
  function DecimalValue(s: string): nat
    requires AllDecimal(s)
  {
    Value(DigitsOf(s))
  }

  /** `s` without its leading sign, if it has one. */
  function Unsigned(s: string): string {
    if |s| > 0 && (s[0] == '-' || s[0] == '+') then s[1..] else s
  }

  /** What `parseInt` accepts apart from range: an optional sign, then at least one decimal digit. */
  predicate Numeral(s: string) {
    |Unsigned(s)| > 0 && AllDecimal(Unsigned(s))
  }

  /** The integer a numeral denotes. */
  function NumeralValue(s: string): int
    requires Numeral(s)
  {
    if s[0] == '-' then -(DecimalValue(Unsigned(s)) as int) else DecimalValue(Unsigned(s))
  }

  /**
   * The digit loop of `Integer.parseInt` / `Long.parseLong` over the digit
   * values `ds` of the characters after the sign: `result` is the value
   * read so far, negated, and `limit` the most negative value allowed.
   * Before each multiplication the loop compares `result` with
   * `limit / 10` (Java division, truncating toward zero), and before each
   * subtraction with `limit + digit`, so it never leaves the range.
   */
  function Accumulate(ds: seq<int>, i: nat, result: int, limit: int): Option<int>
    requires i <= |ds|
    decreases |ds| - i
  {
    if i == |ds| then Some(result)
    else
      var digit := ds[i];
      var multmin := -((-limit) / 10);
      if digit < 0 || result < multmin then None
      else if result * 10 < limit + digit then None
      else Accumulate(ds, i + 1, result * 10 - digit, limit)
  }

  /**
   * Radix-10 `Integer.parseInt` (bounds of `int`) or `Long.parseLong`
   * (bounds of `long`), as the JDK writes it: a first character below `0`
   * must be a `-` or `+` with something after it, and the digits are
   * accumulated negatively against the limit of the sign. Anything
   * refused is a NumberFormatException, here `None`.
   */
  function ParseDecimal(s: string, lo: int, hi: int): (r: Option<int>)
    requires lo < 0 < hi
    ensures r.Some? <==> Numeral(s) && lo <= NumeralValue(s) <= hi
    ensures r.Some? ==> r.value == NumeralValue(s)
  {
    if |s| == 0 then None
    else
      var signed := s[0] < '0';
      var negative := s[0] == '-';
      if signed && !negative && s[0] != '+' then
        assert DigitsOf(s)[0] == DecimalDigit(s[0]) == -1;
        None
      else if signed && |s| == 1 then None
      else
        var limit := if negative then lo else -hi;
        var digits := if signed then s[1..] else s;
        var ds := DigitsOf(digits);
        ReadDigits(s, signed, lo, hi);
        match Accumulate(ds, 0, 0, limit)
        case None => None
        case Some(result) => Some(if negative then result else -result)
  }

  /** What the digit loop gives for the characters after the sign, in terms of the numeral. */
  lemma ReadDigits(s: string, signed: bool, lo: int, hi: int)
    requires lo < 0 < hi && |s| > 0 && signed == (s[0] < '0')
    requires signed ==> (s[0] == '-' || s[0] == '+') && |s| > 1
    ensures var limit := if s[0] == '-' then lo else -hi;
      Accumulate(DigitsOf(if signed then s[1..] else s), 0, 0, limit)
      == if Numeral(s) && lo <= NumeralValue(s) <= hi then Some(if s[0] == '-' then NumeralValue(s) else -NumeralValue(s)) else None
  {
    var limit := if s[0] == '-' then lo else -hi;
    var digits := if signed then s[1..] else s;
    assert digits == Unsigned(s);
    var ds := DigitsOf(digits);
    assert ds[..0] == [];
    AccumulateReads(ds, 0, limit);
  }

  /** A prefix of a run of digits is worth no more than the run. */
  lemma {:induction false} PrefixValue(ds: seq<int>, j: nat)
    requires AllDigitValues(ds) && j <= |ds|
    ensures Value(ds[..j]) <= Value(ds)
    decreases |ds|
  {
    if j < |ds| {
      assert ds[..|ds| - 1][..j] == ds[..j];
      PrefixValue(ds[..|ds| - 1], j);
    } else {
      assert ds[..j] == ds;
    }
  }

  /**
   * One turn of the digit loop: with `v` read so far (`v <= bound`) and
   * digit `d`, the loop's two checks refuse exactly when `10 * v + d`
   * exceeds `bound`.
   */
  lemma OverflowCheck(v: int, d: int, bound: int)
    requires 0 <= v <= bound && 0 <= d < 10
    ensures (-v < -(bound / 10) || -v * 10 < -bound + d) <==> v * 10 + d > bound
  {
    var q := bound / 10;
    assert bound == q * 10 + bound % 10;
    if v > q {
      assert v * 10 >= (q + 1) * 10;
    }
  }

  /**
   * From position `i` on, the digit loop gives the negated value of all of
   * `ds`, or refuses exactly when some value is not a digit's or the
   * number passes the limit.
   */
  lemma {:induction false} AccumulateReads(ds: seq<int>, i: nat, limit: int)
    requires i <= |ds| && limit < 0 && DigitRange(ds)
    requires AllDigitValues(ds[..i]) && Value(ds[..i]) <= -limit
    ensures Accumulate(ds, i, -(Value(ds[..i]) as int), limit)
      == if AllDigitValues(ds) && Value(ds) <= -limit then Some(-(Value(ds) as int)) else None
    decreases |ds| - i
  {
    var v := Value(ds[..i]);
    if i == |ds| {
      assert ds[..i] == ds;
    } else if ds[i] >= 0 {
      var next := ds[..i + 1];
      assert next[..|next| - 1] == ds[..i];
      OverflowCheck(v, ds[i], -limit);
      assert Value(next) == v * 10 + ds[i];
      if v * 10 + ds[i] > -limit {
        if AllDigitValues(ds) {
          PrefixValue(ds, i + 1);
        }
      } else {
        AccumulateReads(ds, i + 1, limit);
      }
    }
  }

  /** `Integer.parseInt(s)`. */
  function ParseInt(s: string): (r: Option<int>)
    ensures r.Some? <==> Numeral(s) && IsInt32(NumeralValue(s))
    ensures r.Some? ==> r.value == NumeralValue(s)
  {
    ParseDecimal(s, INT32_MIN, INT32_MAX)
  }

  /** `Long.parseLong(s)`. */
  function ParseLong(s: string): (r: Option<int>)
    ensures r.Some? <==> Numeral(s) && IsInt64(NumeralValue(s))
    ensures r.Some? ==> r.value == NumeralValue(s)
  {
    ParseDecimal(s, INT64_MIN, INT64_MAX)
  }

  /** Decimal digits of a natural number, without leading zeros. */
  function NatToDecimal(n: nat): (r: string)
    ensures |r| >= 1 && AllDigits(r) && AllDecimal(r)
  {
    if n < 10 then [DigitChar(n)] else NatToDecimal(n / 10) + [DigitChar(n % 10)]
  }

  /** `String.valueOf` of an `int` or a `long`: a `-` in front of negative values. */
  function IntToDecimal(n: int): (r: string)
    ensures |r| >= 1
  {
    if n < 0 then "-" + NatToDecimal(-n) else NatToDecimal(n)
  }

  lemma {:induction false} DigitsOfNat(n: nat)
    ensures DecimalValue(NatToDecimal(n)) == n
  {
    var s := NatToDecimal(n);
    var ds := DigitsOf(s);
    assert ds[|s| - 1] == DecimalDigit(DigitChar(n % 10)) == n % 10;
    if n >= 10 {
      DigitsOfNat(n / 10);
      assert ds[..|s| - 1] == DigitsOf(NatToDecimal(n / 10));
    } else {
      assert ds[..|s| - 1] == [];
      assert Value(ds) == Value([]) * 10 + n;
    }
  }

  /** Parsing the decimal rendering of an in-range integer gives the integer back. */
  lemma ParseRendersBack(n: int, lo: int, hi: int)
    requires lo < 0 < hi && lo <= n <= hi
    ensures ParseDecimal(IntToDecimal(n), lo, hi) == Some(n)
  {
    var s := IntToDecimal(n);
    if n < 0 {
      DigitsOfNat(-n);
      assert Unsigned(s) == NatToDecimal(-n);
    } else {
      DigitsOfNat(n);
      assert Unsigned(s) == NatToDecimal(n);
    }
  }
}

=== FILE: paths.dfy ===
/**
 * Unix file-system paths as `java.nio.file.Path` treats them lexically:
 * parsing a path string, resolving a relative path against the working
 * directory, removing `.` and `..` names, rendering the path back to text,
 * and the component-wise `startsWith` test. Nothing here looks at the disk.
 */
module Paths {
  import opened Wrappers
  import opened Text

  /** A parsed path: whether it starts at the root, and its names in order. */
  datatype Path = Path(absolute: bool, names: seq<string>)

  /** The only text a path string may not hold. */
  const NUL: char := '\0'

  /** Why a path string was refused: `InvalidPathException` with its message. */
  datatype InvalidPath = InvalidPath(input: string, reason: string)

  /** The names of a well-formed path: non-empty and free of `/` and NUL. */
  predicate GoodNames(names: seq<string>) {
    forall x :: x in names ==> x != [] && '/' !in x && NUL !in x
  }

  /** The pieces that are not empty, in order: redundant and trailing slashes name nothing. */
  function NonEmpty(pieces: seq<string>): (r: seq<string>)
    ensures forall x :: x in r <==> x in pieces && x != []
    ensures |r| <= |pieces|
  {
    if pieces == [] then []
    else
      assert forall x :: x in pieces <==> x == pieces[0] || x in pieces[1..];
      if pieces[0] == [] then NonEmpty(pieces[1..]) else [pieces[0]] + NonEmpty(pieces[1..])
  }

  /** Pieces that are all non-empty are kept as they are. */
  lemma {:induction false} NonEmptyKeeps(pieces: seq<string>)
    requires forall i :: 0 <= i < |pieces| ==> pieces[i] != []
    ensures NonEmpty(pieces) == pieces
  {
    if pieces != [] {
      NonEmptyKeeps(pieces[1..]);
      assert [pieces[0]] + pieces[1..] == pieces;
    }
  }

  /**
   * `Paths.get`: a string with a NUL character is refused; otherwise the path
   * is absolute when the string starts with `/`, and its names are the text
   * between slashes, empty names (from repeated or trailing slashes) dropped.
   */
  function Parse(s: string): (r: Result<Path, InvalidPath>)
    ensures r.Err? <==> NUL in s
    ensures r.Err? ==> r.error == InvalidPath(s, "Nul character not allowed")
    ensures r.Ok? ==> GoodNames(r.value.names)
    ensures r.Ok? ==> (r.value.absolute <==> s != [] && s[0] == '/')
  {
    if NUL in s then Err(InvalidPath(s, "Nul character not allowed"))
    else
      var pieces := Split(s, '/');
      var names := NonEmpty(pieces);
      assert GoodNames(names) by {
        forall x | x in names
          ensures x != [] && '/' !in x && NUL !in x
        {
          assert x in pieces;
          JoinSplitHolds(s, '/', x);
        }
      }
      Ok(Path(s != [] && s[0] == '/', names))
  }

  /** Every piece of a split is text of the original string. */
  lemma {:induction false} JoinSplitHolds(s: string, sep: char, x: string)
    requires x in Split(s, sep)
    ensures sep !in x && forall c :: c in x ==> c in s
    decreases |s|
  {
    var k := IndexOf(s, sep);
    if k >= 0 {
      if x != s[..k] {
        assert x in Split(s[k + 1..], sep);
        JoinSplitHolds(s[k + 1..], sep, x);
      }
    }
  }

  /** `Path.toString`: a leading `/` for an absolute path, then the names joined by `/`. */
  function Render(p: Path): string {
    (if p.absolute then "/" else "") + Join(p.names, "/")
  }

  /** Rendering a well-formed path and parsing the text gives the same path back. */
  lemma ParseRender(p: Path)
    requires GoodNames(p.names)
    ensures Parse(Render(p)) == Ok(p)
  {
    var body := Join(p.names, "/");
    assert Render(p) == if p.absolute then "/" + body else body;
    NoNulInJoin(p.names);
    var pieces := if p.names == [] then [""] else p.names;
    assert Split(body, '/') == pieces by {
      if p.names != [] {
        SplitJoin(p.names, '/');
      }
    }
    assert NonEmpty(pieces) == p.names by {
      if p.names != [] {
        NonEmptyKeeps(p.names);
      }
    }
    if p.absolute {
      var s := "/" + body;
      assert IndexOf(s, '/') == 0;
      assert s[1..] == body;
      assert Split(s, '/') == [""] + pieces;
      assert ([""] + pieces)[1..] == pieces;
    } else if p.names != [] {
      var first := p.names[0];
      assert first in p.names && first != [] && first[0] in first;
      assert body[0] == first[0] by {
        assert body == first || body == first + "/" + Join(p.names[1..], "/");
      }
      assert Parse(body) == Ok(Path(false, NonEmpty(Split(body, '/'))));
    } else {
      assert body == "";
    }
  }

  lemma {:induction false} NoNulInJoin(names: seq<string>)
    requires GoodNames(names)
    ensures NUL !in Join(names, "/")
  {
    if |names| > 1 {
      assert forall x :: x in names[1..] ==> x in names;
      NoNulInJoin(names[1..]);
      assert names[0] in names;
      assert Join(names, "/") == names[0] + "/" + Join(names[1..], "/");
    } else if |names| == 1 {
      assert names[0] in names;
    }
  }

  /**
   * `toAbsolutePath`: an absolute path is kept; a relative one is resolved
   * against the working directory `cwd`, which is absolute. Nothing is
   * normalised.
   */
  function ToAbsolute(p: Path, cwd: Path): (r: Path)
    requires cwd.absolute
    ensures r.absolute
    ensures p.absolute ==> r == p
    ensures !p.absolute ==> r.names == cwd.names + p.names
  {
    if p.absolute then p else Path(true, cwd.names + p.names)
  }

  /**
   * One name of `normalize`: `.` names nothing; `..` removes the name before
   * it, is dropped at the root of an absolute path, and is kept at the start
   * of a relative one; any other name is appended.
   */
  function Step(kept: seq<string>, name: string, absolute: bool): seq<string> {
    if name == "." then kept
    else if name == ".." then
      if kept != [] && kept[|kept| - 1] != ".." then kept[..|kept| - 1]
      else if absolute then kept
      else kept + [".."]
    else kept + [name]
  }

  /** The names `normalize` keeps, reading `names` left to right. */
  function Fold(names: seq<string>, absolute: bool): seq<string> {
    if names == [] then [] else Step(Fold(names[..|names| - 1], absolute), names[|names| - 1], absolute)
  }

  /** A name that does not move through the directory tree. */
  predicate Plain(name: string) {
    name != "." && name != ".."
  }

  /** `normalize`: the path with its redundant `.` and `..` names removed. */
  function Normalize(p: Path): (r: Path)
    ensures r.absolute == p.absolute
    ensures p.absolute ==> forall x :: x in r.names ==> Plain(x)
    ensures GoodNames(p.names) ==> GoodNames(r.names)
  {
    FoldPlain(p.names, p.absolute);
    Path(p.absolute, Fold(p.names, p.absolute))
  }

  /**
   * Folding keeps only names of the input, and of an absolute path only
   * plain ones.
   */
  lemma {:induction false} FoldPlain(names: seq<string>, absolute: bool)
    ensures var r := Fold(names, absolute);
      && (forall x :: x in r ==> x in names)
      && (absolute ==> forall x :: x in r ==> Plain(x))
  {
    if names != [] {
      var init := names[..|names| - 1];
      var last := names[|names| - 1];
      FoldPlain(init, absolute);
      var kept := Fold(init, absolute);
      assert forall x :: x in init ==> x in names;
      if last == ".." && kept != [] && kept[|kept| - 1] != ".." {
        assert forall x :: x in kept[..|kept| - 1] ==> x in kept;
      }
    }
  }

  /** Plain names are left exactly as they are. */
  lemma {:induction false} FoldOfPlain(names: seq<string>, absolute: bool)
    requires forall x :: x in names ==> Plain(x)
    ensures Fold(names, absolute) == names
  {
    if names != [] {
      var init := names[..|names| - 1];
      assert forall x :: x in init ==> x in names;
      assert names[|names| - 1] in names;
      FoldOfPlain(init, absolute);
      assert init + [names[|names| - 1]] == names;
    }
  }

  /** Normalising an absolute path twice changes nothing more than once. */
  lemma NormalizeIdempotent(p: Path)
    requires p.absolute
    ensures Normalize(Normalize(p)) == Normalize(p)
  {
    FoldOfPlain(Normalize(p).names, true);
  }

  /**
   * `startsWith(prefix)` for an absolute single-name prefix such as `/tmp`:
   * the path is absolute and its first name is that name. Text that merely
   * begins the same way (`/tmpx`) does not count.
   */
  predicate StartsWithRootName(p: Path, name: string) {
    p.absolute && p.names != [] && p.names[0] == name
  }
}

=== FILE: processes.dfy ===
/**
 * The process supervisor: the registry of live managed processes, their
 * lifecycle histories, a bounded log buffer and a subscriber list per live
 * process, and the id counter. Spawning, the output drain and the
 * subscriber transport are abstract steps: what the operating system or a
 * subscriber did is passed in.
 */
module Processes {
  import opened Wrappers
  import opened Numbers
  import opened Launch
  import opened LogTail
  import opened History

  /** MAX_PROCESSES when the environment does not set it. */
  const DEFAULT_MAX_PROCESSES: int := 20

  /** A live managed process as startProcess returns it; `args` is the full command. */
  datatype ManagedProcess = ManagedProcess(id: int, pid: int, port: int, jarPath: string, args: seq<string>)

  /** What spawning the command did: the new OS process, or the IOException message. */
  datatype Spawn = Spawned(pid: int) | SpawnFailed(message: string)

  /**
   * Why startProcess failed: one of its three IOExceptions, or a
   * NullPointerException or ClassCastException from an argument list that
   * is null or holds an element that is not text (not an IOException, so
   * its caller does not catch it).
   */
  datatype StartError =
    | MaxProcessesReached
    | XmxTooLarge(arg: string)
    | SpawnError(message: string)
    | BadArgList

  /** The message of the IOException startProcess throws. */
  function StartErrorMessage(e: StartError): string
    requires !e.BadArgList?
  {
    match e
    case MaxProcessesReached => "max processes reached"
    case XmxTooLarge(a) => "Xmx too large: " + a
    case SpawnError(m) => m
  }

  /**
   * How startProcess ends, given the number of live processes, the
   * argument list (`None` for null) and what spawning would do: the error,
   * or `None` when the process is filed. The capacity check comes first;
   * the guard loop runs over the list after the id is drawn and stops at
   * its first null element, non-text element or rejected flag; spawning
   * comes last.
   */
  function StartFailure(live: int, maxProcesses: int, extraArgs: Option<seq<Arg>>, maxSetting: string,
                        spawn: Spawn): (r: Option<StartError>)
    ensures r.None? <==>
      && live < maxProcesses && extraArgs.Some? && FirstStop(extraArgs.value, maxSetting).None?
      && spawn.Spawned?
    ensures r == Some(MaxProcessesReached) <==> live >= maxProcesses
    ensures (exists a :: r == Some(XmxTooLarge(a))) ==>
      live < maxProcesses && extraArgs.Some? && FirstStop(extraArgs.value, maxSetting) == Some(TooLarge(r.value.arg))
    ensures live < maxProcesses && extraArgs.Some? && !(forall i :: 0 <= i < |extraArgs.value| ==> extraArgs.value[i].ArgText?)
      ==> r.Some? && (r.value.BadArgList? || r.value.XmxTooLarge?)
  {
    if live >= maxProcesses then Some(MaxProcessesReached)
    else if extraArgs.None? then Some(BadArgList)
    else
      match FirstStop(extraArgs.value, maxSetting)
      case Some(TooLarge(a)) => Some(XmxTooLarge(a))
      case Some(_) => Some(BadArgList)
      case None => if spawn.SpawnFailed? then Some(SpawnError(spawn.message)) else None
  }

  /**
   * With a list of strings, startProcess fails at capacity, else with the
   * first flag the guard rejects, else when spawning fails, and otherwise
   * succeeds.
   */
  lemma StartOfStrings(live: int, maxProcesses: int, args: seq<string>, maxSetting: string, spawn: Spawn)
    ensures StartFailure(live, maxProcesses, Some(AsArgs(args)), maxSetting, spawn)
      == if live >= maxProcesses then Some(MaxProcessesReached)
         else if FirstRejected(args, maxSetting).Some? then Some(XmxTooLarge(FirstRejected(args, maxSetting).value))
         else if spawn.SpawnFailed? then Some(SpawnError(spawn.message))
         else None
  {
    FirstStopOfStrings(args, maxSetting);
  }

  /** A live-tail subscriber (a server-sent-event emitter), named by registration order. */
  type Subscriber = nat

  /** No subscriber appears twice in a list. */
  predicate Distinct(s: seq<Subscriber>) {
    forall a, b :: 0 <= a < b < |s| ==> s[a] != s[b]
  }

  /** `remove(Object)` of a list: drops the first occurrence of `x`. */
  function Without(s: seq<Subscriber>, x: Subscriber): (r: seq<Subscriber>)
    ensures forall y :: y in r ==> y in s
    ensures Distinct(s) ==> Distinct(r) && x !in r && forall y :: y in s && y != x ==> y in r
  {
    if s == [] then []
    else if s[0] == x then s[1..]
    else
      var rest := Without(s[1..], x);
      assert Distinct(s) ==> Distinct(s[1..]) && s[0] !in s[1..];
      [s[0]] + rest
  }


  /** The subscribers of `list` whose send succeeds, in list order. */
  function Receivers(list: seq<Subscriber>, failing: set<Subscriber>): (r: seq<Subscriber>)
    ensures forall s :: s in r <==> s in list && s !in failing
    ensures Distinct(list) ==> Distinct(r)
  {
    if list == [] then []
    else
      var init := list[..|list| - 1];
      var s := list[|list| - 1];
      var rest := Receivers(init, failing);
      assert list == init + [s];
      assert Distinct(list) ==> Distinct(init) && s !in init by {
        if Distinct(list) {
          forall k | 0 <= k < |init|
            ensures init[k] != s
          {
            assert list[k] == init[k];
          }
        }
      }
      if s in failing then rest else rest + [s]
  }

  /** A history as filed at a start: the launch it describes, not stopped yet. */
  predicate Records(h: ProcessHistory, mp: ManagedProcess, now: int)
    reads h
  {
    && h.id == mp.id && h.jar == mp.jarPath && h.pid == mp.pid && h.cmd == mp.args
    && h.startTime == now && h.stopTime == NOT_STOPPED
  }

  /** Each buffer holds the last CAPACITY lines of the whole output of its process. */
  ghost predicate Tracks(buffers: map<int, seq<string>>, output: map<int, seq<string>>) {
    forall i :: i in buffers ==> i in output && buffers[i] == Last(output[i], CAPACITY)
  }

  /** One more line of a live process keeps its buffer tracking its output. */
  lemma LineKeepsTracks(buffers: map<int, seq<string>>, output: map<int, seq<string>>, id: int, line: string)
    requires Tracks(buffers, output) && id in buffers
    ensures Tracks(buffers[id := Append(buffers[id], line)], output[id := output[id] + [line]])
  {
    AppendKeepsLast(output[id], line);
  }

  /** A process starting with no output keeps every buffer tracking its output. */
  lemma EmptyKeepsTracks(buffers: map<int, seq<string>>, output: map<int, seq<string>>, id: int)
    requires Tracks(buffers, output)
    ensures Tracks(buffers[id := []], output[id := []])
  {
    var none: seq<string> := [];
    assert Last(none, CAPACITY) == none;
  }

  /** Each subscriber list holds issued subscribers, each once. */
  ghost predicate ListsOk(emitters: map<int, seq<Subscriber>>, next: nat) {
    forall i :: i in emitters ==> Distinct(emitters[i]) && forall s :: s in emitters[i] ==> s < next
  }

  /** Appending the next subscriber to one list keeps every list consistent. */
  lemma {:induction false} RegisterKeepsLists(emitters: map<int, seq<Subscriber>>, next: nat, id: int)
    requires ListsOk(emitters, next) && id in emitters
    ensures ListsOk(emitters[id := emitters[id] + [next]], next + 1)
  {
    var list := emitters[id];
    var grown := list + [next];
    forall a, b | 0 <= a < b < |grown|
      ensures grown[a] != grown[b]
    {
      assert grown[a] == list[a] && list[a] in list;
      if b < |list| {
        assert grown[b] == list[b];
      }
    }
  }

  class ProcessManager {
    /** MAX_PROCESSES: the live-process ceiling. */
    const maxProcesses: int
    /** The MAX_XMX_MB setting as text; it is parsed on every check. */
    const maxXmxSetting: string

    /** The next id to issue; ids start at 1. */
    var nextId: int
    var processes: map<int, ManagedProcess>
    /** Histories are never removed. */
    var history: map<int, ProcessHistory>
    var logBuffers: map<int, seq<string>>
    var logEmitters: map<int, seq<Subscriber>>
    /** Subscribers issued so far are 0 .. nextSubscriber - 1. */
    var nextSubscriber: nat

    /** Every line drained for each live process since it started. */
    ghost var output: map<int, seq<string>>

    /** The buffers never exceed their capacity. */
    predicate BuffersBounded()
      reads this
    {
      forall i :: i in logBuffers ==> |logBuffers[i]| <= CAPACITY
    }

    /** Every live process is filed under its own id. */
    predicate Keyed()
      reads this
    {
      forall i :: i in processes ==> processes[i].id == i
    }

    /** Exactly the live processes have a buffer and a subscriber list. */
    predicate KeysAgree()
      reads this
    {
      logBuffers.Keys == processes.Keys && logEmitters.Keys == processes.Keys
    }

    /**
     * Ids are issued from 1 upwards and every history sits under its own id,
     * which lies below the counter; a live process has a history that is not
     * stopped, a buffer and a subscriber list, and nothing else has; buffers track the output of their processes within capacity;
     * subscriber lists hold issued subscribers, each once.
     */
    ghost predicate Valid()
      reads this, history.Values
    {
      && 1 <= nextId
      && (forall i :: i in history ==> 1 <= i < nextId && history[i].id == i)
      && (forall i :: i in processes ==> i in history && history[i].stopTime == NOT_STOPPED)
      && Keyed()
      && KeysAgree()
      && Tracks(logBuffers, output)
      && BuffersBounded()
      && ListsOk(logEmitters, nextSubscriber)
    }

    constructor (maxProcesses: int, maxXmxSetting: string)
      ensures Valid()
      ensures this.maxProcesses == maxProcesses && this.maxXmxSetting == maxXmxSetting
      ensures nextId == 1 && nextSubscriber == 0
      ensures processes == map[] && history == map[] && logBuffers == map[] && logEmitters == map[]
    {
      this.maxProcesses := maxProcesses;
      this.maxXmxSetting := maxXmxSetting;
      nextId := 1;
      processes := map[];
      history := map[];
      logBuffers := map[];
      logEmitters := map[];
      nextSubscriber := 0;
      output := map[];
    }

    /**
     * startProcess: the capacity check comes first and touches nothing; then
     * an id is drawn, so a start that stops in the guard loop or fails to
     * spawn still consumes it; on success the process, its history (not
     * stopped), an empty buffer and an empty subscriber list are filed under
     * the new id, which no earlier process ever had.
     */
    method StartProcess(jarPath: string, agentPort: int, extraArgs: Option<seq<Arg>>, agentJar: Option<string>,
                        spawn: Spawn, now: int) returns (r: Result<ManagedProcess, StartError>)
      requires Valid()
      modifies this
      ensures Valid()
      ensures nextSubscriber == old(nextSubscriber)
      ensures var failure := StartFailure(|old(processes)|, maxProcesses, extraArgs, maxXmxSetting, spawn);
        && (r.Err? <==> failure.Some?)
        && (r.Err? ==> r.error == failure.value)
      ensures nextId == if |old(processes)| < maxProcesses then old(nextId) + 1 else old(nextId)
      ensures r.Err? ==>
        processes == old(processes) && history == old(history) && logBuffers == old(logBuffers) && logEmitters == old(logEmitters)
      ensures r.Ok? ==>
        var id := old(nextId);
        && extraArgs.Some? && (forall i :: 0 <= i < |extraArgs.value| ==> extraArgs.value[i].ArgText?)
        && r.value == ManagedProcess(id, spawn.pid, agentPort, jarPath, Command(jarPath, agentPort, Strings(extraArgs.value), agentJar))
        && id !in old(history)
        && processes == old(processes)[id := r.value]
        && id in history && fresh(history[id]) && Records(history[id], r.value, now)
        && history == old(history)[id := history[id]]
        && logBuffers == old(logBuffers)[id := []]
        && logEmitters == old(logEmitters)[id := []]
    {
      if |processes| >= maxProcesses {
        return Err(MaxProcessesReached);
      }
      var id := nextId;
      nextId := nextId + 1;
      var cmd := ["java"] + AgentFlag(agentJar, agentPort);
      if extraArgs.None? {
        return Err(BadArgList);
      }
      var stop := CheckHeapArgs(extraArgs.value, maxXmxSetting);
      match stop {
        case Some(TooLarge(a)) => return Err(XmxTooLarge(a));
        case Some(_) => return Err(BadArgList);
        case None =>
      }
      cmd := cmd + Strings(extraArgs.value);
      cmd := cmd + ["-jar", jarPath];
      if spawn.SpawnFailed? {
        return Err(SpawnError(spawn.message));
      }
      var mp := ManagedProcess(id, spawn.pid, agentPort, jarPath, cmd);
      File(mp, now);
      r := Ok(mp);
    }

    /** The registration step of a start: the process, its history, a buffer and a list under a drawn id. */
    method File(mp: ManagedProcess, now: int)
      requires Valid() && 1 <= mp.id < nextId && mp.id !in history
      modifies this
      ensures Valid()
      ensures nextId == old(nextId) && nextSubscriber == old(nextSubscriber)
      ensures processes == old(processes)[mp.id := mp]
      ensures mp.id in history && fresh(history[mp.id]) && Records(history[mp.id], mp, now)
      ensures history == old(history)[mp.id := history[mp.id]]
      ensures logBuffers == old(logBuffers)[mp.id := []]
      ensures logEmitters == old(logEmitters)[mp.id := []]
    {
      var id := mp.id;
      EmptyKeepsTracks(logBuffers, output, id);
      var h := new ProcessHistory(id, mp.jarPath, mp.pid, now, mp.args);
      processes := processes[id := mp];
      history := history[id := h];
      logBuffers := logBuffers[id := []];
      logEmitters := logEmitters[id := []];
      output := output[id := []];
      forall i | i in history
        ensures 1 <= i < nextId && history[i].id == i
        ensures i in processes ==> history[i].stopTime == NOT_STOPPED
      {
        if i != id {
          assert history[i] == old(history[i]);
        }
      }
    }

    /**
     * One step of the output drain: the line goes to the end of the buffer
     * (evicting the oldest beyond CAPACITY), then to every subscriber listed
     * at that moment, in list order; a send that fails (a subscriber in
     * `failing`) is swallowed. `sentTo` are the subscribers the line
     * reached. Once the process is stopped the line is dropped.
     */
    method OnOutputLine(id: int, line: string, failing: set<Subscriber>) returns (sentTo: seq<Subscriber>)
      requires Valid()
      modifies this
      ensures Valid()
      ensures id in old(logBuffers) ==>
        && logBuffers == old(logBuffers)[id := Append(old(logBuffers)[id], line)]
        && output == old(output)[id := old(output)[id] + [line]]
      ensures id !in old(logBuffers) ==> logBuffers == old(logBuffers)
      ensures sentTo == if id in logEmitters then Receivers(logEmitters[id], failing) else []
      ensures Distinct(sentTo)
      ensures nextId == old(nextId) && processes == old(processes) && history == old(history)
      ensures logEmitters == old(logEmitters) && nextSubscriber == old(nextSubscriber)
    {
      if id in logBuffers {
        LineKeepsTracks(logBuffers, output, id, line);
        logBuffers := logBuffers[id := Append(logBuffers[id], line)];
        output := output[id := output[id] + [line]];
      }
      sentTo := [];
      if id in logEmitters {
        var emitters := logEmitters[id];
        for k := 0 to |emitters|
          invariant sentTo == Receivers(emitters[..k], failing)
        {
          assert emitters[..k + 1][..k] == emitters[..k];
          if emitters[k] !in failing {
            sentTo := sentTo + [emitters[k]];
          }
        }
        assert emitters[..|emitters|] == emitters;
      }
    }

    /** listProcesses: a snapshot of the live processes. */
    function ListProcesses(): (r: set<ManagedProcess>)
      reads this
      ensures forall i :: i in processes ==> processes[i] in r
      ensures forall mp :: mp in r ==> exists i :: i in processes && processes[i] == mp
    {
      set i | i in processes :: processes[i]
    }

    /**
     * stopProcess: an id that is not live gives false and changes nothing.
     * A live id leaves the registry, its history (if any) gets the stop
     * time, its buffer and its subscriber list (if any) are dropped and every
     * subscriber on that list is completed, in list order (`closed`); the
     * history entry stays.
     */
    method StopProcess(id: int, now: int) returns (stopped: bool, closed: seq<Subscriber>)
      requires Valid()
      modifies this, history.Values
      ensures Valid()
      ensures stopped <==> id in old(processes)
      ensures nextId == old(nextId) && history == old(history) && nextSubscriber == old(nextSubscriber)
      ensures forall j :: j in history && j != id ==> history[j].stopTime == old(history[j].stopTime)
      ensures !stopped ==>
        && closed == []
        && processes == old(processes) && logBuffers == old(logBuffers) && logEmitters == old(logEmitters)
        && (id in history ==> history[id].stopTime == old(history[id].stopTime))
      ensures stopped ==>
        && id in history && history[id].stopTime == now
        && processes == old(processes) - {id}
        && logBuffers == old(logBuffers) - {id}
        && logEmitters == old(logEmitters) - {id}
        && closed == if id in old(logEmitters) then old(logEmitters)[id] else []
    {
      if id !in processes {
        return false, [];
      }
      processes := processes - {id};
      if id in history {
        history[id].SetStopTime(now);
      }
      logBuffers := logBuffers - {id};
      output := output - {id};
      closed := [];
      if id in logEmitters {
        var emitters := logEmitters[id];
        logEmitters := logEmitters - {id};
        for k := 0 to |emitters|
          invariant closed == emitters[..k]
        {
          closed := closed + [emitters[k]];
        }
      }
      stopped := true;
    }

    /** getLogBuffer: the buffer of a live process, or null. */
    function GetLogBuffer(id: int): (r: Option<seq<string>>)
      reads this
      requires BuffersBounded()
      ensures r.Some? <==> id in logBuffers
      ensures KeysAgree() ==> (r.Some? <==> id in processes)
      ensures r.Some? ==> r.value == logBuffers[id] && |r.value| <= CAPACITY
    {
      if id in logBuffers then Some(logBuffers[id]) else None
    }

    /** getProcessHistory: kept for every id ever started, live or stopped. */
    function GetProcessHistory(id: int): (r: Option<ProcessHistory>)
      reads this
      ensures r.Some? <==> id in history
    {
      if id in history then Some(history[id]) else None
    }

    /**
     * queryLogs: no buffer gives an empty list; otherwise the lines that
     * contain `contains` (every line when it is null), of which the last
     * `limit` are returned in buffer order.
     */
    function QueryLogs(id: int, contains: Option<string>, limit: int): (r: Result<seq<string>, QueryFailure>)
      reads this
      requires BuffersBounded() && IsInt32(limit)
      ensures id !in logBuffers ==> r == Ok([])
      ensures id in logBuffers && 0 <= limit ==>
        r == Ok(Last(Filter(logBuffers[id], SubstringFilter(contains)), limit))
      ensures id in logBuffers && limit < 0 ==>
        var matches := Filter(logBuffers[id], SubstringFilter(contains));
        r == if IsInt32(|matches| - limit) then Err(StartOutOfRange) else Ok(matches)
      ensures r.Ok? ==> |r.value| <= CAPACITY && forall x :: x in r.value ==> SubstringFilter(contains)(x)
      ensures r.Err? ==> r.error == StartOutOfRange && limit < 0
    {
      if id !in logBuffers then Ok([])
      else
        var matches := Filter(logBuffers[id], SubstringFilter(contains));
        match Tail(matches, limit)
        case None => Err(StartOutOfRange)
        case Some(lines) => Ok(lines)
    }

    /**
     * queryLogsRegex: no buffer gives an empty list before the pattern is
     * compiled; `compile` stands for the regular-expression engine (the
     * `find` predicate of the pattern under the case flag, or `None` when the
     * pattern does not compile).
     */
    function QueryLogsRegex(id: int, regex: string, ignoreCase: bool,
                            compile: (string, bool) -> Option<string -> bool>, limit: int): (r: Result<seq<string>, QueryFailure>)
      reads this
      requires BuffersBounded() && IsInt32(limit)
      ensures id !in logBuffers ==> r == Ok([])
      ensures id in logBuffers && compile(regex, ignoreCase).None? ==> r == Err(BadPattern)
      ensures id in logBuffers && compile(regex, ignoreCase).Some? && 0 <= limit ==>
        r == Ok(Last(Filter(logBuffers[id], compile(regex, ignoreCase).value), limit))
      ensures id in logBuffers && compile(regex, ignoreCase).Some? && limit < 0 ==>
        var matches := Filter(logBuffers[id], compile(regex, ignoreCase).value);
        r == if IsInt32(|matches| - limit) then Err(StartOutOfRange) else Ok(matches)
      ensures r.Ok? ==> |r.value| <= CAPACITY
    {
      if id !in logBuffers then Ok([])
      else
        match compile(regex, ignoreCase)
        case None => Err(BadPattern)
        case Some(find) =>
          match Tail(Filter(logBuffers[id], find), limit)
          case None => Err(StartOutOfRange)
          case Some(lines) => Ok(lines)
    }

    /**
     * registerLogEmitter: null when the id has no subscriber list (never
     * started, or stopped); otherwise exactly one new subscriber, never
     * issued before, is appended.
     */
    method RegisterLogEmitter(id: int) returns (r: Option<Subscriber>)
      requires Valid()
      modifies this
      ensures Valid()
      ensures id !in old(logEmitters) ==> r.None? && logEmitters == old(logEmitters) && nextSubscriber == old(nextSubscriber)
      ensures id in old(logEmitters) ==>
        && r == Some(old(nextSubscriber))
        && (forall i :: i in old(logEmitters) ==> r.value !in old(logEmitters)[i])
        && logEmitters == old(logEmitters)[id := old(logEmitters)[id] + [r.value]]
        && nextSubscriber == old(nextSubscriber) + 1
      ensures nextId == old(nextId) && processes == old(processes) && history == old(history)
      ensures logBuffers == old(logBuffers)
    {
      if id !in logEmitters {
        return None;
      }
      var s := nextSubscriber;
      RegisterKeepsLists(logEmitters, nextSubscriber, id);
      nextSubscriber := nextSubscriber + 1;
      logEmitters := logEmitters[id := logEmitters[id] + [s]];
      r := Some(s);
    }

    /**
     * The completion or timeout callback of a subscriber registered under
     * `id`: it removes itself from that list if the list is still there;
     * removing it twice is harmless.
     */
    method SubscriberClosed(id: int, s: Subscriber)
      requires Valid()
      modifies this
      ensures Valid()
      ensures id in old(logEmitters) ==>
        && logEmitters == old(logEmitters)[id := Without(old(logEmitters)[id], s)]
        && s !in logEmitters[id]
        && forall t :: t in old(logEmitters)[id] && t != s ==> t in logEmitters[id]
      ensures id !in old(logEmitters) ==> logEmitters == old(logEmitters)
      ensures nextId == old(nextId) && processes == old(processes) && history == old(history)
      ensures logBuffers == old(logBuffers) && nextSubscriber == old(nextSubscriber)
    {
      if id in logEmitters {
        logEmitters := logEmitters[id := Without(logEmitters[id], s)];
      }
    }
  }

  /**
   * Stopping is idempotent: a second stop of the same id answers false,
   * completes nobody, and leaves the stop time of the first stop in place.
   */
  method StopTwice(m: ProcessManager, id: int, first: int, second: int) returns (stopped: bool, again: bool, closed: seq<Subscriber>)
    requires m.Valid()
    modifies m, m.history.Values
    ensures m.Valid()
    ensures stopped <==> id in old(m.processes)
    ensures !again && closed == []
    ensures m.history == old(m.history) && id !in m.processes
    ensures stopped ==> m.history[id].stopTime == first
  {
    var closedFirst;
    stopped, closedFirst := m.StopProcess(id, first);
    again, closed := m.StopProcess(id, second);
  }
}

=== FILE: prometheus.dfy ===
/**
 * The UI's reader of the metrics text an agent serves, a simplified reader
 * of the Prometheus text exposition format: one sample per line, grouped by
 * metric name in input order, and the two lookups the dashboards make on the
 * result. The numeric conversion (JavaScript's `Number`) is a parameter.
 */
module Prometheus {
  import opened Wrappers
  import opened Text

  /** The labels of one sample, by name. */
  type Labels = map<string, string>

  /** One sample: its labels and its value. */
  datatype Sample = Sample(labels: Labels, value: real)

  /** The samples of every metric name, in input order. */
  type Metrics = map<string, seq<Sample>>

  /** `Number(text)`: the number the text denotes, or `None` for NaN. */
  type Conversion = string -> Option<real>

  /** JavaScript's `substring(a, b)`: both ends clamped to the text, and swapped when reversed. */
  function Substring(s: string, a: int, b: int): (r: string)
    ensures 0 <= a <= b <= |s| ==> r == s[a..b]
    ensures b < 0 && 0 <= a <= |s| ==> r == s[..a]
    ensures |r| <= |s|
  {
    var x := if a < 0 then 0 else if a > |s| then |s| else a;
    var y := if b < 0 then 0 else if b > |s| then |s| else b;
    if x <= y then s[x..y] else s[y..x]
  }

  /** The value of a label without its quotes: one leading and then one trailing double quote removed. */
  function StripQuotes(v: string): (r: string)
    ensures |v| >= 2 && v[0] == '"' && v[|v| - 1] == '"' ==> r == v[1..|v| - 1]
    ensures (v == [] || v[0] != '"') && (v == [] || v[|v| - 1] != '"') ==> r == v
  {
    var rest := if v != [] && v[0] == '"' then v[1..] else v;
    if rest != [] && rest[|rest| - 1] == '"' then rest[..|rest| - 1] else rest
  }

  /**
   * One label token, cut at every `=` into a key and a value: kept when
   * the text before the first `=` and the text between it and the next `=`
   * are both non-empty; the key is trimmed and the value loses its quotes.
   */
  function LabelOf(token: string): (r: Option<(string, string)>)
    ensures '=' !in token ==> r.None?
  {
    var parts := Split(token, '=');
    if parts[0] != "" && |parts| > 1 && parts[1] != "" then Some((JsTrim(parts[0]), StripQuotes(parts[1]))) else None
  }

  /** A token `k=v` defines the trimmed key `k` with the unquoted value `v` exactly when both are non-empty. */
  lemma LabelOfPair(k: string, v: string)
    requires '=' !in k && '=' !in v
    ensures LabelOf(k + "=" + v) == if k != [] && v != [] then Some((JsTrim(k), StripQuotes(v))) else None
  {
    var t := k + "=" + v;
    assert t[|k|] == '=' && t[..|k|] == k && t[|k| + 1..] == v;
    assert Split(v, '=') == [v];
    assert Split(t, '=') == [k, v];
  }

  /** The label key a token defines, if it is kept. */
  predicate Defines(token: string, key: string) {
    LabelOf(token).Some? && LabelOf(token).value.0 == key
  }

  /**
   * The fold over the label tokens: every kept token sets its key, a later
   * token overwriting an earlier one (`LabelsOfLast`); every label comes
   * from some token that defines it.
   */
  function LabelsOf(tokens: seq<string>): (r: Labels)
    ensures forall key :: key in r ==> exists i :: 0 <= i < |tokens| && Defines(tokens[i], key)
  {
    if tokens == [] then map[]
    else
      var init := tokens[..|tokens| - 1];
      var acc := LabelsOf(init);
      assert forall i :: 0 <= i < |init| ==> tokens[i] == init[i];
      match LabelOf(tokens[|tokens| - 1])
      case None => acc
      case Some((k, v)) => acc[k := v]
  }

  /** The token that defines a key last gives the key its value. */
  lemma {:induction false} LabelsOfLast(tokens: seq<string>, key: string, i: nat)
    requires i < |tokens| && Defines(tokens[i], key)
    requires forall j :: i < j < |tokens| ==> !Defines(tokens[j], key)
    ensures key in LabelsOf(tokens) && LabelsOf(tokens)[key] == LabelOf(tokens[i]).value.1
  {
    var n := |tokens| - 1;
    var init := tokens[..n];
    if i < n {
      assert !Defines(tokens[n], key);
      assert init[i] == tokens[i];
      LabelsOfLast(init, key, i);
    }
  }

  /** The labels of the text between the braces: none when it is blank, else the fold over its comma-separated tokens. */
  function LabelsBetween(labelString: string): Labels {
    if JsTrim(labelString) != [] then LabelsOf(Split(labelString, ',')) else map[]
  }

  /**
   * The name and labels of the text before the value: without a `{` the
   * whole text and no labels; otherwise the text before the first `{`, and
   * the labels read between that `{` and the last `}`.
   */
  function NameAndLabels(metricPart: string): (r: (string, Labels))
    ensures '{' !in r.0 && r.0 <= metricPart
    ensures '{' !in metricPart ==> r == (metricPart, map[])
  {
    var labelStart := IndexOf(metricPart, '{');
    if labelStart == -1 then (metricPart, map[])
    else
      var labelEnd := LastIndexOf(metricPart, '}');
      (metricPart[..labelStart], LabelsBetween(Substring(metricPart, labelStart + 1, labelEnd)))
  }

  /**
   * What one trimmed line contributes: nothing for a blank or `#` line, a
   * line without a space or a value that is NaN; otherwise the value is the
   * text after the last space, and the name and labels come from the text
   * before it.
   */
  function SampleOf(line: string, number: Conversion): (r: Option<(string, Sample)>)
    ensures line == [] || line[0] == '#' || ' ' !in line ==> r.None?
    ensures r.Some? ==> '{' !in r.value.0
  {
    if line == [] || line[0] == '#' then None
    else
      var lastSpace := LastIndexOf(line, ' ');
      if lastSpace < 0 then None
      else
        match number(line[lastSpace + 1..])
        case None => None
        case Some(value) =>
          var nameAndLabels := NameAndLabels(line[..lastSpace]);
          Some((nameAndLabels.0, Sample(nameAndLabels.1, value)))
  }

  /**
   * Blank lines, comments and lines without a space give nothing; a sample's
   * value is the number after the last space, and its name is a prefix of
   * the text before that space holding no `{` (all of it, with no labels,
   * when that text holds no `{`).
   */
  lemma SampleOfShape(line: string, number: Conversion)
    ensures line == [] || line[0] == '#' || ' ' !in line ==> SampleOf(line, number).None?
    ensures SampleOf(line, number).Some? ==>
      var r := SampleOf(line, number).value;
      var k := LastIndexOf(line, ' ');
      && k >= 0 && number(line[k + 1..]) == Some(r.1.value)
      && '{' !in r.0 && r.0 <= line[..k]
      && ('{' !in line[..k] ==> r.0 == line[..k] && r.1.labels == map[])
  {
    if SampleOf(line, number).Some? {
      var k := LastIndexOf(line, ' ');
      var metricPart, valueText := line[..k], line[k + 1..];
      assert line != [] && line[0] != '#' && k >= 0 && number(valueText).Some?;
      SampleOfParts(line, metricPart, valueText, number);
      var nameAndLabels := NameAndLabels(metricPart);
      assert SampleOf(line, number).value == (nameAndLabels.0, Sample(nameAndLabels.1, number(valueText).value));
    }
  }

  /** Adds a sample under its name, opening the name's list on first sight. */
  function Push(metrics: Metrics, name: string, s: Sample): Metrics {
    metrics[name := (if name in metrics then metrics[name] else []) + [s]]
  }

  /** What one raw line does to the metrics read so far. */
  function Step(metrics: Metrics, line: string, number: Conversion): Metrics {
    match SampleOf(JsTrim(line), number)
    case None => metrics
    case Some((name, s)) => Push(metrics, name, s)
  }

  /** The metrics of some raw lines, read in order. */
  function Grouped(lines: seq<string>, number: Conversion): (r: Metrics)
    ensures forall name :: name in r ==> r[name] != []
  {
    if lines == [] then map[]
    else Step(Grouped(lines[..|lines| - 1], number), lines[|lines| - 1], number)
  }

  lemma GroupedSnoc(lines: seq<string>, i: nat, number: Conversion)
    requires i < |lines|
    ensures Grouped(lines[..i + 1], number) == Step(Grouped(lines[..i], number), lines[i], number)
  {
    assert lines[..i + 1][..i] == lines[..i];
  }

  /**
   * parsePrometheus: no text gives no metrics; otherwise the text is cut at
   * every newline and each trimmed line's sample is appended to its name's
   * list (empty text is one blank line, which gives no metrics either).
   */
  method ParsePrometheus(text: Option<string>, number: Conversion) returns (metrics: Metrics)
    ensures text.None? ==> metrics == map[]
    ensures text.Some? ==> metrics == Grouped(Split(text.value, '\n'), number)
  {
    metrics := map[];
    if text.None? {
      return;
    }
    var lines := Split(text.value, '\n');
    for i := 0 to |lines|
      invariant metrics == Grouped(lines[..i], number)
    {
      GroupedSnoc(lines, i, number);
      var sample := SampleOf(JsTrim(lines[i]), number);
      if sample.Some? {
        metrics := Push(metrics, sample.value.0, sample.value.1);
      }
    }
    assert lines[..|lines|] == lines;
  }

  /** Empty text is a single blank line and gives no metrics, as the source's early return does. */
  lemma EmptyTextNoMetrics(number: Conversion)
    ensures Grouped(Split("", '\n'), number) == map[]
  {
    assert Split("", '\n') == [""];
    assert JsTrim("") == "";
  }

  /** The samples some raw lines give, in order, with their names. */
  function Samples(lines: seq<string>, number: Conversion): seq<(string, Sample)> {
    if lines == [] then []
    else
      var before := Samples(lines[..|lines| - 1], number);
      match SampleOf(JsTrim(lines[|lines| - 1]), number)
      case None => before
      case Some(named) => before + [named]
  }

  /** The samples named `name`, in order. */
  function Named(samples: seq<(string, Sample)>, name: string): seq<Sample> {
    if samples == [] then []
    else (if samples[0].0 == name then [samples[0].1] else []) + Named(samples[1..], name)
  }

  lemma {:induction false} NamedSnoc(samples: seq<(string, Sample)>, x: (string, Sample), name: string)
    ensures Named(samples + [x], name) == Named(samples, name) + (if x.0 == name then [x.1] else [])
  {
    if samples != [] {
      NamedSnoc(samples[1..], x, name);
      assert (samples + [x])[1..] == samples[1..] + [x];
    } else {
      assert [x][1..] == [];
    }
  }

  /**
   * The metrics hold a name exactly when some line gave a sample of that
   * name, and its list holds exactly those samples, in input order.
   */
  lemma {:induction false} GroupedByName(lines: seq<string>, number: Conversion, name: string)
    ensures name in Grouped(lines, number) <==> Named(Samples(lines, number), name) != []
    ensures name in Grouped(lines, number) ==> Grouped(lines, number)[name] == Named(Samples(lines, number), name)
  {
    if lines != [] {
      var init := lines[..|lines| - 1];
      GroupedByName(init, number, name);
      match SampleOf(JsTrim(lines[|lines| - 1]), number)
      case None =>
      case Some(x) =>
        NamedSnoc(Samples(init, number), x, name);
    }
  }

  /** A line that is blank or a comment once trimmed, or that has no space, leaves the metrics as they are. */
  lemma SkippedLine(lines: seq<string>, line: string, number: Conversion)
    requires var t := JsTrim(line); t == [] || t[0] == '#' || ' ' !in t
    ensures Grouped(lines + [line], number) == Grouped(lines, number)
  {
    var all := lines + [line];
    assert all[..|all| - 1] == lines && all[|all| - 1] == line;
    SkipStep(Grouped(lines, number), line, number);
  }

  lemma SkipStep(metrics: Metrics, line: string, number: Conversion)
    requires var t := JsTrim(line); t == [] || t[0] == '#' || ' ' !in t
    ensures Step(metrics, line, number) == metrics
  {
    SampleOfShape(JsTrim(line), number);
  }

  /** A sample line without labels, `name value`, is read back as that name and value. */
  lemma PlainLineRead(name: string, valueText: string, number: Conversion)
    requires name != [] && name[0] != '#' && ' ' !in name && '{' !in name
    requires ' ' !in valueText && number(valueText).Some?
    ensures SampleOf(name + " " + valueText, number) == Some((name, Sample(map[], number(valueText).value)))
  {
    var line := name + " " + valueText;
    var k := LastIndexOf(line, ' ');
    assert line[|name|] == ' ';
    assert line[|name| + 1..] == valueText;
    assert k == |name|;
    assert line[..k] == name;
  }

  /** A label as the exposition format writes it: the key, `=`, and the value in double quotes. */
  function LabelText(key: string, value: string): string {
    key + "=\"" + value + "\""
  }

  /** The label tokens of some key and value pairs. */
  function LabelTexts(labels: seq<(string, string)>): (r: seq<string>)
    ensures |r| == |labels|
  {
    seq(|labels|, i requires 0 <= i < |labels| => LabelText(labels[i].0, labels[i].1))
  }

  /** A sample line with labels: the name, the labels in braces separated by commas, a space and the value. */
  function LabelledLine(name: string, labels: seq<(string, string)>, valueText: string): string {
    name + "{" + Join(LabelTexts(labels), ",") + "} " + valueText
  }

  /** A key that survives the reading: non-empty, and free of `=`, `,` and white space. */
  predicate PlainKey(key: string) {
    key != [] && forall c :: c in key ==> c != '=' && c != ',' && !JsSpace(c)
  }

  /** A value that survives the reading: free of `=`, `,` and spaces; it may be empty or hold quotes. */
  predicate PlainValue(value: string) {
    forall c :: c in value ==> c != '=' && c != ',' && c != ' '
  }

  /** A written label is read back as its key and value; an empty value survives, its quotes making the token's value part non-empty. */
  lemma LabelTextRead(key: string, value: string)
    requires PlainKey(key) && PlainValue(value)
    ensures LabelOf(LabelText(key, value)) == Some((key, value))
  {
    KeyUntrimmed(key);
    var quoted := "\"" + value + "\"";
    var t := key + "=" + quoted;
    assert t == LabelText(key, value);
    assert LabelOf(t) == Some((JsTrim(key), StripQuotes(quoted))) by {
      assert '=' !in key;
      QuotedHasNoEquals(value);
      LabelOfPair(key, quoted);
    }
    assert StripQuotes(quoted) == value by {
      QuotedHasNoEquals(value);
    }
  }

  lemma KeyUntrimmed(key: string)
    requires PlainKey(key)
    ensures JsTrim(key) == key
  {
    TrimNoBlank(key, JsSpace);
  }

  lemma QuotedHasNoEquals(value: string)
    requires PlainValue(value)
    ensures '=' !in "\"" + value + "\""
    ensures StripQuotes("\"" + value + "\"") == value
  {
    var quoted := "\"" + value + "\"";
    assert forall i :: 0 <= i < |quoted| ==> quoted[i] == '"' || quoted[i] == value[i - 1];
    assert quoted[1..|quoted| - 1] == value;
  }

  /** Written labels with distinct keys are read back as exactly those labels. */
  lemma LabelTextsRead(labels: seq<(string, string)>)
    requires forall i :: 0 <= i < |labels| ==> PlainKey(labels[i].0) && PlainValue(labels[i].1)
    requires forall i, j :: 0 <= i < j < |labels| ==> labels[i].0 != labels[j].0
    ensures forall key :: key in LabelsOf(LabelTexts(labels)) <==> exists i :: 0 <= i < |labels| && labels[i].0 == key
    ensures forall i :: 0 <= i < |labels| ==> LabelsOf(LabelTexts(labels))[labels[i].0] == labels[i].1
  {
    var tokens := LabelTexts(labels);
    forall i | 0 <= i < |labels|
      ensures LabelOf(tokens[i]) == Some(labels[i])
    {
      LabelTextRead(labels[i].0, labels[i].1);
    }
    forall i | 0 <= i < |labels|
      ensures labels[i].0 in LabelsOf(tokens) && LabelsOf(tokens)[labels[i].0] == labels[i].1
    {
      LabelsOfLast(tokens, labels[i].0, i);
    }
    forall key | key in LabelsOf(tokens)
      ensures exists i :: 0 <= i < |labels| && labels[i].0 == key
    {
      var i :| 0 <= i < |tokens| && Defines(tokens[i], key);
    }
  }

  /** Every character of a join is a separator or a character of some part. */
  lemma {:induction false} CharsOfJoin(parts: seq<string>, sep: char, c: char)
    requires c in Join(parts, [sep])
    ensures c == sep || exists i :: 0 <= i < |parts| && c in parts[i]
  {
    if |parts| > 1 {
      assert Join(parts, [sep]) == parts[0] + [sep] + Join(parts[1..], [sep]);
      if c !in parts[0] && c != sep {
        CharsOfJoin(parts[1..], sep, c);
        var i :| 0 <= i < |parts[1..]| && c in parts[1..][i];
        assert parts[i + 1] == parts[1..][i];
      }
    }
  }

  /** The text between the braces of a written sample line: no space, no `{`-free prefix issue, and it starts with a key. */
  lemma LabelBodyShape(labels: seq<(string, string)>)
    requires |labels| >= 1
    requires forall i :: 0 <= i < |labels| ==> PlainKey(labels[i].0) && PlainValue(labels[i].1)
    ensures var body := Join(LabelTexts(labels), ",");
      && ' ' !in body && body != [] && !JsSpace(body[0])
      && Split(body, ',') == LabelTexts(labels)
  {
    var tokens := LabelTexts(labels);
    var body := Join(tokens, ",");
    forall i | 0 <= i < |tokens|
      ensures ' ' !in tokens[i] && ',' !in tokens[i]
    {
      var k := labels[i].0;
      var v := labels[i].1;
      assert forall c :: c in tokens[i] ==> c == '=' || c == '"' || c in k || c in v;
      assert JsSpace(' ');
    }
    if ' ' in body {
      CharsOfJoin(tokens, ',', ' ');
    }
    assert body[..|tokens[0]|] == tokens[0] by {
      if |tokens| > 1 {
        assert body == tokens[0] + "," + Join(tokens[1..], ",");
      }
    }
    assert tokens[0][0] == labels[0].0[0] && labels[0].0[0] in labels[0].0;
    SplitJoin(tokens, ',');
  }

  /** Trimming keeps a text that opens with a non-blank character non-empty. */
  lemma TrimKeepsOpening(s: string)
    requires s != [] && !JsSpace(s[0])
    ensures JsTrim(s) != []
  {
    assert TrimLeft(s, JsSpace) == s;
  }

  /**
   * The round trip of a labelled sample line: a name followed by labels with
   * distinct keys in braces and a numeric value is read back as that name,
   * those labels and that value.
   */
  lemma LabelledLineRead(name: string, labels: seq<(string, string)>, valueText: string, number: Conversion)
    requires name != [] && name[0] != '#' && '{' !in name && ' ' !in name
    requires |labels| >= 1
    requires forall i :: 0 <= i < |labels| ==> PlainKey(labels[i].0) && PlainValue(labels[i].1)
    requires forall i, j :: 0 <= i < j < |labels| ==> labels[i].0 != labels[j].0
    requires ' ' !in valueText && number(valueText).Some?
    ensures var r := SampleOf(LabelledLine(name, labels, valueText), number);
      && r.Some? && r.value.0 == name && r.value.1.value == number(valueText).value
      && (forall key :: key in r.value.1.labels <==> exists i :: 0 <= i < |labels| && labels[i].0 == key)
      && (forall i :: 0 <= i < |labels| ==> r.value.1.labels[labels[i].0] == labels[i].1)
  {
    var body := Join(LabelTexts(labels), ",");
    LabelBodyShape(labels);
    var line := LabelledLine(name, labels, valueText);
    assert SampleOf(line, number) == Some((name, Sample(LabelsOf(LabelTexts(labels)), number(valueText).value))) by {
      assert line == name + "{" + body + "} " + valueText;
      assert line[0] == name[0];
      LabelledLineParts(name, body, valueText);
      TrimKeepsOpening(body);
      var metricPart := name + "{" + body + "}";
      SampleOfParts(line, metricPart, valueText, number);
      NameAndLabelsOf(metricPart, name, body);
    }
    LabelTextsRead(labels);
  }

  /** The reading of a line once its value and the text before it are located. */
  lemma SampleOfParts(line: string, metricPart: string, valueText: string, number: Conversion)
    requires line != [] && line[0] != '#'
    requires LastIndexOf(line, ' ') == |metricPart|
    requires line[..|metricPart|] == metricPart && line[|metricPart| + 1..] == valueText
    requires number(valueText).Some?
    ensures SampleOf(line, number) == Some((NameAndLabels(metricPart).0, Sample(NameAndLabels(metricPart).1, number(valueText).value)))
  {
    var k := LastIndexOf(line, ' ');
    assert line[..k] == metricPart && line[k + 1..] == valueText;
  }

  /** The name and labels once the first `{` and the label text are located. */
  lemma NameAndLabelsOf(metricPart: string, name: string, body: string)
    requires IndexOf(metricPart, '{') == |name| && metricPart[..|name|] == name
    requires Substring(metricPart, |name| + 1, LastIndexOf(metricPart, '}')) == body
    requires JsTrim(body) != []
    ensures NameAndLabels(metricPart) == (name, LabelsOf(Split(body, ',')))
  {
  }

  /** Where the reading of a line `name{body} value` finds the value, the name and the label text. */
  lemma LabelledLineParts(name: string, body: string, valueText: string)
    requires '{' !in name && ' ' !in name && ' ' !in body && ' ' !in valueText
    ensures var metricPart := name + "{" + body + "}";
      var line := name + "{" + body + "} " + valueText;
      && LastIndexOf(line, ' ') == |metricPart|
      && line[..|metricPart|] == metricPart && line[|metricPart| + 1..] == valueText
      && IndexOf(metricPart, '{') == |name| && metricPart[..|name|] == name
      && Substring(metricPart, |name| + 1, LastIndexOf(metricPart, '}')) == body
  {
    var metricPart := name + "{" + body + "}";
    var line := name + "{" + body + "} " + valueText;
    assert line == metricPart + " " + valueText;
    assert ' ' !in metricPart;
    assert line[|metricPart|] == ' ' && line[|metricPart| + 1..] == valueText;
    assert metricPart[|name|] == '{' && metricPart[..|name|] == name;
    assert LastIndexOf(metricPart, '}') == |metricPart| - 1;
    assert metricPart[|name| + 1..|metricPart| - 1] == body;
  }

  /** The first sample, in order, whose labels satisfy `p`. */
  function Find(entries: seq<Sample>, p: Labels -> bool): (r: Option<real>)
    ensures r.None? <==> forall i :: 0 <= i < |entries| ==> !p(entries[i].labels)
    ensures r.Some? ==> exists i :: FirstAccepted(entries, p, i) && r.value == entries[i].value
  {
    if entries == [] then None
    else if p(entries[0].labels) then
      assert FirstAccepted(entries, p, 0);
      Some(entries[0].value)
    else
      var r := Find(entries[1..], p);
      FindShift(entries, p, r);
      r
  }

  /** Entry `i` is the first one whose labels satisfy `p`. */
  predicate FirstAccepted(entries: seq<Sample>, p: Labels -> bool, i: int) {
    0 <= i < |entries| && p(entries[i].labels) && forall j :: 0 <= j < i ==> !p(entries[j].labels)
  }

  lemma FindShift(entries: seq<Sample>, p: Labels -> bool, r: Option<real>)
    requires entries != [] && !p(entries[0].labels)
    requires r.None? <==> forall i :: 0 <= i < |entries| - 1 ==> !p(entries[1..][i].labels)
    requires r.Some? ==> exists i :: FirstAccepted(entries[1..], p, i) && r.value == entries[1..][i].value
    ensures r.None? <==> forall i :: 0 <= i < |entries| ==> !p(entries[i].labels)
    ensures r.Some? ==> exists i :: FirstAccepted(entries, p, i) && r.value == entries[i].value
  {
    assert forall i :: 1 <= i < |entries| ==> entries[i] == entries[1..][i - 1];
    if r.Some? {
      var i :| FirstAccepted(entries[1..], p, i) && r.value == entries[1..][i].value;
      assert FirstAccepted(entries, p, i + 1);
    }
  }

  /**
   * firstMetricValue: null for a missing result, an absent name or no
   * samples; without a predicate the first sample's value, with one the
   * value of the first sample whose labels satisfy it, or null.
   */
  function FirstMetricValue(parsed: Option<Metrics>, name: string, filter: Option<Labels -> bool>): (r: Option<real>)
    ensures parsed.None? || name !in parsed.value || parsed.value[name] == [] ==> r.None?
    ensures parsed.Some? && name in parsed.value && parsed.value[name] != [] ==>
      var entries := parsed.value[name];
      && (filter.None? ==> r == Some(entries[0].value))
      && (filter.Some? ==> r == Find(entries, filter.value))
  {
    if parsed.None? || name !in parsed.value || parsed.value[name] == [] then None
    else if filter.None? then Some(parsed.value[name][0].value)
    else Find(parsed.value[name], filter.value)
  }

  /** A predicate every sample satisfies finds what no predicate finds. */
  lemma FirstWithTrivialPredicate(parsed: Option<Metrics>, name: string)
    ensures FirstMetricValue(parsed, name, Some((l: Labels) => true)) == FirstMetricValue(parsed, name, None)
  {
  }

  /** The sum of the values of the samples `keep` accepts. */
  function Total(entries: seq<Sample>, keep: Labels -> bool): real {
    if entries == [] then 0.0
    else (if keep(entries[0].labels) then entries[0].value else 0.0) + Total(entries[1..], keep)
  }

  /**
   * sumMetric: 0 for a missing result or an absent name; otherwise the sum
   * of the values of the samples the predicate accepts (all of them without
   * one). Floating-point rounding is not modelled: the sum is exact.
   */
  function SumMetric(parsed: Option<Metrics>, name: string, filter: Option<Labels -> bool>): (r: real)
    ensures parsed.None? || name !in parsed.value ==> r == 0.0
    ensures parsed.Some? && name in parsed.value && filter.Some? ==> r == Total(parsed.value[name], filter.value)
    ensures parsed.Some? && name in parsed.value && filter.None? ==> r == Total(parsed.value[name], (l: Labels) => true)
  {
    if parsed.None? || name !in parsed.value then 0.0
    else
      var keep := if filter.Some? then filter.value else (l: Labels) => true;
      Total(parsed.value[name], keep)
  }

  /** The samples a predicate accepts and those it rejects sum to the whole. */
  lemma {:induction false} TotalSplits(entries: seq<Sample>, p: Labels -> bool)
    ensures Total(entries, p) + Total(entries, (l: Labels) => !p(l)) == Total(entries, (l: Labels) => true)
  {
    if entries != [] {
      TotalSplits(entries[1..], p);
    }
  }

  /** Summing with a predicate and with its negation adds up to summing without one. */
  lemma SumSplits(parsed: Option<Metrics>, name: string, p: Labels -> bool)
    ensures SumMetric(parsed, name, Some(p)) + SumMetric(parsed, name, Some((l: Labels) => !p(l)))
      == SumMetric(parsed, name, None)
  {
    if parsed.Some? && name in parsed.value {
      TotalSplits(parsed.value[name], p);
    }
  }
}

=== FILE: start_endpoint.dfy ===
/**
 * The `start` endpoint: the request body is read in a fixed order (jar
 * path, agent port, agent jar, arguments, environment variables), the
 * environment list is collected into a map, the jar path is checked and
 * made absolute, and only then is the supervisor asked to start the
 * process. The file system's `exists` and the working directory are
 * parameters.
 */
module StartEndpoint {
  import opened Wrappers
  import opened Numbers
  import opened Json
  import opened Paths
  import opened Launch
  import opened Processes

  /** The agent port when the body does not give a usable one. */
  const DEFAULT_AGENT_PORT: int := 9404

  /**
   * The agent port: a number keeps its low 32 bits; any other value is
   * rendered as text and parsed, keeping 9404 when that fails (a null
   * value fails the same way, and the failure is swallowed).
   */
  function AgentPortOf(cfg: Body): (r: int)
    ensures IsInt32(r)
    ensures r != DEFAULT_AGENT_PORT ==> "agentPort" in cfg && (cfg["agentPort"].JNumber? || cfg["agentPort"].JText?)
    ensures "agentPort" in cfg && cfg["agentPort"].JText? && ParseInt(cfg["agentPort"].text).None? ==> r == DEFAULT_AGENT_PORT
  {
    if "agentPort" !in cfg then DEFAULT_AGENT_PORT
    else
      match cfg["agentPort"]
      case JNumber(n) => Wrap32(n)
      case JText(s) => if ParseInt(s).Some? then ParseInt(s).value else DEFAULT_AGENT_PORT
      case _ => DEFAULT_AGENT_PORT
  }

  /** A port sent as an in-range number, or as its decimal text, is the port used. */
  lemma AgentPortReadsBack(cfg: Body, port: int)
    requires IsInt32(port)
    ensures AgentPortOf(cfg["agentPort" := JNumber(port)]) == port
    ensures AgentPortOf(cfg["agentPort" := JText(IntToDecimal(port))]) == port
  {
    ParseRendersBack(port, INT32_MIN, INT32_MAX);
  }

  /** One element of the `args` list as the supervisor receives it: the cast does not look at elements. */
  function ArgOf(item: Json): (r: Arg)
    ensures r.ArgText? <==> item.JText?
    ensures r.ArgText? ==> r.text == item.text
    ensures r.ArgNull? <==> item.JNull?
  {
    match item
    case JText(s) => ArgText(s)
    case JNull => ArgNull
    case _ => ArgOther
  }

  /**
   * `args`: absent reads as an empty list; null stays null; a list is taken
   * element for element, because the cast to `List<String>` checks only
   * that the value is a list; anything else fails that cast.
   */
  function ArgsOf(cfg: Body): (r: Result<Option<seq<Arg>>, Fault>)
    ensures "args" !in cfg ==> r == Ok(Some([]))
    ensures "args" in cfg ==> (r.Ok? <==> cfg["args"].JList? || cfg["args"].JNull?)
    ensures "args" in cfg && cfg["args"].JNull? ==> r == Ok(None)
    ensures "args" in cfg && cfg["args"].JList? ==>
      var items := cfg["args"].items;
      && r.Ok? && r.value.Some? && |r.value.value| == |items|
      && forall i :: 0 <= i < |items| ==> r.value.value[i] == ArgOf(items[i])
  {
    if "args" !in cfg then Ok(Some([]))
    else
      match cfg["args"]
      case JList(items) => Ok(Some(seq(|items|, i requires 0 <= i < |items| => ArgOf(items[i]))))
      case JNull => Ok(None)
      case _ => Err(ClassCast)
  }

  /** A list of texts reaches the supervisor as those strings, in order. */
  lemma ArgsOfTexts(cfg: Body, args: seq<string>)
    ensures ArgsOf(cfg["args" := JList(seq(|args|, i requires 0 <= i < |args| => JText(args[i])))]) == Ok(Some(AsArgs(args)))
  {
    var items := seq(|args|, i requires 0 <= i < |args| => JText(args[i]));
    var r := ArgsOf(cfg["args" := JList(items)]);
    assert r.Ok? && r.value.Some?;
    assert r.value.value == AsArgs(args);
  }

  /** One environment variable as the body gives it: the key may be null, the value may not. */
  datatype EnvVar = EnvVar(key: Option<string>, value: string)

  /**
   * One item of `envVars` as `toMap` reads it: the item must be an object;
   * its key is read first, then its value, which must not be null.
   */
  function EnvVarOf(item: Json): (r: Result<EnvVar, Fault>)
    ensures r.Ok? <==>
      && item.JObject?
      && TextField(item.fields, "key").Ok?
      && TextField(item.fields, "value").Ok? && TextField(item.fields, "value").value.Some?
    ensures r.Ok? ==>
      r.value == EnvVar(TextField(item.fields, "key").value, TextField(item.fields, "value").value.value)
  {
    match item
    case JObject(fields) =>
      (match TextField(fields, "key")
       case Err(e) => Err(e)
       case Ok(key) =>
         match TextField(fields, "value")
         case Err(e) => Err(e)
         case Ok(None) => Err(NullPointer)
         case Ok(Some(value)) => Ok(EnvVar(key, value)))
    case JNull => Err(NullPointer)
    case _ => Err(ClassCast)
  }

  /** Every item reads as an environment variable and no key occurs twice. */
  predicate EnvListOk(items: seq<Json>) {
    && (forall i :: 0 <= i < |items| ==> EnvVarOf(items[i]).Ok?)
    && (forall i, j :: 0 <= i < j < |items| && EnvVarOf(items[i]).Ok? && EnvVarOf(items[j]).Ok? ==>
          EnvVarOf(items[i]).value.key != EnvVarOf(items[j]).value.key)
  }

  /**
   * `Collectors.toMap(key, value)` over the items in order: it throws at the
   * first item that does not read or whose key came before; otherwise the
   * map holds every item's value under its key.
   */
  function CollectEnv(items: seq<Json>): (r: Result<map<Option<string>, string>, Fault>)
    ensures r.Ok? <==> EnvListOk(items)
    ensures r.Ok? ==> r.value.Keys == set i | 0 <= i < |items| :: EnvVarOf(items[i]).value.key
    ensures r.Ok? ==> forall i :: 0 <= i < |items| ==> r.value[EnvVarOf(items[i]).value.key] == EnvVarOf(items[i]).value.value
  {
    if items == [] then Ok(map[])
    else
      var init := items[..|items| - 1];
      var last := items[|items| - 1];
      match CollectEnv(init)
      case Err(e) =>
        EnvListOkOfInit(items);
        Err(e)
      case Ok(env) =>
        match EnvVarOf(last)
        case Err(e) => Err(e)
        case Ok(v) =>
          if v.key in env then
            EnvListDuplicate(items, env);
            Err(DuplicateKey)
          else
            EnvListSnoc(items, env);
            Ok(env[v.key := v.value])
  }

  /** A list that collects has a collecting prefix. */
  lemma EnvListOkOfInit(items: seq<Json>)
    requires |items| >= 1
    ensures EnvListOk(items) ==> EnvListOk(items[..|items| - 1])
  {
    var init := items[..|items| - 1];
    assert forall i :: 0 <= i < |init| ==> init[i] == items[i];
  }

  /** An item whose key an earlier item had stops the collection. */
  lemma EnvListDuplicate(items: seq<Json>, env: map<Option<string>, string>)
    requires |items| >= 1 && EnvListOk(items[..|items| - 1])
    requires var init := items[..|items| - 1];
      env.Keys == set i | 0 <= i < |init| :: EnvVarOf(init[i]).value.key
    requires EnvVarOf(items[|items| - 1]).Ok? && EnvVarOf(items[|items| - 1]).value.key in env
    ensures !EnvListOk(items)
  {
    var init := items[..|items| - 1];
    var i :| 0 <= i < |init| && EnvVarOf(init[i]).value.key == EnvVarOf(items[|items| - 1]).value.key;
    assert init[i] == items[i];
  }

  /** An item with a new key extends the collection of the items before it. */
  lemma EnvListSnoc(items: seq<Json>, env: map<Option<string>, string>)
    requires |items| >= 1 && EnvListOk(items[..|items| - 1])
    requires var init := items[..|items| - 1];
      && env.Keys == (set i | 0 <= i < |init| :: EnvVarOf(init[i]).value.key)
      && forall i :: 0 <= i < |init| ==> env[EnvVarOf(init[i]).value.key] == EnvVarOf(init[i]).value.value
    requires EnvVarOf(items[|items| - 1]).Ok? && EnvVarOf(items[|items| - 1]).value.key !in env
    ensures EnvListOk(items)
    ensures var v := EnvVarOf(items[|items| - 1]).value;
      && env[v.key := v.value].Keys == (set i | 0 <= i < |items| :: EnvVarOf(items[i]).value.key)
      && forall i :: 0 <= i < |items| ==> env[v.key := v.value][EnvVarOf(items[i]).value.key] == EnvVarOf(items[i]).value.value
  {
    var init := items[..|items| - 1];
    var n := |items| - 1;
    assert forall i :: 0 <= i < n ==> items[i] == init[i];
    assert forall i :: 0 <= i < n ==> EnvVarOf(items[i]).value.key in env;
    EnvListSnocOk(items, env);
    var v := EnvVarOf(items[n]).value;
    assert (set i | 0 <= i < |items| :: EnvVarOf(items[i]).value.key)
      == (set i | 0 <= i < |init| :: EnvVarOf(init[i]).value.key) + {v.key};
  }

  lemma EnvListSnocOk(items: seq<Json>, env: map<Option<string>, string>)
    requires |items| >= 1 && EnvListOk(items[..|items| - 1])
    requires forall i :: 0 <= i < |items| - 1 ==> EnvVarOf(items[i]).Ok? && EnvVarOf(items[i]).value.key in env
    requires EnvVarOf(items[|items| - 1]).Ok? && EnvVarOf(items[|items| - 1]).value.key !in env
    ensures EnvListOk(items)
  {
    var init := items[..|items| - 1];
    assert forall i :: 0 <= i < |init| ==> items[i] == init[i];
  }

  /** `envVars`: absent reads as an empty list; anything but a list fails. */
  function EnvItemsOf(cfg: Body): (r: Result<seq<Json>, Fault>)
    ensures "envVars" !in cfg ==> r == Ok([])
    ensures "envVars" in cfg ==> (r.Ok? <==> cfg["envVars"].JList?)
    ensures "envVars" in cfg && r.Ok? ==> r.value == cfg["envVars"].items
  {
    if "envVars" !in cfg then Ok([])
    else
      match cfg["envVars"]
      case JList(items) => Ok(items)
      case JNull => Err(NullPointer)
      case _ => Err(ClassCast)
  }

  /**
   * Everything `start` reads from the body before it looks at the jar path
   * reads without throwing: the jar path and agent jar are text or null,
   * `args` is a list or null, and `envVars` collects into a map.
   */
  predicate BodyReads(cfg: Body)
    ensures "jarPath" !in cfg && "agentJar" !in cfg && "args" !in cfg && "envVars" !in cfg ==> BodyReads(cfg)
    ensures "args" in cfg && !cfg["args"].JList? && cfg["args"] != JNull ==> !BodyReads(cfg)
  {
    && TextField(cfg, "jarPath").Ok?
    && TextField(cfg, "agentJar").Ok?
    && ArgsOf(cfg).Ok?
    && EnvItemsOf(cfg).Ok? && CollectEnv(EnvItemsOf(cfg).value).Ok?
  }

  /** What `start` hands to the supervisor once the request has passed its checks. */
  datatype Launching = Launching(jarPath: string, agentPort: int, args: Option<seq<Arg>>, agentJar: Option<string>)

  const JAR_REQUIRED: string := "jarPath is required"
  const JAR_NOT_FOUND: string := "JAR file not found: "

  /**
   * The checks of `start` before the supervisor is called: the response it
   * gives early, or the launch it asks for. A body that does not read
   * fails with a server error even when the jar path is missing, because
   * the environment list is collected first; a missing jar path is a 400;
   * a path string `Paths.get` refuses escapes; a file that does not exist
   * is a 400 naming the path as given; otherwise the absolute path (not
   * normalised) is launched.
   */
  function StartCheck(cfg: Body, cwd: Path, onDisk: Path -> bool): (r: Result<Launching, Response>)
    requires cwd.absolute
    ensures !BodyReads(cfg) ==> r == Err(ServerError)
    ensures BodyReads(cfg) && TextField(cfg, "jarPath").value.None? ==>
      r == Err(Reply(400, JObject(map["error" := JText(JAR_REQUIRED)])))
    ensures BodyReads(cfg) && TextField(cfg, "jarPath").value.Some? ==>
      var jar := TextField(cfg, "jarPath").value.value;
      && (NUL in jar ==> r == Err(ServerError))
      && (NUL !in jar && !onDisk(ToAbsolute(Parse(jar).value, cwd)) ==>
            r == Err(Reply(400, JObject(map["error" := JText(JAR_NOT_FOUND + jar)]))))
    ensures r.Ok? ==>
      && BodyReads(cfg) && TextField(cfg, "jarPath").value.Some?
      && var jar := TextField(cfg, "jarPath").value.value;
      && Parse(jar).Ok? && onDisk(ToAbsolute(Parse(jar).value, cwd))
      && r.value == Launching(Render(ToAbsolute(Parse(jar).value, cwd)), AgentPortOf(cfg),
                           ArgsOf(cfg).value, TextField(cfg, "agentJar").value)
  {
    match TextField(cfg, "jarPath")
    case Err(_) => Err(ServerError)
    case Ok(jarPath) =>
      var agentPort := AgentPortOf(cfg);
      match TextField(cfg, "agentJar")
      case Err(_) => Err(ServerError)
      case Ok(agentJar) =>
        match ArgsOf(cfg)
        case Err(_) => Err(ServerError)
        case Ok(args) =>
          match EnvItemsOf(cfg)
          case Err(_) => Err(ServerError)
          case Ok(items) =>
            if CollectEnv(items).Err? then Err(ServerError)
            else if jarPath.None? then
              MapOfOne("error", JText(JAR_REQUIRED));
              Err(Respond(400, [("error", Some(JText(JAR_REQUIRED)))]))
            else
              match Parse(jarPath.value)
              case Err(_) => Err(ServerError)
              case Ok(p) =>
                var file := ToAbsolute(p, cwd);
                if !onDisk(file) then
                  MapOfOne("error", JText(JAR_NOT_FOUND + jarPath.value));
                  Err(Respond(400, [("error", Some(JText(JAR_NOT_FOUND + jarPath.value)))]))
                else Ok(Launching(Render(file), agentPort, args, agentJar))
  }

  /**
   * The path handed to the supervisor is absolute and, read back as a path,
   * is exactly the existing file the request named, resolved against the
   * working directory.
   */
  lemma LaunchedJarIsAbsolute(cfg: Body, cwd: Path, onDisk: Path -> bool)
    requires cwd.absolute && GoodNames(cwd.names)
    requires StartCheck(cfg, cwd, onDisk).Ok?
    ensures var l := StartCheck(cfg, cwd, onDisk).value;
      && l.jarPath != [] && l.jarPath[0] == '/'
      && Parse(l.jarPath).Ok? && onDisk(Parse(l.jarPath).value)
  {
    var jar := TextField(cfg, "jarPath").value.value;
    var file := ToAbsolute(Parse(jar).value, cwd);
    assert GoodNames(file.names);
    ParseRender(file);
  }

  /**
   * start: the early responses change nothing; otherwise the supervisor is
   * asked to start the launch (environment variables are read but not
   * passed on) and the response is 201 with the new id when it succeeds,
   * 500 with the message of its IOException, or a server error when the
   * argument list makes it throw something else.
   */
  method Start(m: ProcessManager, cfg: Body, cwd: Path, onDisk: Path -> bool, spawn: Spawn, now: int)
    returns (r: Response)
    requires m.Valid() && cwd.absolute
    modifies m
    ensures m.Valid()
    ensures StartCheck(cfg, cwd, onDisk).Err? ==>
      && r == StartCheck(cfg, cwd, onDisk).error
      && m.nextId == old(m.nextId) && m.processes == old(m.processes) && m.history == old(m.history)
      && m.logBuffers == old(m.logBuffers) && m.logEmitters == old(m.logEmitters)
      && m.nextSubscriber == old(m.nextSubscriber)
    ensures StartCheck(cfg, cwd, onDisk).Ok? ==>
      && m.nextId == (if |old(m.processes)| < m.maxProcesses then old(m.nextId) + 1 else old(m.nextId))
      && m.nextSubscriber == old(m.nextSubscriber)
    ensures StartCheck(cfg, cwd, onDisk).Ok? ==>
      var l := StartCheck(cfg, cwd, onDisk).value;
      var failure := StartFailure(|old(m.processes)|, m.maxProcesses, l.args, m.maxXmxSetting, spawn);
      && (failure.None? ==>
            && r == Reply(201, JObject(map["id" := JNumber(old(m.nextId))]))
            && old(m.nextId) !in old(m.processes) && old(m.nextId) in m.processes
            && m.processes[old(m.nextId)].jarPath == l.jarPath
            && m.processes[old(m.nextId)].port == l.agentPort)
      && (failure.Some? && failure.value.BadArgList? ==> r == ServerError)
      && (failure.Some? && !failure.value.BadArgList? ==>
            r == Reply(500, JObject(map["error" := JText(StartErrorMessage(failure.value))])))
      && (failure.Some? ==>
            && m.processes == old(m.processes) && m.history == old(m.history)
            && m.logBuffers == old(m.logBuffers) && m.logEmitters == old(m.logEmitters))
  {
    var check := StartCheck(cfg, cwd, onDisk);
    if check.Err? {
      return check.error;
    }
    r := StartLaunch(m, check.value, spawn, now);
  }

  /** The supervisor call of `start` and the response made of its outcome. */
  method StartLaunch(m: ProcessManager, l: Launching, spawn: Spawn, now: int) returns (r: Response)
    requires m.Valid()
    modifies m
    ensures m.Valid()
    ensures m.nextId == (if |old(m.processes)| < m.maxProcesses then old(m.nextId) + 1 else old(m.nextId))
    ensures m.nextSubscriber == old(m.nextSubscriber)
    ensures var failure := StartFailure(|old(m.processes)|, m.maxProcesses, l.args, m.maxXmxSetting, spawn);
      && (failure.None? ==>
            && r == Reply(201, JObject(map["id" := JNumber(old(m.nextId))]))
            && old(m.nextId) !in old(m.processes) && old(m.nextId) in m.processes
            && m.processes[old(m.nextId)].jarPath == l.jarPath
            && m.processes[old(m.nextId)].port == l.agentPort)
      && (failure.Some? && failure.value.BadArgList? ==> r == ServerError)
      && (failure.Some? && !failure.value.BadArgList? ==>
            r == Reply(500, JObject(map["error" := JText(StartErrorMessage(failure.value))])))
      && (failure.Some? ==>
            && m.processes == old(m.processes) && m.history == old(m.history)
            && m.logBuffers == old(m.logBuffers) && m.logEmitters == old(m.logEmitters))
  {
    var started := m.StartProcess(l.jarPath, l.agentPort, l.args, l.agentJar, spawn, now);
    match started
    case Ok(mp) =>
      MapOfOne("id", JNumber(mp.id));
      r := Respond(201, [("id", Some(JNumber(mp.id)))]);
    case Err(BadArgList) =>
      r := ServerError;
    case Err(e) =>
      MapOfOne("error", JText(StartErrorMessage(e)));
      r := Respond(500, [("error", Some(JText(StartErrorMessage(e))))]);
  }
}

=== FILE: tasks.dfy ===
/**
 * The background-task registry: an id counter, the map from task id to the
 * future of its run, and the bounded executor that admits or rejects each
 * submission. The executor's scheduling is reduced to its occupancy and to
 * the rule by which it takes a new task.
 */
module Tasks {
  import opened Wrappers

  /** The executor keeps one core thread, runs at most two and queues at most 50 tasks. */
  const CORE_POOL_SIZE: nat := 1
  const MAX_POOL_SIZE: nat := 2
  const QUEUE_CAPACITY: nat := 50

  /** The executor's occupancy: live worker threads and tasks waiting in its queue. */
  datatype Pool = Pool(workers: nat, queued: nat)

  predicate Bounded(p: Pool) {
    p.workers <= MAX_POOL_SIZE && p.queued <= QUEUE_CAPACITY
  }

  /**
   * How the executor takes a task: a new thread while there are fewer than
   * the core threads, else a queue slot while the queue has room, else a new
   * thread while there are fewer than the maximum; otherwise the abort policy
   * rejects it (`None`).
   */
  function Admit(p: Pool): (r: Option<Pool>)
    ensures r.None? <==> p.workers >= MAX_POOL_SIZE && p.queued >= QUEUE_CAPACITY
    ensures r.Some? ==> r.value.workers + r.value.queued == p.workers + p.queued + 1
    ensures r.Some? ==> p.workers <= r.value.workers && p.queued <= r.value.queued
    ensures Bounded(p) && r.Some? ==> Bounded(r.value)
  {
    if p.workers < CORE_POOL_SIZE then Some(p.(workers := p.workers + 1))
    else if p.queued < QUEUE_CAPACITY then Some(p.(queued := p.queued + 1))
    else if p.workers < MAX_POOL_SIZE then Some(p.(workers := p.workers + 1))
    else None
  }

  /** Within its bounds the executor rejects exactly when both threads are live and the queue is full. */
  lemma RejectsOnlyWhenSaturated(p: Pool)
    requires Bounded(p)
    ensures Admit(p).None? <==> p == Pool(MAX_POOL_SIZE, QUEUE_CAPACITY)
  {
  }

  /** A worker that finishes its task takes the oldest queued one. */
  function Dequeue(p: Pool): (r: Pool)
    requires p.queued > 0
    ensures Bounded(p) ==> Bounded(r)
    ensures r.workers == p.workers && r.queued + 1 == p.queued
  {
    p.(queued := p.queued - 1)
  }

  /** A thread beyond the core one that stays idle for the keep-alive time exits. */
  function Retire(p: Pool): (r: Pool)
    requires p.workers > CORE_POOL_SIZE
    ensures Bounded(p) ==> Bounded(r)
    ensures r.workers + 1 == p.workers && r.workers >= CORE_POOL_SIZE && r.queued == p.queued
  {
    p.(workers := p.workers - 1)
  }

  /** The state of a task's future: not done yet, done by running, or done by cancellation. */
  datatype Future = Pending | Completed | Cancelled {
    predicate IsDone() {
      !Pending?
    }
  }

  /** Why a submission failed: the executor's abort policy threw. */
  datatype SubmitError = RejectedExecution

  /** The ids among `ids` whose tracked future is not done. */
  function Active(tasks: map<int, Future>, ids: set<int>): (r: set<int>)
    ensures r <= ids && r <= tasks.Keys
    ensures forall i :: i in r <==> i in ids && i in tasks && !tasks[i].IsDone()
  {
    set i | i in ids && i in tasks && !tasks[i].IsDone()
  }

  /** A subset is no larger than the set that holds it. */
  lemma {:induction false} SubsetCardinality(a: set<int>, b: set<int>)
    requires a <= b
    ensures |a| <= |b|
    decreases |b|
  {
    if a != {} {
      if forall y :: y !in a {
        assert false;
      }
      var x :| x in a;
      SubsetCardinality(a - {x}, b - {x});
    }
  }

  class TaskManager {
    /** The next id to issue; ids start at 1. */
    var nextId: int
    /** The tracked futures; entries leave only through cancel. */
    var tasks: map<int, Future>
    var pool: Pool

    /** Every tracked id was issued by the counter; the executor stays within its bounds. */
    ghost predicate Valid()
      reads this
    {
      && 1 <= nextId
      && (forall i :: i in tasks ==> 1 <= i < nextId)
      && Bounded(pool)
    }

    constructor ()
      ensures Valid()
      ensures nextId == 1 && tasks == map[] && pool == Pool(0, 0)
    {
      nextId := 1;
      tasks := map[];
      pool := Pool(0, 0);
    }

    /**
     * submit: the id is drawn first, so a rejected submission still consumes
     * it; an accepted one tracks exactly the new id, with a future not done.
     */
    method Submit() returns (r: Result<int, SubmitError>)
      requires Valid()
      modifies this
      ensures Valid()
      ensures nextId == old(nextId) + 1
      ensures r.Ok? <==> Admit(old(pool)).Some?
      ensures r.Ok? ==>
        && r.value == old(nextId) && r.value !in old(tasks)
        && tasks == old(tasks)[r.value := Pending]
        && pool == Admit(old(pool)).value
      ensures r.Err? ==> tasks == old(tasks) && pool == old(pool)
    {
      var id := nextId;
      nextId := nextId + 1;
      match Admit(pool)
      case None =>
        r := Err(RejectedExecution);
      case Some(admitted) =>
        pool := admitted;
        tasks := tasks[id := Pending];
        r := Ok(id);
    }

    /** A pending task finishes its run; its entry stays tracked. */
    method Complete(id: int)
      requires Valid()
      modifies this
      ensures Valid()
      ensures id in old(tasks) && old(tasks)[id] == Pending ==> tasks == old(tasks)[id := Completed]
      ensures !(id in old(tasks) && old(tasks)[id] == Pending) ==> tasks == old(tasks)
      ensures nextId == old(nextId) && pool == old(pool)
    {
      if id in tasks && tasks[id] == Pending {
        tasks := tasks[id := Completed];
      }
    }

    /** getActiveCount: the tracked futures that are not done, counted one by one. */
    method GetActiveCount() returns (c: int)
      ensures c == |Active(tasks, tasks.Keys)|
      ensures 0 <= c <= |tasks|
    {
      c := 0;
      var rest := tasks.Keys;
      ghost var seen: set<int> := {};
      while rest != {}
        invariant rest + seen == tasks.Keys && rest !! seen
        invariant c == |Active(tasks, seen)|
        decreases |rest|
      {
        if forall j :: j !in rest {
          assert false;
        }
        var i :| i in rest;
        if !tasks[i].IsDone() {
          assert Active(tasks, seen + {i}) == Active(tasks, seen) + {i};
          c := c + 1;
        } else {
          assert Active(tasks, seen + {i}) == Active(tasks, seen);
        }
        rest := rest - {i};
        seen := seen + {i};
      }
      assert seen == tasks.Keys;
      SubsetCardinality(Active(tasks, seen), tasks.Keys);
    }

    /** list: the tracked map itself, whose ids were all drawn from the counter. */
    function List(): (r: map<int, Future>)
      reads this
      ensures r == tasks
      ensures Valid() ==> forall i :: i in r ==> 1 <= i < nextId
    {
      tasks
    }

    /**
     * cancel: an unknown id gives false and changes nothing; a tracked id is
     * removed whatever happens next, and the answer is whether its future was
     * still not done (cancelling a done future fails).
     */
    method Cancel(id: int) returns (r: bool)
      requires Valid()
      modifies this
      ensures Valid()
      ensures id !in old(tasks) ==> !r && tasks == old(tasks)
      ensures id in old(tasks) ==> tasks == old(tasks) - {id} && (r <==> !old(tasks)[id].IsDone())
      ensures nextId == old(nextId) && pool == old(pool)
    {
      if id !in tasks {
        return false;
      }
      var f := tasks[id];
      tasks := tasks - {id};
      r := !f.IsDone();
    }
  }

  /** A second cancel of the same id always answers false. */
  method CancelTwice(m: TaskManager, id: int) returns (first: bool, second: bool)
    requires m.Valid()
    modifies m
    ensures m.Valid()
    ensures first ==> id in old(m.tasks)
    ensures !second && id !in m.tasks
  {
    first := m.Cancel(id);
    second := m.Cancel(id);
  }
}

=== FILE: text.dfy ===
/**
 * String operations of the Java and JavaScript standard libraries that the
 * supervisor, the controllers and the UI helpers rely on, written out on
 * `seq<char>`.
 */
module Text {

  /** The characters `String.trim` of Java removes: every char up to U+0020. */
  predicate JavaBlank(c: char) {
    c <= ' '
  }

  /**
   * The characters JavaScript's `trim` and the regular-expression class `\s`
   * treat as white space: WhiteSpace and LineTerminator of ECMA-262.
   */
  predicate JsSpace(c: char) {
    || c == '\t' || c == '\n' || c == '\U{000B}' || c == '\U{000C}' || c == '\r'
    || c == ' ' || c == '\U{00A0}' || c == '\U{1680}'
    || ('\U{2000}' <= c <= '\U{200A}')
    || c == '\U{2028}' || c == '\U{2029}' || c == '\U{202F}' || c == '\U{205F}'
    || c == '\U{3000}' || c == '\U{FEFF}'
  }

  /** Drops the leading characters that `blank` accepts. */
  function TrimLeft(s: string, blank: char -> bool): (r: string)
    ensures |r| <= |s| && r == s[|s| - |r|..]
    ensures r == [] || !blank(r[0])
    ensures forall i :: 0 <= i < |s| - |r| ==> blank(s[i])
    decreases |s|
  {
    if s != [] && blank(s[0]) then
      var r := TrimLeft(s[1..], blank);
      TrimLeftStep(s, r, blank);
      r
    else s
  }

  lemma TrimLeftStep(s: string, r: string, blank: char -> bool)
    requires s != [] && blank(s[0]) && |r| <= |s| - 1 && r == s[1..][|s| - 1 - |r|..]
    requires forall i :: 0 <= i < |s| - 1 - |r| ==> blank(s[1..][i])
    ensures r == s[|s| - |r|..] && forall i :: 0 <= i < |s| - |r| ==> blank(s[i])
  {
    assert forall i :: 1 <= i < |s| ==> s[i] == s[1..][i - 1];
  }

  /** Drops the trailing characters that `blank` accepts. */
  function TrimRight(s: string, blank: char -> bool): (r: string)
    ensures |r| <= |s| && r == s[..|r|]
    ensures r == [] || !blank(r[|r| - 1])
    ensures forall i :: |r| <= i < |s| ==> blank(s[i])
    decreases |s|
  {
    if s != [] && blank(s[|s| - 1]) then
      var r := TrimRight(s[..|s| - 1], blank);
      TrimRightStep(s, s[..|s| - 1], r, blank);
      r
    else s
  }

  lemma TrimRightStep(s: string, init: string, r: string, blank: char -> bool)
    requires s != [] && blank(s[|s| - 1]) && init == s[..|s| - 1]
    requires |r| <= |init| && r == init[..|r|] && forall i :: |r| <= i < |init| ==> blank(init[i])
    ensures r == s[..|r|] && forall i :: |r| <= i < |s| ==> blank(s[i])
  {
    assert forall i :: 0 <= i < |init| ==> s[i] == init[i];
  }

  /** Drops the blanks at both ends. */
  function Trim(s: string, blank: char -> bool): (r: string)
    ensures |r| <= |s|
    ensures r == [] || (!blank(r[0]) && !blank(r[|r| - 1]))
  {
    TrimRight(TrimLeft(s, blank), blank)
  }

  /** Trimming a string without blanks leaves it as it is. */
  lemma TrimNoBlank(s: string, blank: char -> bool)
    requires forall i :: 0 <= i < |s| ==> !blank(s[i])
    ensures Trim(s, blank) == s
  {
  }

  /** Java's `String.trim`. */
  function JavaTrim(s: string): string {
    Trim(s, JavaBlank)
  }

  /** JavaScript's `String.prototype.trim`. */
  function JsTrim(s: string): string {
    Trim(s, JsSpace)
  }

  /** Index of the first `c` in `s`, or -1 (`indexOf` of Java and JavaScript). */
  function IndexOf(s: string, c: char): (r: int)
    ensures -1 <= r < |s|
    ensures r == -1 <==> c !in s
    ensures r >= 0 ==> s[r] == c && c !in s[..r]
  {
    if s == [] then -1
    else if s[0] == c then 0
    else
      var k := IndexOf(s[1..], c);
      IndexOfStep(s, s[1..], k, c);
      if k < 0 then -1 else k + 1
  }

  lemma IndexOfStep(s: string, tail: string, k: int, c: char)
    requires s != [] && s[0] != c && tail == s[1..]
    requires -1 <= k < |tail| && (k == -1 <==> c !in tail) && (k >= 0 ==> tail[k] == c && c !in tail[..k])
    ensures k == -1 <==> c !in s
    ensures k >= 0 ==> s[k + 1] == c && c !in s[..k + 1]
  {
    assert s == [s[0]] + tail;
    if k >= 0 {
      assert s[..k + 1] == [s[0]] + tail[..k];
    }
  }

  /** Index of the last `c` in `s`, or -1 (`lastIndexOf`). */
  function LastIndexOf(s: string, c: char): (r: int)
    ensures -1 <= r < |s|
    ensures r == -1 <==> c !in s
    ensures r >= 0 ==> s[r] == c && c !in s[r + 1..]
  {
    if s == [] then -1
    else if s[|s| - 1] == c then |s| - 1
    else
      var k := LastIndexOf(s[..|s| - 1], c);
      LastIndexOfStep(s, s[..|s| - 1], k, c);
      k
  }

  lemma LastIndexOfStep(s: string, init: string, k: int, c: char)
    requires s != [] && s[|s| - 1] != c && init == s[..|s| - 1]
    requires -1 <= k < |init| && (k == -1 <==> c !in init) && (k >= 0 ==> init[k] == c && c !in init[k + 1..])
    ensures k == -1 <==> c !in s
    ensures k >= 0 ==> s[k] == c && c !in s[k + 1..]
  {
    assert s == init + [s[|s| - 1]];
    if k >= 0 {
      assert s[k + 1..] == init[k + 1..] + [s[|s| - 1]];
    }
  }

  /**
   * `split` on a single character, as JavaScript's `String.prototype.split`
   * does it: every separator cuts, empty pieces are kept.
   */
  function Split(s: string, sep: char): (r: seq<string>)
    ensures |r| >= 1
    ensures forall i :: 0 <= i < |r| ==> sep !in r[i]
    decreases |s|
  {
    var k := IndexOf(s, sep);
    if k < 0 then [s]
    else
      var rest := Split(s[k + 1..], sep);
      NoSeparatorCons(s[..k], rest, sep);
      [s[..k]] + rest
  }

  lemma NoSeparatorCons(head: string, rest: seq<string>, sep: char)
    requires sep !in head && forall i :: 0 <= i < |rest| ==> sep !in rest[i]
    ensures forall i :: 0 <= i < |rest| + 1 ==> sep !in ([head] + rest)[i]
  {
    assert forall i :: 1 <= i < |rest| + 1 ==> ([head] + rest)[i] == rest[i - 1];
  }

  /** Concatenation of `parts` with `sep` between neighbours. */
  function Join(parts: seq<string>, sep: string): string {
    if |parts| == 0 then ""
    else if |parts| == 1 then parts[0]
    else parts[0] + sep + Join(parts[1..], sep)
  }

  /** Joining the pieces back with the separator gives the original text. */
  lemma {:induction false} JoinSplit(s: string, sep: char)
    ensures Join(Split(s, sep), [sep]) == s
    decreases |s|
  {
    var k := IndexOf(s, sep);
    if k >= 0 {
      var head := s[..k];
      var tail := s[k + 1..];
      Around(s, k);
      var rest := Split(tail, sep);
      assert Split(s, sep) == [head] + rest;
      JoinSplit(tail, sep);
      JoinCons(head, rest, [sep]);
    }
  }

  lemma Around(s: string, k: nat)
    requires k < |s|
    ensures s == s[..k] + [s[k]] + s[k + 1..]
  {
  }

  lemma JoinCons(head: string, rest: seq<string>, sep: string)
    requires |rest| >= 1
    ensures Join([head] + rest, sep) == head + sep + Join(rest, sep)
  {
    assert ([head] + rest)[1..] == rest;
  }

  /** Splitting a join of separator-free pieces gives the pieces back. */
  lemma {:induction false} SplitJoin(parts: seq<string>, sep: char)
    requires |parts| >= 1
    requires forall i :: 0 <= i < |parts| ==> sep !in parts[i]
    ensures Split(Join(parts, [sep]), sep) == parts
  {
    if |parts| > 1 {
      var rest := Join(parts[1..], [sep]);
      var s := parts[0] + [sep] + rest;
      FirstSeparator(parts[0], sep, rest);
      assert s[..|parts[0]|] == parts[0];
      assert s[|parts[0]| + 1..] == rest;
      SplitJoin(parts[1..], sep);
    } else {
      assert IndexOf(parts[0], sep) == -1;
    }
  }

  lemma FirstSeparator(p: string, sep: char, rest: string)
    requires sep !in p
    ensures IndexOf(p + [sep] + rest, sep) == |p|
  {
    var s := p + [sep] + rest;
    assert s[|p|] == sep;
    assert s[..|p|] == p;
  }

  /** Java's `String.contains`: `sub` occurs somewhere in `s`. */
  predicate Contains(s: string, sub: string)
    decreases |s|
  {
    sub <= s || (s != [] && Contains(s[1..], sub))
  }

  /** `Contains` holds exactly when `sub` starts at some index of `s`. */
  lemma {:induction false} ContainsIff(s: string, sub: string)
    ensures Contains(s, sub) <==> exists i :: 0 <= i <= |s| && sub <= s[i..]
    decreases |s|
  {
    if s != [] {
      ContainsIff(s[1..], sub);
      if exists i :: 0 <= i <= |s| && sub <= s[i..] {
        var i :| 0 <= i <= |s| && sub <= s[i..];
        if i > 0 {
          assert s[1..][i - 1..] == s[i..];
        }
      }
      if exists j :: 0 <= j <= |s| - 1 && sub <= s[1..][j..] {
        var j :| 0 <= j <= |s| - 1 && sub <= s[1..][j..];
        assert s[1..][j..] == s[j + 1..];
      }
    }
  }

  /** ASCII upper-case letters become lower case; every other char is kept. */
  function LowerChar(c: char): char {
    if 'A' <= c <= 'Z' then (c as int + 32) as char else c
  }

  /** `toLowerCase` restricted to ASCII letters. */
  function ToLowerAscii(s: string): (r: string)
    ensures |r| == |s|
    ensures forall i :: 0 <= i < |s| ==> r[i] == LowerChar(s[i])
  {
    seq(|s|, i requires 0 <= i < |s| => LowerChar(s[i]))
  }

  /** `endsWith` of a one-character suffix. */
  predicate EndsWith(s: string, c: char) {
    |s| > 0 && s[|s| - 1] == c
  }
}

=== FILE: wrappers.dfy ===
/** Optional values and results with an error side, shared by every module of the model. */
module Wrappers {

  /** A value that may be missing: Java's null, JavaScript's undefined. */
  datatype Option<+T> = None | Some(value: T)

  /** The value, or `fallback` when it is missing. */
  function OrElse<T>(o: Option<T>, fallback: T): T {
    if o.Some? then o.value else fallback
  }

  /** The outcome of an operation that may fail with an exception. */
  datatype Result<+T, +E> = Ok(value: T) | Err(error: E)
}
